=== FILE: README.md ===
# PRogue simulation core in Dafny

This project models the simulation engine of PRogue, a curses roguelike written
in Python. The engine covers these parts:

- the entity record, with its name-keyed inventory, thirteen equipment slots,
  levelling and temporary boosts;
- item identity and the consumable-effect dispatch of the item catalogue;
- the level generator, which places rooms, carves corridors, walls the border and
  puts the stairs;
- the combat resolver;
- the turn engine: enemy AI, A*-style path search, move-or-attack, regeneration,
  the spawn timer and floor notices;
- stair transitions and the backpack commands.

Everything is immutable data and pure functions, plus a few methods where the
source loops. Randomness is never drawn inside the model. Each random choice is
an argument:

- dice are subset types: `D20` is 1..20, `Spread` is -2..2, `Gain` is 1..2;
- room rolls and corridor coin flips come as sequences;
- `get_random_floor` takes a sequence of cell draws;
- spawn statistics come in a `SpawnDraw`;
- level-up increases come as a stream `nat -> Growth`;
- the 5% loot and 30% potion chances come as booleans.

Python keeps the last definition of a method defined twice. The model follows
the later definitions:

- `use_stairs` at classes/game.py:359;
- `next_level` at classes/game.py:375;
- `use_item` at classes/game.py:473;
- `equip_item` at classes/game.py:447;
- `drop_backpack_item` at classes/game.py:305.

Modules follow the source files:

| module | source |
|---|---|
| `Items` | classes/item.py, `create_effect` in classes/item_loader.py |
| `Inventory`, `Entities` | classes/entity.py |
| `Combat` | classes/combat_system.py |
| `MapGen`, `LevelPaths` | classes/map_generator.py |
| `PathFinder` | `find_path` in classes/game.py |
| `GameState`, `GameCombat`, `Turns`, `Levels`, `Backpack` | the rest of `Game` in classes/game.py |
| `Grids`, `Log`, `Wrappers` | shared vocabulary: cells, positions, routes, message tags, `Option` |

Some behaviour of the code is modelled as written, because it is how the game
plays:

- A player's kill runs the combat resolver twice: once in `Game.combat`, and
  again inside `player_attack_enemy`. Experience is awarded only if the second
  exchange also reports defeat (`Combat.KillWithoutXp`).
- The defender's dexterity bonus is counted twice: in the `defense` property
  and again in the defense value (`Combat.DexterityCountsTwice`).
- `find_path` pushes every cell except the start with priority infinity,
  because `fscore` is read before it is written. The search is therefore not
  A*-optimal. The model proves that a returned path is valid, and that `None`
  means the goal is unreachable.
- On a level with a single room, '>' is written over '<'. In that case the
  level has no up-stairs glyph, although the comments at
  classes/map_generator.py:80 and :86 describe an entry stair and an exit
  stair (`MapGen.GenerateLevel`, `MapGen.LevelLayout`).

## Model

| member | source | states |
|---|---|---|
| Items.SameItemIsByName | classes/item.py:11-17 | Two items are equal exactly when their names are equal; glyph, effect and slot play no part, and the hash key agrees with equality. |
| Items.CreateEffect | classes/item_loader.py:27-37 | Each of "heal", "restore_mana", "boost_strength" and "boost_dexterity" selects its own effect carrying the catalogue value (both directions), and only a kind outside these four yields the no-op effect. |
| Items.CreateEffectRoundTrip | classes/item_loader.py:27-37 | Every effect is produced by its own kind name and magnitude, so the dispatch loses no effect. |
| Items.MakeEquipment | classes/item.py:19-23 | Equipment keeps its name, glyph, slot and stat boost exactly as given and carries no consumable effect. |
| Items.CopyOf | classes/game.py:73-78 | A spawned item equals its catalogue template: equipment is copied whole; a consumable keeps name, glyph and effect but loses its duration. |
| Log.AppendOnce | classes/game.py:222-226 | A message ends up in the log; a message already present leaves the log unchanged; otherwise it is appended exactly once and nothing else is added. |
| Inventory.Find | classes/entity.py:132 | Returns the first stack with the given name, and None exactly when no stack has that name. |
| Inventory.Add | classes/entity.py:130-136 | The count of the added name rises by exactly one and every other count is unchanged. An existing stack is bumped in place, leaving the others untouched; otherwise a stack of one is appended. One stack per name and positive counts are preserved. |
| Inventory.Remove | classes/entity.py:138-145 | An absent name reports False and leaves the inventory unchanged. A present name reports True and lowers that count by exactly one, other counts unchanged; stacks that reach zero disappear, so every count stays positive. |
| Inventory.AddThenRemove | classes/entity.py:130-145 | Adding an item then removing it succeeds and restores every count. |
| Inventory.CountOfValid | classes/entity.py:130-145 | In a valid inventory the count of a name is its single stack's count, and the name is present exactly when its count is positive. |
| Entities.SlotOf | classes/entity.py:57-71 | The slot keys are exactly 'a'..'m', and each key maps to its own slot and back. |
| Entities.SlotNamed | classes/entity.py:240-242 | Finds the first slot carrying a given name, and None only when no slot has that name. |
| Entities.NewEntityValid | classes/entity.py:47-93 | A new entity starts with the entity invariants holding. With no equipment and attributes at 10, its damage and defense equal the base values given. |
| Entities.WeaponRaisesDamage | classes/entity.py:95-106 | A weapon worn in an empty weapon slot raises damage by exactly its stat boost and leaves defense unchanged. |
| Entities.ArmourRaisesDefense | classes/entity.py:95-106 | An item worn in an empty non-weapon slot raises defense by exactly its stat boost and leaves damage unchanged. |
| Entities.BoostsDoNotReachCombat | classes/entity.py:95-106 | Damage and defense read the raw attributes, so a temporary boost changes neither. |
| Entities.Restocked | classes/entity.py:111-114 | Putting the displaced item back adds one to its name's count and keeps the inventory valid. |
| Entities.Equip | classes/entity.py:108-118 | An item that is not equipment for the keyed slot leaves the entity unchanged and yields "Cannot equip". Otherwise the item occupies that slot, every other slot is unchanged and only slots and inventory change. |
| Entities.EquipConserves | classes/entity.py:108-118 | `equip` keeps the entity invariants. Wearing an item taken from the inventory conserves, for every name, the number carried plus worn. |
| Entities.EquipItem | classes/entity.py:240-248 | Equipment goes into the first slot named for it, with other slots unchanged; with no such slot the entity is unchanged and the reply is "No suitable slot". |
| Entities.EquipItemConserves | classes/entity.py:240-248 | `equip_item` keeps the entity invariants and, for an item the inventory held, conserves every name's carried-plus-worn total. |
| Entities.Unequip | classes/entity.py:250-256 | An unknown key or empty slot changes nothing. Otherwise the slot is emptied and the item's count in the inventory rises by one. Invariants and the carried-plus-worn totals are preserved. |
| Entities.EquipUnequipRoundTrip | classes/entity.py:240-256 | Equipping an inventory item into an empty slot and unequipping that slot restores the slots and every inventory count, and nothing else changes. |
| Entities.Heal | classes/entity.py:203-205 | Health becomes exactly the smaller of the maximum and health plus the amount: it exceeds neither, and equals one of them. A positive amount never lowers it. Only health changes. |
| Entities.RestoreMana | classes/entity.py:236-238 | Mana becomes exactly the smaller of the maximum and mana plus the amount: it exceeds neither, and equals one of them. A positive amount never lowers it. Only mana changes. |
| Entities.ScaleThreshold | classes/entity.py:173 | The next threshold is the truncated product by 1.5, which is (3t) div 2 for non-negative t and never below a positive t. |
| Entities.LevelUp | classes/entity.py:170-184 | Each level-up makes these changes: level +1; xp less the old threshold; the threshold becomes `int(t * 1.5)` of the old one (`ScaleThreshold`) and does not shrink; max health +10 and health refilled; base damage +2 and base defense +1; every attribute and speed +1 or +2. No other field changes. |
| Entities.Progress | classes/entity.py:165-168 | An independent arithmetic reference for the level-up loop. The remaining xp is below the final threshold, no level is gained exactly when xp is below the threshold, and the threshold never shrinks. |
| Entities.Settle | classes/entity.py:166-168 | The level-up loop agrees with the reference: levels, xp and threshold are those of `Progress`, stats grow by the per-level deltas times the levels gained, and only the levelling fields change. |
| Entities.GainXp | classes/entity.py:165-168 | Adding xp ends with xp below the threshold. Level, max health, base damage, base defense, attributes and speed rise once per threshold crossed, per `Progress`; with no threshold crossed only xp changes. Invariants hold, and no field outside levelling changes. |
| Entities.ProgressSplit | classes/entity.py:165-168 | Settling x + b equals settling x and then settling b on what remains: two xp gains level up as one combined gain does. |
| Entities.ApplyTemporaryBoost | classes/entity.py:218-221 | The boost replaces any boost on that stat, `get_stat` of that stat becomes base plus value, and every other stat reads as before. |
| Entities.UpdateTemporaryBoosts | classes/entity.py:223-228 | Every boost loses one turn and exactly those with no turns left are removed; nothing else changes. |
| Entities.BoostLifetime | classes/entity.py:218-234 | A boost set for d turns is still read by `get_stat` after d - 1 updates, and is gone after d, leaving the base value. |
| Entities.TickKeepsAbsent | classes/entity.py:223-228 | Updates never create a boost on a stat that has none, and never change attributes. |
| Entities.ApplyEffect | classes/item_loader.py:27-37 | Each effect does exactly what it names: heal, restore mana, or a 50-turn strength or dexterity boost; the no-op leaves the entity alone. Entity invariants are preserved. |
| Entities.CatalogEffects | classes/item_loader.py:27-37 | The effect built for each catalogue kind acts as that kind names, boosts last 50 turns whatever the catalogue says, and an unknown kind changes nothing. |
| Combat.Resolve | classes/combat_system.py:5-21 | Hit exactly when the attack roll reaches the defense value. A hit deals exactly `max(1, damage + spread)` for the drawn spread (so at least 1 and within 2 of the attacker's damage), removes exactly that much health and defeats exactly when health drops to zero or below. A miss changes nothing and never defeats. The log says which. |
| Combat.HitCostsHealth | classes/combat_system.py:10-12 | Every hit strictly lowers the defender's health. |
| Combat.PlayerAttackEnemy | classes/combat_system.py:28-39 | Experience 20 + 5 x level is gained exactly through `gain_xp` when this exchange defeats. Otherwise the player is unchanged and nothing drops. A drop happens exactly on defeat with the loot chance, and lies on the enemy's cell. |
| Combat.KillWithoutXp | classes/game.py:80-85 | The second exchange of a kill can miss, so a defeated enemy can award no experience. |
| Combat.DexterityCountsTwice | classes/combat_system.py:8 | Changing the defender's dexterity changes the defense value by twice the change in the dexterity bonus (10 to 14 adds four, not two), because the bonus is counted both in `defense` and in the defense value. |
| MapGen.Clamp | classes/map_generator.py:4-6 | Height is at most screen height - 5 and at least 10 when the screen allows; width is at most screen width - 5 and at least 20. A size already in range is kept. One below the minimum becomes the minimum, or the screen bound if that is smaller; one above the screen bound becomes the screen bound. |
| MapGen.ClampIdempotent | classes/map_generator.py:4-6 | Clamping an already clamped size changes nothing. |
| MapGen.SharedCellIsOverlap | classes/map_generator.py:69-71 | Two rooms that share a cell overlap under the strict rectangle test, in either order. |
| MapGen.CarveRoom | classes/map_generator.py:45-48 | Exactly the room's cells become floor; every other cell is unchanged. |
| MapGen.HTunnel | classes/map_generator.py:61-63 | Exactly the cells of the row between the two x values, inclusive and in either order, become floor. |
| MapGen.VTunnel | classes/map_generator.py:65-67 | Exactly the cells of the column between the two y values, inclusive and in either order, become floor. |
| MapGen.Corridor | classes/map_generator.py:50-59 | Exactly the cells of the L between the two midpoints become floor, horizontal first or vertical first per the coin. |
| MapGen.CorridorInterior | classes/map_generator.py:50-67 | Corridor cells between rooms inside the border never touch the outer ring. |
| MapGen.PlaceRooms | classes/map_generator.py:23-37 | The first attempt's room (drawn origin, clamped size) is appended exactly when it has space and overlaps no earlier room, and its cells carved; the remaining attempts then run on the result. Otherwise the attempt adds nothing and the remaining attempts run unchanged. Earlier rooms are kept. Every room has height 3..5 and width 5..7, stays inside the border and is pairwise disjoint; its cells are floor, and floor stays floor. |
| MapGen.PlaceRoomsCells | classes/map_generator.py:23-48 | Placement turns into floor exactly the cells of the rooms it adds; every other cell keeps its value. |
| MapGen.FirstRoomPlaced | classes/map_generator.py:23-37 | When the first attempt fits, at least one room is placed. |
| MapGen.DrawnSizeFits | classes/map_generator.py:24-29 | Any drawn room size passes the space check, so every attempt reaches the overlap test. |
| MapGen.Connect | classes/map_generator.py:40-41 | Every corridor between consecutive rooms is floor. Only walls and floor appear, the frame stays wall and floor stays floor. |
| MapGen.CorridorKeepsFrame | classes/map_generator.py:50-67 | A corridor between rooms inside the border never touches the top row or the side columns. |
| MapGen.ConnectCells | classes/map_generator.py:40-41 | Connecting turns into floor exactly the corridor cells; every other cell keeps its value. |
| MapGen.GenerateMapAndRooms | classes/map_generator.py:18-43 | The rooms are those placement accepts, no more than the attempts. Rooms are disjoint and inside the border, and the frame is wall. A cell is floor exactly when it lies in a room or on a corridor between consecutive rooms; every other cell is wall. |
| MapGen.WallBottom | classes/map_generator.py:12-14 | Exactly the bottom row becomes wall. |
| MapGen.Generate | classes/map_generator.py:8-16 | The carved map keeps its rooms, corridors and frame, and its bottom row is wall. Above the bottom row a cell is floor exactly when it lies in a room or on a corridor. |
| MapGen.DistinctEnds | classes/map_generator.py:80-90 | With two or more disjoint rooms the first and last midpoints differ, so '<' and '>' both survive. |
| MapGen.PlaceStairs | classes/map_generator.py:84-90 | '>' at the down cell and '<' at the up cell, unless the two coincide; every other cell is unchanged. |
| MapGen.GenerateLevel | classes/map_generator.py:73-95 | '<' at the first room's midpoint and '>' at the last's, which overwrites '<' when there is one room. At least one room. Every other cell is the generated map. |
| MapGen.LevelLayout | classes/map_generator.py:73-95 | A generated level has 1..min(10, h x w div 100) disjoint in-border rooms and a wall ring on all four sides. There is exactly one '>', and one '<' exactly when there are two or more rooms. Only the four glyphs appear, and rooms and corridors are walkable. |
| LevelPaths.HSeg | classes/map_generator.py:61-63 | The walk along a horizontal tunnel runs from one end to the other in single steps and stays on the tunnel's cells. |
| LevelPaths.VSeg | classes/map_generator.py:65-67 | The walk along a vertical tunnel runs from one end to the other in single steps and stays on the tunnel's cells. |
| LevelPaths.CorridorIsRoute | classes/map_generator.py:50-59 | A carved corridor can be walked from one room's midpoint to the next. |
| LevelPaths.TourIsRoute | classes/map_generator.py:40-41 | The chained corridors connect the first room's midpoint to every later room's. |
| LevelPaths.StairsConnected | classes/map_generator.py:73-95 | On every generated level the down stairs can be reached from the up stairs, where the player starts. |
| Grids.WalkableIsPassable | classes/game.py:201-202 | Every cell a player may enter is a cell the path search may enter. |
| Grids.StepIsOffset | classes/game.py:398 | The eight neighbour offsets are exactly the king moves. |
| Grids.StepDistance | classes/game.py:440-441 | One step changes the Chebyshev distance to any cell by at most one. |
| GameState.Distance | classes/game.py:440-441 | The distance is the larger of the two coordinate gaps, and zero exactly on the same cell. |
| GameState.AdjacentIsStep | classes/game.py:440-441 | Distance at most 1 holds exactly when two entities share a cell or are king-move neighbours. |
| GameState.IsValidMove | classes/game.py:201-202 | A move is valid exactly when the cell is in bounds and is '.', '<' or '>'. |
| GameState.RandomFloor | classes/game.py:194-199 | The chosen cell is the first draw that is plain floor with no enemy on it; None exactly when no draw qualifies. |
| GameState.MakeEnemy | classes/game.py:182-192 | A spawned enemy stands on its cell, is named "Enemy Lv<depth>", has the drawn health, damage and defense, and carries one potion exactly when the chance came up. |
| GameState.SpawnEnemy | classes/game.py:182-192 | A new enemy is appended on the first free floor draw, and only the roster changes. No free draw means no spawn. The game invariants hold. |
| GameState.SpawnEnemies | classes/game.py:182-192 | Spawning n enemies appends n enemies on floor cells, keeps the earlier roster and changes nothing else. |
| GameState.RandomFloorFrame | classes/game.py:194-199 | The cell drawn depends only on the map and the roster, so adding items or changing the log does not move it. |
| GameState.SpawnEnemiesBuilt | classes/game.py:182-192 | Enemy i is the enemy built from draw i at the current depth, standing on its cell. When the first enemy finds no free cell, the whole spawn fails. |
| GameState.SpawnEnemiesLand | classes/game.py:182-199 | When every first cell draw is free floor and no two coincide, the spawn succeeds and enemy i stands on the first cell of draw i. |
| GameState.ItemCount | classes/game.py:63-66 | At least one item per level, (5 + depth) div 2 from depth -3 on. |
| GameState.SpawnItems | classes/game.py:63-71 | Each new item is a fresh copy of its template on a floor cell; earlier items and everything else are unchanged. |
| GameState.SpawnItemsFail | classes/game.py:63-71 | Spawning items fails exactly when some item's cell draws hold no free floor cell. |
| GameState.SpawnItemsPlaced | classes/game.py:63-71 | Item i lies on the cell `get_random_floor` picks from draw i on the game before any item is added. |
| GameState.ScoreCountsStacksOnce | classes/game.py:347-349 | The escape total sums inventory equipment per stack, so picking up another copy of an owned item does not change it. |
| GameCombat.RemoveKeepsSane | classes/game.py:82-84 | Removing a defeated enemy keeps the game invariants. |
| GameCombat.Reward | classes/game.py:84-87 | After a kill the player becomes the result of `player_attack_enemy`. Its log follows, and any drop is appended on the fallen enemy's cell. |
| GameCombat.Fall | classes/game.py:82-87 | A defeated enemy leaves the roster, with the others in order. At most one item is appended, on the enemy's cell. The player keeps position, inventory and equipment. |
| GameCombat.PlayerStrikes | classes/game.py:80-91 | The player's exchange is logged. A survivor stays in place with its new health; a defeated enemy is removed and may drop loot on its cell. The invariants hold. |
| GameCombat.EnemyStrikes | classes/game.py:80-91 | An enemy's exchange can only lower the player's health and logs "Game Over!" exactly when the player is defeated; nothing else changes. |
| Turns.Alive | classes/game.py:205-206 | The survivors are exactly the enemies with positive health. |
| Turns.AliveKeepsSane | classes/game.py:205-206 | Dropping the dead keeps the game invariants, including distinct enemy cells. |
| Turns.EnemyAct | classes/game.py:238-246 | An adjacent enemy attacks, logs the exchange and does not move. Otherwise it moves one king step onto a free cell other than the player's, or stays. It moves only along a route toward the player, and never when the player is unreachable. When the player is reachable and no other enemy stands next to it, it does move. |
| Turns.MoveEnemies | classes/game.py:237-246 | Every enemy acts once in roster order. Only its cell may change, one step at most and never onto the player. The player only loses health. With no enemy adjacent nothing is logged, and with one adjacent the log grows. An enemy out of reach that can walk to the player, with no other enemy within two cells, moves. |
| Turns.ApartStaysClear | classes/game.py:238-246 | Enemies that acted earlier moved at most one step, so an enemy that started more than two cells from all others still has no neighbour when its turn comes. |
| Turns.Regenerate | classes/game.py:211-215 | On a multiple of ten turns health rises by exactly one unless already full, with a "feel better" message exactly when it rose. |
| Turns.Notices | classes/game.py:221-226 | Every item under the player gets a "Floor:" notice in the log. Nothing else is added. Each added notice was not in the log before and is added once. |
| Turns.NoticesIdempotent | classes/game.py:221-226 | Standing on the same items again adds no notice. |
| Turns.ScheduleSpawn | classes/game.py:217-219 | When 50 turns have passed, the enemy built from the spawn draw on its free cell is appended and the spawn turn is reset to now; otherwise nothing changes. It fails only when a spawn is due and the draw has no free cell. |
| Turns.Settle | classes/game.py:221-228 | The end of a turn logs the floor notices and ages the player's boosts by one turn. |
| Turns.EndTurn | classes/game.py:208-228 | The turn counter rises by one. Health follows `Regenerate`; a spawn happens when due and resets the spawn turn; boosts age by one. The spawn clock stays below 50, and the position, items and map are unchanged. |
| Turns.ProcessTurn | classes/game.py:204-228 | A turn advances the counter by one. The player stays put and gains at most one health, and the log only grows. The survivors of the clean-up remain, and items and map are unchanged. It fails only on a turn where a spawn is due. |
| Turns.FirstEnemyAt | classes/game.py:483 | Finds the first enemy on the target cell, and None exactly when the cell is empty. |
| Turns.PlayerMoveOrAttack | classes/game.py:481-489 | An enemy on the target is attacked with no move and no turn. Otherwise a valid target cell is entered and a turn passes; an invalid target changes nothing. It fails only on a valid move whose turn has a spawn due. |
| Turns.ActNext | classes/game.py:238-246 | One iteration of `move_enemies` extends `MovedSoFar` by enemy i: enemies up to i have acted (struck when adjacent, else at most one step along the path), later enemies are untouched, the player can only lose health, the log only grows, and each enemy that `Chases` has moved. |
| Levels.Layout | classes/game.py:177-178 | A generated level's stairs lie in bounds: '>' at the down cell and a walkable up cell. |
| Levels.Enter | classes/map_generator.py:92-93 | The player is placed on the up stairs of the new map, and only the map, rooms, stairs and position change. |
| Levels.SetUpLevel | classes/game.py:177-180 | `generate_level` installs the generated map and stairs and puts the player on '<'. It spawns one enemy per room and the depth's number of items; nothing else changes. It succeeds whenever every spawn lands on its first cell draw (`DrawsLand`). |
| Levels.SetUpBuilds | classes/game.py:177-192 | Each enemy of the new level is built from its room's spawn draw at the level's depth. |
| Levels.SpawnsLand | classes/game.py:177-199 | When the draws land, the enemy phase and then the item phase of `generate_level` both succeed. |
| Levels.ItemsLand | classes/game.py:63-71 | Items whose first draws are floor cells that no enemy stands on are all placed. |
| Levels.DescentLands | classes/game.py:375-380 | The level below is set up whenever its spawns land on their first draws. |
| Levels.Cleared | classes/game.py:375-379 | Changing depth logs the notice and empties the roster and floor items, keeping player, turn and spawn counters. |
| Levels.NextLevel | classes/game.py:375-380 | Descending raises the depth by one, logs the descent and builds the new level with the player on its up stairs. Turn and spawn counters are kept. It succeeds whenever the new level's draws land. |
| Levels.OntoDownStairs | classes/game.py:388-389 | After ascending, the player stands on the new level's '>'. |
| Levels.PreviousLevel | classes/game.py:382-389 | Ascending lowers the depth by one, logs the ascent and builds a new level with the player on its '>'. Turn and spawn counters are kept. It succeeds whenever the new level's draws land. |
| Levels.Escape | classes/game.py:345-356 | Leaving from the top level logs the treasure total and the closing prompt and marks the game over by escape. |
| Levels.UseStairs | classes/game.py:359-368 | 'down' on '>' descends. 'up' on '<' ascends below the top and escapes at the top. Anything else only logs "no stairs", and an escape can only come from 'up' on level 1. |
| Levels.ClimbFromArrival | classes/game.py:359-366 | On the '<' of a level below the top, 'up' takes the stairs and ascends one level, leaving the player on the new level's '>'. |
| Levels.DownThenUp | classes/game.py:359-389 | After a descent the player stands on '<', and going up returns to the original depth with the player on '>'. |
| Backpack.UseItem | classes/game.py:473-479 | An owned consumable applies its effect and leaves the inventory once, with "used" logged together with the effect's own reply (the healed or restored amount, or nothing). An item the player lacks only logs "you don't have". |
| Backpack.Consume | classes/game.py:474-477 | Using an owned consumable applies exactly its effect to the player, removes one copy of that name and no other, and logs the use with the effect's reply; position and everything outside the player and the log are unchanged. |
| Backpack.Entry | classes/game.py:282-284 | A letter selects the entry at index letter - 'a' + page x 26, and None exactly when that index is out of range. |
| Backpack.Equip | classes/game.py:463-465 | Equipment chosen from the backpack goes through the player's `equip_item`, whose reply is logged; only the player and the log change, and for a carried item every name's carried-plus-worn total is kept. |
| Backpack.EquipByKey | classes/game.py:447-467 | A letter picks the first-page entry; an out-of-range letter logs "Invalid item." Non-equipment, and keys that are neither letter nor equipment, are rejected. Equipment goes to the player's `equip_item`. Exactly one message; carried-plus-worn totals are conserved. |
| Backpack.UnequipByKey | classes/game.py:469-471 | The player's `unequip_item` reply is logged, and carried-plus-worn totals are conserved. |
| Backpack.DropBackpackItem | classes/game.py:305-316 | The entry under the letter leaves the inventory once and lies on the player's cell, and drop mode ends. Inventory plus floor count is conserved for every name; an invalid letter only logs "Invalid item.". |
| Backpack.UseBackpackItem | classes/game.py:280-290 | The entry under the letter is equipped if it is equipment and used otherwise; an invalid letter only logs "Invalid item.". |
| Backpack.DropThenAddRestores | classes/game.py:305-316 | Dropping an entry and picking the same item back up restores every inventory count. |
| PathFinder.EntryLessTransitive | classes/game.py:404-407 | The heap's (priority, (x, y)) ordering is transitive. |
| PathFinder.Heuristic | classes/game.py:391-392 | The Manhattan estimate lies between one and two times the Chebyshev distance, and is zero only at the goal. |
| PathFinder.MinIndex | classes/game.py:407 | The popped entry is a least entry of the heap. |
| PathFinder.FreshIsUnscored | classes/game.py:429-430 | A cell first seen has no f-score yet, so it enters the heap at priority infinity. |
| PathFinder.VisitNeighbour | classes/game.py:420-436 | Visiting a neighbour keeps parent links rooted at the start and the heap free of duplicates and closed cells. Afterwards the neighbour is closed or waiting. |
| PathFinder.Expand | classes/game.py:419-436 | After the neighbour loop every neighbour of every closed cell has been seen, and the search invariants hold. |
| PathFinder.PopKeeps | classes/game.py:406-417 | Popping a non-goal cell and closing it keeps the invariants and strictly shrinks the cells not yet closed, which bounds the search. |
| PathFinder.Reconstruct | classes/game.py:408-415 | Following parent links back from the goal gives a route from the start to the goal. |
| PathFinder.Exhausted | classes/game.py:406-438 | When the heap runs dry without reaching the goal, no route reaches it. |
| PathFinder.FindPath | classes/game.py:394-438 | A returned path starts at the start, ends at the goal and moves by king steps through in-bounds passable cells. None is returned exactly when the goal is unreachable. |

## Left out

- classes/renderer.py, classes/input_handler.py and pRoguelike.py: curses drawing and key input.
- The `draw_*`, `open_*_screen`, `handle_*_input`, `get_key`, `use_or_equip_item` and `game_loop` methods of `Game`: presentation, key dispatch and UI modes.
- `load_items` (classes/item_loader.py:5-25): file I/O. The catalogue is whatever items the draws supply.
- `exit_game`'s `wait_for_key` and `sys.exit`: I/O. `Levels.Escape` keeps its messages and sets an `escaped` flag. The `AttributeError` fallback cannot occur, because inventory equipment always has a stat boost.
- The difficulty scaling in `spawn_enemies` (classes/game.py:185-188) uses floats. `SpawnDraw` supplies the resulting health, damage and defense.
- `Entity.move` (classes/entity.py:150-163): the float speed multiplier, and the engine never calls it.
- `get_random_floor` retries without bound on an ambient random generator. It is modelled as the first qualifying cell of a finite sequence of draws, and `None` stands for "the source would still be drawing".
- Exact message text: messages are event tags in `Log.Msg` carrying the interpolated names and amounts, one tag per text shape. The two "Equipped" replies differ only in a final period and share a tag with a flag for it.
- `Entity.use_item` (classes/entity.py:120-128): nothing in the engine calls it, and it calls `equip` with the wrong number of arguments.
- Item `x`, `y` and `quantity` (classes/item.py:7-9): a floor item's position is carried by `Placed` and counts by the inventory's stacks.
- `Game.__init__`, `initialize_player`, `spawn_item_in_inventory`, `gain_xp`/`gain_gold` on `Game`, and the `Item` class in classes/entity.py: set-up and helpers outside the engine's turn logic.
- `pickup_item` and `check_collisions`: the first is a key command of the input handler and the second is never called; neither is part of the turn logic. `Inventory.Add` models the inventory half of picking up.
- `CombatSystem.create_random_item` returns the shared catalogue object itself. The model hands out the drawn item as a value, so the aliasing of later position writes is not modelled.
- `Backpack.DropBackpackItem`: the source drops the inventory `Counter`'s own key object, setting its position and appending that same object to the floor list (classes/game.py:305-312). While copies remain in the stack, a later drop of the same name from another cell moves the earlier floor copy too. The model drops an independent copy at the player's cell, so earlier floor copies stay where they were dropped.
- `PathFinder.FindPath`: optimality is not proved, and the source does not achieve it.
- Game bounds: `Game` checks moves and path cells against its own width and height, which exceed the map's. The model uses the map's dimensions; the wall ring means the extra rows and columns are never reached.
- `Entities.GainXp`: the level-up loop is a recursive function (`Entities.Settle`) rather than a loop.
- `Inventory`: the `Counter` is modelled as a sequence of stacks in insertion order, keyed by name.
- Duplicated methods: only the later definitions are modelled. The earlier `use_stairs`, `next_level`, `use_item`, `equip_item` and the duplicate `drop_backpack_item` are replaced at class creation.
- `Levels.SetUpLevel` requires an empty roster, which holds every time `generate_level` runs: `next_level` and `previous_level` clear it first.
- `Levels.PreviousLevel` requires depth above 1, the only case in which `use_stairs` calls it.
- `Levels.NextLevel`, `Levels.PreviousLevel`, `Levels.UseStairs` and `Levels.SetUpLevel` require a map on which the generator places a room with the draws given (`Levels.Buildable`). Outside that, the source fails: with fewer than 100 cells there are no attempts and `generate_level` indexes an empty room list; with fewer than 9 rows or 15 columns `randint` raises `ValueError` on the room size (classes/map_generator.py:24-25).
- `Backpack.UseItem` requires a consumable, which is the only kind its caller `use_backpack_item` passes.
- `Backpack.EquipByKey` reads letters on the first backpack page only, as the source does.
- `GameState.SpawnEnemies` and `Turns.EndTurn` return `None` when the draws run out before a free cell is found, where the source would keep drawing. `GameState.SpawnItemsFail` states exactly when the item phase fails; for enemies and for a whole level the model gives a sufficient condition for success (`GameState.SpawnEnemiesLand`, `Levels.DrawsLand`), not an exact one, because an enemy's cell depends on the cells taken by the enemies before it.

=== FILE: backpack.dfy ===
/**
 * The backpack commands of `Game` (classes/game.py): using a consumable,
 * equipping by letter or by item, unequipping, dropping the item under a
 * backpack letter, and the letter command that uses or equips.
 */
module Backpack {
  import opened Wrappers
  import opened Items
  import opened Log
  import opened Entities
  import opened Combat
  import opened GameState
  import Inventory

  /** Backpack letters run 'a'..'z'; this many entries fit on a page. */
  const PageSize: int := 26

  /** `use_item(item)` (the later definition): if the player carries an item
      of that name, its effect is applied to the player and one copy leaves
      the inventory; otherwise the log says the player does not have it. */
  function UseItem(g: Game, it: Item): (r: Game)
    requires Sane(g) && it.kind.Consumable?
    ensures Sane(r)
    ensures r == g.(player := r.player, messages := r.messages)
    ensures At(r.player) == At(g.player)
    ensures Inventory.Has(g.player.inventory, it.name) ==>
      && r.messages == g.messages + [Used(it.name, EffectReply(it.kind.effect))]
      && r.player == ApplyEffect(g.player, it.kind.effect).(inventory := r.player.inventory)
      && (forall name :: Inventory.Count(r.player.inventory, name) ==
            Inventory.Count(g.player.inventory, name) - (if name == it.name then 1 else 0))
    ensures !Inventory.Has(g.player.inventory, it.name) ==>
      r == g.(messages := g.messages + [DoNotHave(it.name)])
  {
    if Inventory.Has(g.player.inventory, it.name) then Consume(g, it)
    else g.(messages := g.messages + [DoNotHave(it.name)])
  }

  /** The owned case of `use_item`: the effect applies, one copy leaves the
      inventory and the use is logged with the effect's reply. */
  function Consume(g: Game, it: Item): (r: Game)
    requires Sane(g) && it.kind.Consumable? && Inventory.Has(g.player.inventory, it.name)
    ensures Sane(r)
    ensures r == g.(player := r.player, messages := r.messages)
    ensures At(r.player) == At(g.player)
    ensures r.messages == g.messages + [Used(it.name, EffectReply(it.kind.effect))]
    ensures r.player == ApplyEffect(g.player, it.kind.effect).(inventory := r.player.inventory)
    ensures forall name ::
      Inventory.Count(r.player.inventory, name) ==
        Inventory.Count(g.player.inventory, name) - (if name == it.name then 1 else 0)
  {
    var affected := ApplyEffect(g.player, it.kind.effect);
    var removal := Inventory.Remove(affected.inventory, it);
    var note := Used(it.name, EffectReply(it.kind.effect));
    g.(player := affected.(inventory := removal.inv), messages := g.messages + [note])
  }

  /** What `equip_item` is handed: a backpack letter, an item object, or
      anything else. */
  datatype ItemKey = Letter(c: char) | Given(it: Item) | Other

  /** The backpack entry under letter `c` on page `page`, if any. */
  function Entry(inv: Inventory.Inv, c: char, page: int): (r: Option<Item>)
    ensures var index := (c as int - 'a' as int) + page * PageSize;
      r.Some? <==> 0 <= index < |inv|
    ensures var index := (c as int - 'a' as int) + page * PageSize;
      r.Some? ==> r.value == inv[index].item
  {
    var index := (c as int - 'a' as int) + page * PageSize;
    if 0 <= index < |inv| then Some(inv[index].item) else None
  }

  /** Equipment handed to the player's `equip_item`, its reply logged. */
  function Equip(g: Game, it: Item): (r: Game)
    requires Sane(g) && it.kind.Equipment?
    ensures Sane(r)
    ensures r == g.(player := EquipItem(g.player, it).who, messages := g.messages + [EquipItem(g.player, it).msg])
    ensures Inventory.Has(g.player.inventory, it.name) ==>
      forall name :: Holdings(r.player, name) == Holdings(g.player, name)
  {
    EquipItemConserves(g.player, it);
    var reply := EquipItem(g.player, it);
    g.(player := reply.who, messages := g.messages + [reply.msg])
  }

  /** `equip_item(item_key)` (the later definition). A letter picks the entry
      on the first backpack page; an item object is taken as given when it is
      equipment. Equipment goes to the player's `equip_item`; anything else is
      not equippable. */
  function EquipByKey(g: Game, key: ItemKey): (r: Game)
    requires Sane(g)
    ensures Sane(r)
    ensures r == g.(player := r.player, messages := r.messages)
    ensures At(r.player) == At(g.player) && |r.messages| == |g.messages| + 1 && g.messages <= r.messages
    ensures key.Letter? && Entry(g.player.inventory, key.c, 0).None? ==> r == g.(messages := g.messages + [InvalidItem])
    ensures (key.Other? || (key.Given? && !key.it.kind.Equipment?)) ==>
      r == g.(messages := g.messages + [InvalidItemKey])
    ensures (key.Letter? && Entry(g.player.inventory, key.c, 0).Some? &&
             !Entry(g.player.inventory, key.c, 0).value.kind.Equipment?) ==>
      r == g.(messages := g.messages + [NotEquippable(Entry(g.player.inventory, key.c, 0).value.name)])
    ensures key.Letter? && Entry(g.player.inventory, key.c, 0).Some? ==>
      forall name :: Holdings(r.player, name) == Holdings(g.player, name)
    ensures key.Given? && key.it.kind.Equipment? ==>
      r == g.(player := EquipItem(g.player, key.it).who, messages := g.messages + [EquipItem(g.player, key.it).msg])
  {
    match key
    case Letter(c) =>
      (match Entry(g.player.inventory, c, 0)
       case None => g.(messages := g.messages + [InvalidItem])
       case Some(it) =>
         if it.kind.Equipment? then
           assert Inventory.Has(g.player.inventory, it.name) by {
             var index := c as int - 'a' as int;
             assert g.player.inventory[index].item.name == it.name;
           }
           Equip(g, it)
         else g.(messages := g.messages + [NotEquippable(it.name)]))
    case Given(it) =>
      if it.kind.Equipment? then Equip(g, it)
      else g.(messages := g.messages + [InvalidItemKey])
    case Other => g.(messages := g.messages + [InvalidItemKey])
  }

  /** `unequip_item(slot_key)`: the player's `unequip_item`, its message logged. */
  function UnequipByKey(g: Game, key: char): (r: Game)
    requires Sane(g)
    ensures Sane(r)
    ensures r == g.(player := r.player, messages := r.messages)
    ensures r.messages == g.messages + [Unequip(g.player, key).msg]
    ensures forall name :: Holdings(r.player, name) == Holdings(g.player, name)
    ensures SlotOf(key).None? || g.player.equipment[SlotOf(key).value].None? ==> r.player == g.player
  {
    var reply := Unequip(g.player, key);
    g.(player := reply.who, messages := g.messages + [reply.msg])
  }

  /** How many items of this name lie on the floor. */
  function FloorCount(items: seq<Placed>, name: string): nat {
    if |items| == 0 then 0
    else FloorCount(items[..|items| - 1], name) + (if items[|items| - 1].item.name == name then 1 else 0)
  }

  /** `drop_backpack_item(item_key)` (the later definition): the entry under
      the letter on the current page leaves the inventory (one copy) and lands
      on the player's cell; drop mode ends. A letter past the end only logs
      "Invalid item.". */
  function DropBackpackItem(g: Game, c: char): (r: Game)
    requires Sane(g)
    ensures Sane(r)
    ensures Entry(g.player.inventory, c, g.backpackPage).None? ==> r == g.(messages := g.messages + [InvalidItem])
    ensures Entry(g.player.inventory, c, g.backpackPage).Some? ==>
      var it := Entry(g.player.inventory, c, g.backpackPage).value;
      && r.items == g.items + [Placed(it, g.player.x, g.player.y)]
      && r.messages == g.messages + [DroppedItem(it.name)]
      && !r.dropMode
      && r.player == g.player.(inventory := r.player.inventory)
      && r == g.(player := r.player, items := r.items, messages := r.messages, dropMode := false)
    ensures forall name :: (Inventory.Count(r.player.inventory, name) + FloorCount(r.items, name) ==
      Inventory.Count(g.player.inventory, name) + FloorCount(g.items, name))
  {
    match Entry(g.player.inventory, c, g.backpackPage)
    case None => g.(messages := g.messages + [InvalidItem])
    case Some(it) =>
      var index := (c as int - 'a' as int) + g.backpackPage * PageSize;
      assert Inventory.Has(g.player.inventory, it.name) by {
        assert g.player.inventory[index].item.name == it.name;
      }
      var removal := Inventory.Remove(g.player.inventory, it);
      var items := g.items + [Placed(it, g.player.x, g.player.y)];
      assert items[..|items| - 1] == g.items;
      g.(player := g.player.(inventory := removal.inv), items := items,
         messages := g.messages + [DroppedItem(it.name)], dropMode := false)
  }

  /** `use_backpack_item(item_key)`: the entry under the letter on the
      current page is equipped if it is equipment and used otherwise. */
  function UseBackpackItem(g: Game, c: char): (r: Game)
    requires Sane(g)
    ensures Sane(r)
    ensures Entry(g.player.inventory, c, g.backpackPage).None? ==> r == g.(messages := g.messages + [InvalidItem])
    ensures Entry(g.player.inventory, c, g.backpackPage).Some? ==>
      var it := Entry(g.player.inventory, c, g.backpackPage).value;
      r == (if it.kind.Equipment? then EquipByKey(g, Given(it)) else UseItem(g, it))
    ensures (Entry(g.player.inventory, c, g.backpackPage).Some? &&
             Entry(g.player.inventory, c, g.backpackPage).value.kind.Equipment?) ==>
      forall name :: Holdings(r.player, name) == Holdings(g.player, name)
  {
    match Entry(g.player.inventory, c, g.backpackPage)
    case None => g.(messages := g.messages + [InvalidItem])
    case Some(it) =>
      if it.kind.Equipment? then
        var index := (c as int - 'a' as int) + g.backpackPage * PageSize;
        assert Inventory.Has(g.player.inventory, it.name) by {
          assert g.player.inventory[index].item.name == it.name;
        }
        EquipByKey(g, Given(it))
      else UseItem(g, it)
  }

  /** Dropping an item and picking the same item back up restores every
      inventory count. */
  lemma DropThenAddRestores(g: Game, c: char)
    requires Sane(g) && Entry(g.player.inventory, c, g.backpackPage).Some?
    ensures var it := Entry(g.player.inventory, c, g.backpackPage).value;
      forall name :: Inventory.Count(Inventory.Add(DropBackpackItem(g, c).player.inventory, it), name) ==
        Inventory.Count(g.player.inventory, name)
  {
    var it := Entry(g.player.inventory, c, g.backpackPage).value;
    var r := DropBackpackItem(g, c);
    forall name ensures Inventory.Count(Inventory.Add(r.player.inventory, it), name) == Inventory.Count(g.player.inventory, name) {
      assert FloorCount(r.items, name) == FloorCount(g.items, name) + (if it.name == name then 1 else 0) by {
        assert r.items[..|r.items| - 1] == g.items;
      }
    }
  }
}

=== FILE: combat.dfy ===
/**
 * The combat resolver (classes/combat_system.py): one attacker-versus-
 * defender exchange, and the extra step a player's kill goes through.
 */
module Combat {
  import opened Wrappers
  import opened Items
  import opened Log
  import opened Entities

  /** `random.randint(1, 20)`. */
  type D20 = n: int | 1 <= n <= 20 witness 1

  /** `random.randint(-2, 2)`. */
  type Spread = n: int | -2 <= n <= 2 witness 0

  /** The two dice one exchange draws. */
  datatype Roll = Roll(d20: D20, spread: Spread)

  function AttackRoll(attacker: Entity, d20: int): int {
    d20 + Bonus(attacker.attrs.strength)
  }

  /** The value an attack must reach. The dexterity bonus is counted here and
      again inside `Defense`. */
  function DefenseValue(defender: Entity): int {
    10 + Defense(defender) + Bonus(defender.attrs.dexterity)
  }

  /** What one exchange did: the defender afterwards, whether the attack
      hit, the damage dealt, whether the defender fell, and the log lines. */
  datatype Exchange = Exchange(defender: Entity, hit: bool, damage: int, defeated: bool, log: seq<Msg>)

  /** `CombatSystem.combat(attacker, defender, messages)`. */
  function Resolve(attacker: Entity, defender: Entity, roll: Roll): (x: Exchange)
    ensures x.hit <==> AttackRoll(attacker, roll.d20) >= DefenseValue(defender)
    ensures x.hit ==> x.damage >= 1
    ensures x.hit ==> Damage(attacker) - 2 <= x.damage <= Max(1, Damage(attacker) + 2)
    ensures x.hit ==> x.damage == Max(1, Damage(attacker) + roll.spread)
    ensures x.hit ==> x.defender == defender.(health := defender.health - x.damage)
    ensures x.hit ==> (x.defeated <==> x.defender.health <= 0)
    ensures !x.hit ==> x.defender == defender && !x.defeated
    ensures x.hit ==> |x.log| >= 1 && x.log[0] == Hits(attacker.name, defender.name, x.damage)
    ensures x.defeated <==> IsDefeated(defender.name) in x.log
    ensures !x.hit ==> x.log == [Misses(attacker.name, defender.name)]
  {
    if AttackRoll(attacker, roll.d20) >= DefenseValue(defender) then
      var damage := Max(1, Damage(attacker) + roll.spread);
      var hurt := defender.(health := defender.health - damage);
      var log := [Hits(attacker.name, defender.name, damage)];
      if hurt.health <= 0 then Exchange(hurt, true, damage, true, log + [IsDefeated(defender.name)])
      else Exchange(hurt, true, damage, false, log)
    else
      Exchange(defender, false, 0, false, [Misses(attacker.name, defender.name)])
  }

  /** Experience a player earns for an enemy of the given level. */
  function KillXp(enemyLevel: int): int {
    20 + enemyLevel * 5
  }

  /** The random draws of `player_attack_enemy`: its own combat roll, the
      level-up increases, the 5% loot chance and the catalog item chosen. */
  datatype KillDraw = KillDraw(roll: Roll, growth: nat -> Growth, loot: bool, lootItem: Item)

  /** An item lying on the floor at (x, y). */
  datatype Placed = Placed(item: Item, x: int, y: int)

  datatype Spoils = Spoils(player: Entity, drop: Option<Placed>, log: seq<Msg>)

  /** `player_attack_enemy(player, enemy, messages)`: combat runs once more;
      only if that exchange reports defeat does the player earn experience
      and may the enemy drop loot where it stood. */
  function PlayerAttackEnemy(player: Entity, enemy: Entity, draw: KillDraw): (s: Spoils)
    requires player.xpToNext > 0
    ensures var x := Resolve(player, enemy, draw.roll);
      x.defeated ==> s.player == GainXp(player, KillXp(enemy.level), draw.growth)
    ensures !Resolve(player, enemy, draw.roll).defeated ==> s.player == player && s.drop.None?
    ensures s.drop.Some? ==> s.drop.value == Placed(draw.lootItem, enemy.x, enemy.y)
    ensures s.drop.Some? <==> Resolve(player, enemy, draw.roll).defeated && draw.loot
  {
    var x := Resolve(player, enemy, draw.roll);
    if x.defeated then
      var p := GainXp(player, KillXp(enemy.level), draw.growth);
      var log := x.log + [YouDefeated(enemy.name)];
      if draw.loot then Spoils(p, Some(Placed(draw.lootItem, enemy.x, enemy.y)), log)
      else Spoils(p, None, log)
    else Spoils(player, None, x.log)
  }

  /** Every hit deals at least one point of damage and takes exactly that much health. */
  lemma HitCostsHealth(attacker: Entity, defender: Entity, roll: Roll)
    requires Resolve(attacker, defender, roll).hit
    ensures Resolve(attacker, defender, roll).defender.health < defender.health
  {
  }

  /** A player's kill earns nothing when the second exchange misses: the
      first exchange already defeated the enemy, but the d20 of 1 against a
      defense value of at least 10 fails. */
  lemma KillWithoutXp(player: Entity, enemy: Entity, first: Roll, growth: nat -> Growth, item: Item)
    requires player.xpToNext > 0
    requires Bonus(player.attrs.strength) == 0 && Defense(enemy) >= 0
    requires Resolve(player, enemy, first).defeated
    ensures var again := Resolve(player, enemy, first).defender;
      PlayerAttackEnemy(player, again, KillDraw(Roll(1, 0), growth, true, item)).player == player
  {
    var again := Resolve(player, enemy, first).defender;
    assert Defense(again) == Defense(enemy);
  }

  /** The dexterity bonus counts twice: changing dexterity changes the
      defense value by twice the change in its bonus (from 10 to 14: four, not two). */
  lemma DexterityCountsTwice(defender: Entity, dexterity: int)
    ensures DefenseValue(defender.(attrs := defender.attrs.(dexterity := dexterity)))
      == DefenseValue(defender) + 2 * (Bonus(dexterity) - Bonus(defender.attrs.dexterity))
  {
  }
}

=== FILE: entities.dfy ===
/**
 * Players and enemies (classes/entity.py): vitals, attributes, the 13
 * equipment slots, the inventory, levelling and temporary boosts.
 */
module Entities {
  import opened Wrappers
  import opened Items
  import opened Log
  import Inventory

  /** One random stat increase at a level-up: `random.randint(1, 2)`. */
  type Gain = g: int | 1 <= g <= 2 witness 1

  /** The nine increases one level-up draws: eight attributes, then speed. */
  datatype Growth = Growth(
    strength: Gain, dexterity: Gain, constitution: Gain, intelligence: Gain,
    willpower: Gain, charisma: Gain, appearance: Gain, perception: Gain, speed: Gain)

  datatype Attr = Strength | Dexterity | Constitution | Intelligence | Willpower | Charisma | Appearance | Perception

  datatype Attrs = Attrs(
    strength: int, dexterity: int, constitution: int, intelligence: int,
    willpower: int, charisma: int, appearance: int, perception: int)

  function Get(a: Attrs, s: Attr): int {
    match s
    case Strength => a.strength
    case Dexterity => a.dexterity
    case Constitution => a.constitution
    case Intelligence => a.intelligence
    case Willpower => a.willpower
    case Charisma => a.charisma
    case Appearance => a.appearance
    case Perception => a.perception
  }

  /** A temporary boost: added value and remaining turns. */
  datatype Boost = Boost(value: int, turns: int)

  /** Slot names in key order 'a'..'m'. */
  const SlotNames: seq<string> := [
    "weapon", "missile weapon", "helmet", "amulet", "shield", "armor", "cloak",
    "girdle", "gauntlets", "boots", "ring (right)", "ring (left)", "bracers"]

  const SlotCount: nat := 13

  /** The weapon slot 'a'; it is the only slot named "weapon". */
  const WeaponSlot: nat := 0

  type Slots = s: seq<Option<Item>> | |s| == 13 witness seq(13, (_: int) => None)

  datatype Entity = Entity(
    x: int, y: int, glyph: char, name: string,
    health: int, maxHealth: int, baseDamage: int, baseDefense: int,
    inventory: Inventory.Inv, equipment: Slots,
    level: int, xp: int, xpToNext: int,
    attrs: Attrs, speed: int,
    mana: int, maxMana: int, psi: int, maxPsi: int, money: int,
    boosts: map<Attr, Boost>)

  /** `Entity(x, y, char, name, health, damage, defense)` with its default stats. */
  function NewEntity(x: int, y: int, glyph: char, name: string, health: int, damage: int, defense: int): Entity {
    Entity(x, y, glyph, name, health, health, damage, defense,
      [], seq(13, (_: int) => None),
      1, 0, 100,
      Attrs(10, 10, 10, 10, 10, 10, 10, 10), 100,
      10, 10, 10, 10, 0,
      map[])
  }

  /** The slot a key letter selects, or None for a key outside 'a'..'m'. */
  function SlotOf(key: char): (r: Option<nat>)
    ensures r.Some? <==> 'a' <= key <= 'm'
    ensures r.Some? ==> r.value < SlotCount && KeyOf(r.value) == key
  {
    if 'a' <= key <= 'm' then Some(key as int - 'a' as int) else None
  }

  function KeyOf(i: nat): char
    requires i < SlotCount
  {
    ('a' as int + i) as char
  }

  /** The first slot whose name is `slot`. */
  function SlotNamed(slot: string): (r: Option<nat>)
    ensures r.Some? ==> r.value < SlotCount && SlotNames[r.value] == slot
    ensures r.None? ==> slot !in SlotNames
  {
    SlotNamedFrom(slot, 0)
  }

  function SlotNamedFrom(slot: string, i: nat): (r: Option<nat>)
    requires i <= SlotCount
    ensures r.Some? ==> i <= r.value < SlotCount && SlotNames[r.value] == slot
    ensures r.None? ==> forall j :: i <= j < SlotCount ==> SlotNames[j] != slot
    decreases SlotCount - i
  {
    if i == SlotCount then None
    else if SlotNames[i] == slot then Some(i)
    else SlotNamedFrom(slot, i + 1)
  }

  /** Every worn item is equipment made for the slot that holds it. */
  predicate SlotsFit(s: Slots) {
    forall i :: 0 <= i < |s| && s[i].Some? ==>
      s[i].value.kind.Equipment? && s[i].value.kind.slot == SlotNames[i]
  }

  /** The invariants every entity keeps. */
  predicate Valid(e: Entity) {
    && Inventory.Valid(e.inventory)
    && SlotsFit(e.equipment)
    && e.health <= e.maxHealth
    && e.mana <= e.maxMana
    && e.xpToNext > 0
  }

  lemma NewEntityValid(x: int, y: int, glyph: char, name: string, health: int, damage: int, defense: int)
    ensures Valid(NewEntity(x, y, glyph, name, health, damage, defense))
    ensures Damage(NewEntity(x, y, glyph, name, health, damage, defense)) == damage
    ensures Defense(NewEntity(x, y, glyph, name, health, damage, defense)) == defense
  {
    var e := NewEntity(x, y, glyph, name, health, damage, defense);
    assert e.equipment[1..] == seq(12, (_: int) => None);
    NoBoostsWhenEmpty(e.equipment[1..]);
  }

  // ---------------------------------------------------------------------
  // Derived combat stats

  /** +1 for every two points above 10; Python's `//` is floor division,
      which Dafny's `/` matches for the positive divisor 2. */
  function Bonus(stat: int): nat {
    if stat <= 10 then 0 else (stat - 10) / 2
  }

  function SlotBoost(o: Option<Item>): int {
    match o
    case Some(it) => StatBoost(it)
    case None => 0
  }

  /** The sum of `f` over a sequence of slots. */
  function SumOver(s: seq<Option<Item>>, f: Option<Item> -> int): int {
    if |s| == 0 then 0 else SumOver(s[..|s| - 1], f) + f(s[|s| - 1])
  }

  lemma {:induction false} SumOverConcat(a: seq<Option<Item>>, b: seq<Option<Item>>, f: Option<Item> -> int)
    ensures SumOver(a + b, f) == SumOver(a, f) + SumOver(b, f)
    decreases |b|
  {
    if |b| == 0 {
      assert a + b == a;
    } else {
      assert (a + b)[..|a + b| - 1] == a + b[..|b| - 1];
      SumOverConcat(a, b[..|b| - 1], f);
    }
  }

  lemma SumOverUpdate(s: seq<Option<Item>>, i: int, v: Option<Item>, f: Option<Item> -> int)
    requires 0 <= i < |s|
    ensures SumOver(s[i := v], f) == SumOver(s, f) - f(s[i]) + f(v)
  {
    assert s == s[..i] + [s[i]] + s[i + 1..];
    assert s[i := v] == s[..i] + [v] + s[i + 1..];
    SumOverConcat(s[..i] + [s[i]], s[i + 1..], f);
    SumOverConcat(s[..i], [s[i]], f);
    SumOverConcat(s[..i] + [v], s[i + 1..], f);
    SumOverConcat(s[..i], [v], f);
    assert [s[i]][..0] == [] && [v][..0] == [];
  }

  lemma {:induction false} NoBoostsWhenEmpty(s: seq<Option<Item>>)
    requires forall i :: 0 <= i < |s| ==> s[i].None?
    ensures SumOver(s, SlotBoost) == 0
    decreases |s|
  {
    if |s| > 0 {
      NoBoostsWhenEmpty(s[..|s| - 1]);
    }
  }

  /** The `damage` property: base damage, the weapon slot's boost and the strength bonus. */
  function Damage(e: Entity): int {
    e.baseDamage + SlotBoost(e.equipment[WeaponSlot]) + Bonus(e.attrs.strength)
  }

  /** The `defense` property: base defense, the boosts worn in every slot but
      the weapon slot, and the dexterity bonus. */
  function Defense(e: Entity): int {
    e.baseDefense + SumOver(e.equipment[1..], SlotBoost) + Bonus(e.attrs.dexterity)
  }

  // ---------------------------------------------------------------------
  // Holdings: what an entity owns, carried or worn

  function WornAs(o: Option<Item>, name: string): int {
    if o.Some? && o.value.name == name then 1 else 0
  }

  /** How many worn items have this name. */
  function Worn(s: seq<Option<Item>>, name: string): int {
    SumOver(s, o => WornAs(o, name))
  }

  /** Items of this name carried plus worn. */
  function Holdings(e: Entity, name: string): int {
    Inventory.Count(e.inventory, name) + Worn(e.equipment, name)
  }

  lemma WornUpdate(s: seq<Option<Item>>, i: int, v: Option<Item>, name: string)
    requires 0 <= i < |s|
    ensures Worn(s[i := v], name) == Worn(s, name) - WornAs(s[i], name) + WornAs(v, name)
  {
    SumOverUpdate(s, i, v, o => WornAs(o, name));
  }

  datatype Reply = Reply(who: Entity, msg: Msg)

  /** Holdings after putting `it` into slot `i` and adjusting the inventory. */
  lemma HoldingsAfterSwap(e: Entity, i: nat, it: Item, inv': Inventory.Inv, name: string)
    requires i < SlotCount
    requires forall n :: (Inventory.Count(inv', n) ==
      Inventory.Count(e.inventory, n) + WornAs(e.equipment[i], n) - WornAs(Some(it), n))
    ensures Holdings(e.(equipment := e.equipment[i := Some(it)], inventory := inv'), name) == Holdings(e, name)
  {
    WornUpdate(e.equipment, i, Some(it), name);
  }

  // ---------------------------------------------------------------------
  // Equipping

  /** The inventory with the displaced item (if any) put back. */
  function Restocked(inv: Inventory.Inv, displaced: Option<Item>): (r: Inventory.Inv)
    ensures Inventory.Valid(inv) ==> Inventory.Valid(r)
    ensures forall n :: Inventory.Count(r, n) == Inventory.Count(inv, n) + WornAs(displaced, n)
  {
    if displaced.Some? then Inventory.Add(inv, displaced.value) else inv
  }

  /** Putting an item back never loses a name the inventory held. */
  lemma RestockedHas(inv: Inventory.Inv, displaced: Option<Item>, name: string)
    requires Inventory.Valid(inv) && Inventory.Has(inv, name)
    ensures Inventory.Has(Restocked(inv, displaced), name)
  {
    Inventory.CountOfValid(inv, name);
    Inventory.CountOfValid(Restocked(inv, displaced), name);
  }

  /** The inventory after wearing `it` in place of `displaced`: the displaced
      item is added back, then one copy of `it` is taken out if `take` holds. */
  function SwapInventory(inv: Inventory.Inv, displaced: Option<Item>, it: Item, take: bool): Inventory.Inv {
    var inv1 := Restocked(inv, displaced);
    if take then Inventory.Remove(inv1, it).inv else inv1
  }

  /** Counts after a swap that takes out the worn item, when the inventory held one. */
  lemma SwapCounts(inv: Inventory.Inv, displaced: Option<Item>, it: Item, take: bool)
    requires Inventory.Valid(inv) && Inventory.Has(inv, it.name)
    requires take
    ensures Inventory.Valid(SwapInventory(inv, displaced, it, take))
    ensures forall n :: (Inventory.Count(SwapInventory(inv, displaced, it, take), n) ==
      Inventory.Count(inv, n) + WornAs(displaced, n) - WornAs(Some(it), n))
  {
    var inv1 := Restocked(inv, displaced);
    RestockedHas(inv, displaced, it.name);
    var removal := Inventory.Remove(inv1, it);
    assert removal.removed;
  }

  lemma SwapValid(inv: Inventory.Inv, displaced: Option<Item>, it: Item, take: bool)
    requires Inventory.Valid(inv)
    ensures Inventory.Valid(SwapInventory(inv, displaced, it, take))
  {
  }

  /** Puts `it` into slot `i` with the given inventory. */
  function Wear(e: Entity, i: nat, it: Item, inv: Inventory.Inv): (r: Entity)
    requires i < SlotCount
    ensures r.equipment[i] == Some(it)
    ensures forall j :: 0 <= j < SlotCount && j != i ==> r.equipment[j] == e.equipment[j]
    ensures r == e.(equipment := r.equipment, inventory := inv)
  {
    e.(equipment := e.equipment[i := Some(it)], inventory := inv)
  }

  /** Wearing an item that came out of the inventory keeps every holding. */
  lemma WearKeepsHoldings(e: Entity, i: nat, it: Item, take: bool)
    requires i < SlotCount && Valid(e) && Inventory.Has(e.inventory, it.name)
    requires take
    ensures forall name :: Holdings(Wear(e, i, it, SwapInventory(e.inventory, e.equipment[i], it, take)), name) == Holdings(e, name)
  {
    var inv' := SwapInventory(e.inventory, e.equipment[i], it, take);
    SwapCounts(e.inventory, e.equipment[i], it, take);
    forall name ensures Holdings(Wear(e, i, it, inv'), name) == Holdings(e, name) {
      HoldingsAfterSwap(e, i, it, inv', name);
    }
  }

  /** `equip(item, slot_key)`: wear `it` in the keyed slot if it is equipment
      made for that slot; the displaced item goes back to the inventory and
      one copy of `it` leaves it. */
  function Equip(e: Entity, it: Item, key: char): (r: Reply)
    requires SlotOf(key).Some?
    ensures var i := SlotOf(key).value;
      !(it.kind.Equipment? && it.kind.slot == SlotNames[i]) ==> r == Reply(e, CannotEquip(it.name, SlotNames[i]))
    ensures var i := SlotOf(key).value;
      it.kind.Equipment? && it.kind.slot == SlotNames[i] ==>
        && r.msg == EquippedIn(it.name, SlotNames[i], false)
        && r.who.equipment[i] == Some(it)
        && (forall j :: 0 <= j < SlotCount && j != i ==> r.who.equipment[j] == e.equipment[j])
    ensures r.who == e.(equipment := r.who.equipment, inventory := r.who.inventory)
  {
    var i := SlotOf(key).value;
    if it.kind.Equipment? && it.kind.slot == SlotNames[i] then
      var displaced := e.equipment[i];
      var take := Inventory.Has(Restocked(e.inventory, displaced), it.name);
      Reply(Wear(e, i, it, SwapInventory(e.inventory, displaced, it, take)),
        EquippedIn(it.name, SlotNames[i], false))
    else
      Reply(e, CannotEquip(it.name, SlotNames[i]))
  }

  /** `equip` keeps the entity invariants, and wearing an item that was in
      the inventory conserves every holding. */
  lemma EquipConserves(e: Entity, it: Item, key: char)
    requires SlotOf(key).Some? && Valid(e)
    ensures Valid(Equip(e, it, key).who)
    ensures Inventory.Has(e.inventory, it.name) ==>
      forall name :: Holdings(Equip(e, it, key).who, name) == Holdings(e, name)
  {
    var i := SlotOf(key).value;
    if it.kind.Equipment? && it.kind.slot == SlotNames[i] {
      var displaced := e.equipment[i];
      var take := Inventory.Has(Restocked(e.inventory, displaced), it.name);
      SwapValid(e.inventory, displaced, it, take);
      if Inventory.Has(e.inventory, it.name) {
        RestockedHas(e.inventory, displaced, it.name);
        WearKeepsHoldings(e, i, it, take);
      }
    }
  }

  /** `equip_item(item)`: wear equipment in the first slot named for it,
      returning the displaced item to the inventory and taking one copy of
      the new item out of it (a no-op when there is none). */
  function EquipItem(e: Entity, it: Item): (r: Reply)
    requires it.kind.Equipment?
    ensures SlotNamed(it.kind.slot).None? ==> r == Reply(e, NoSuitableSlot(it.name))
    ensures SlotNamed(it.kind.slot).Some? ==>
      var i := SlotNamed(it.kind.slot).value;
      && r.msg == EquippedIn(it.name, SlotNames[i], true)
      && r.who.equipment[i] == Some(it)
      && (forall j :: 0 <= j < SlotCount && j != i ==> r.who.equipment[j] == e.equipment[j])
    ensures r.who == e.(equipment := r.who.equipment, inventory := r.who.inventory)
  {
    match SlotNamed(it.kind.slot)
    case None => Reply(e, NoSuitableSlot(it.name))
    case Some(i) =>
      Reply(Wear(e, i, it, SwapInventory(e.inventory, e.equipment[i], it, true)), EquippedIn(it.name, SlotNames[i], true))
  }

  /** `equip_item` keeps the entity invariants, and wearing an item that was
      in the inventory conserves every holding. */
  lemma EquipItemConserves(e: Entity, it: Item)
    requires it.kind.Equipment? && Valid(e)
    ensures Valid(EquipItem(e, it).who)
    ensures Inventory.Has(e.inventory, it.name) ==>
      forall name :: Holdings(EquipItem(e, it).who, name) == Holdings(e, name)
  {
    match SlotNamed(it.kind.slot)
    case None =>
    case Some(i) =>
      SwapValid(e.inventory, e.equipment[i], it, true);
      if Inventory.Has(e.inventory, it.name) {
        WearKeepsHoldings(e, i, it, true);
      }
  }

  /** `unequip_item(slot_key)`: move the worn item back to the inventory; an
      unknown key or an empty slot changes nothing. */
  function Unequip(e: Entity, key: char): (r: Reply)
    ensures SlotOf(key).None? || e.equipment[SlotOf(key).value].None? ==> r == Reply(e, NothingToUnequip)
    ensures SlotOf(key).Some? && e.equipment[SlotOf(key).value].Some? ==>
      var i := SlotOf(key).value;
      && r.who.equipment == e.equipment[i := None]
      && r.msg == UnequippedFrom(SlotNames[i])
      && forall name :: Inventory.Count(r.who.inventory, name) ==
           Inventory.Count(e.inventory, name) + WornAs(e.equipment[i], name)
    ensures r.who == e.(equipment := r.who.equipment, inventory := r.who.inventory)
    ensures Valid(e) ==> Valid(r.who)
    ensures forall name :: Holdings(r.who, name) == Holdings(e, name)
  {
    match SlotOf(key)
    case None => Reply(e, NothingToUnequip)
    case Some(i) =>
      match e.equipment[i]
      case None => Reply(e, NothingToUnequip)
      case Some(it) =>
        var r := Reply(e.(inventory := Inventory.Add(e.inventory, it), equipment := e.equipment[i := None]),
          UnequippedFrom(SlotNames[i]));
        assert forall name :: Holdings(r.who, name) == Holdings(e, name) by {
          forall name ensures Holdings(r.who, name) == Holdings(e, name) {
            WornUpdate(e.equipment, i, None, name);
          }
        }
        r
  }

  /** Wearing an item from the inventory in an empty slot and taking it off
      again restores the slots and every inventory count. */
  lemma EquipUnequipRoundTrip(e: Entity, it: Item, key: char)
    requires Valid(e) && it.kind.Equipment?
    requires SlotOf(key).Some? && SlotNamed(it.kind.slot) == SlotOf(key)
    requires e.equipment[SlotOf(key).value].None?
    requires Inventory.Has(e.inventory, it.name)
    ensures var u := Unequip(EquipItem(e, it).who, key).who;
      && u.equipment == e.equipment
      && (forall name :: Inventory.Count(u.inventory, name) == Inventory.Count(e.inventory, name))
      && u == e.(inventory := u.inventory)
  {
    var i := SlotOf(key).value;
    var mid := EquipItem(e, it).who;
    var u := Unequip(mid, key).who;
    EquipItemConserves(e, it);
    assert mid.equipment[i] == Some(it);
    assert u.equipment == e.equipment[i := Some(it)][i := None];
    assert u.equipment == e.equipment;
    forall name ensures Inventory.Count(u.inventory, name) == Inventory.Count(e.inventory, name) {
      assert Holdings(mid, name) == Holdings(e, name);
      assert Holdings(u, name) == Holdings(mid, name);
    }
  }

  /** Wearing a weapon in an empty weapon slot raises damage by its boost and leaves defense alone. */
  lemma WeaponRaisesDamage(e: Entity, it: Item)
    requires it.kind.Equipment? && it.kind.slot == "weapon"
    requires e.equipment[WeaponSlot].None?
    ensures Damage(Equip(e, it, 'a').who) == Damage(e) + it.kind.statBoost
    ensures Defense(Equip(e, it, 'a').who) == Defense(e)
  {
    var r := Equip(e, it, 'a').who;
    assert r.equipment[1..] == e.equipment[1..];
  }

  /** Wearing armour in an empty non-weapon slot raises defense by its boost and leaves damage alone. */
  lemma ArmourRaisesDefense(e: Entity, it: Item, key: char)
    requires SlotOf(key).Some? && SlotOf(key).value != WeaponSlot
    requires it.kind.Equipment? && it.kind.slot == SlotNames[SlotOf(key).value]
    requires e.equipment[SlotOf(key).value].None?
    ensures Defense(Equip(e, it, key).who) == Defense(e) + it.kind.statBoost
    ensures Damage(Equip(e, it, key).who) == Damage(e)
  {
    var i := SlotOf(key).value;
    var r := Equip(e, it, key).who;
    assert r.equipment[1..] == e.equipment[1..][i - 1 := Some(it)];
    SumOverUpdate(e.equipment[1..], i - 1, Some(it), SlotBoost);
  }

  // ---------------------------------------------------------------------
  // Vitals

  /** `heal(amount)`: add health, never beyond the maximum. */
  function Heal(e: Entity, amount: int): (r: Entity)
    ensures r.health <= r.maxHealth && r.health <= e.health + amount
    ensures r.health == e.health + amount || r.health == e.maxHealth
    ensures amount >= 0 && e.health <= e.maxHealth ==> e.health <= r.health
    ensures r == e.(health := r.health)
  {
    e.(health := Min(e.maxHealth, e.health + amount))
  }

  /** `restore_mana(amount)`: add mana, never beyond the maximum. */
  function RestoreMana(e: Entity, amount: int): (r: Entity)
    ensures r.mana <= r.maxMana && r.mana <= e.mana + amount
    ensures r.mana == e.mana + amount || r.mana == e.maxMana
    ensures amount >= 0 && e.mana <= e.maxMana ==> e.mana <= r.mana
    ensures r == e.(mana := r.mana)
  {
    e.(mana := Min(e.maxMana, e.mana + amount))
  }

  // ---------------------------------------------------------------------
  // Experience

  /** `int(t * 1.5)`: Python's `int` truncates toward zero. */
  function ScaleThreshold(t: int): (r: int)
    ensures t > 0 ==> r >= t
    ensures t >= 0 ==> r == (3 * t) / 2
  {
    var p := 3 * t;
    if p >= 0 then p / 2 else -((-p) / 2)
  }

  /** Every attribute of `b` exceeds the one in `a` by between n and 2n. */
  predicate GrownBy(a: Attrs, b: Attrs, n: nat) {
    forall s: Attr :: Get(a, s) + n <= Get(b, s) <= Get(a, s) + 2 * n
  }

  function Grow(a: Attrs, g: Growth): (b: Attrs)
    ensures GrownBy(a, b, 1)
  {
    Attrs(a.strength + g.strength, a.dexterity + g.dexterity, a.constitution + g.constitution,
      a.intelligence + g.intelligence, a.willpower + g.willpower, a.charisma + g.charisma,
      a.appearance + g.appearance, a.perception + g.perception)
  }

  /** `level_up()`, with the nine random increases supplied as `g`. */
  function LevelUp(e: Entity, g: Growth): (r: Entity)
    ensures r.level == e.level + 1
    ensures r.xp == e.xp - e.xpToNext
    ensures r.xpToNext == ScaleThreshold(e.xpToNext)
    ensures e.xpToNext > 0 ==> r.xpToNext >= e.xpToNext
    ensures r.maxHealth == e.maxHealth + 10 && r.health == r.maxHealth
    ensures r.baseDamage == e.baseDamage + 2 && r.baseDefense == e.baseDefense + 1
    ensures GrownBy(e.attrs, r.attrs, 1) && e.speed + 1 <= r.speed <= e.speed + 2
    ensures SameExceptLevelling(e, r)
  {
    e.(level := e.level + 1,
       xp := e.xp - e.xpToNext,
       xpToNext := ScaleThreshold(e.xpToNext),
       maxHealth := e.maxHealth + 10,
       health := e.maxHealth + 10,
       baseDamage := e.baseDamage + 2,
       baseDefense := e.baseDefense + 1,
       attrs := Grow(e.attrs, g),
       speed := e.speed + g.speed)
  }

  /** Levels gained, remaining xp and next threshold after settling `xp`
      against threshold `t`: an arithmetic reference for `gain_xp`. */
  datatype Tally = Tally(levels: nat, xp: int, threshold: int)

  function Progress(xp: int, t: int): (p: Tally)
    requires t > 0
    ensures p.xp < p.threshold && p.threshold >= t
    ensures xp < t <==> p.levels == 0
    ensures p.levels == 0 ==> p == Tally(0, xp, t)
    decreases if xp < 0 then 0 else xp
  {
    if xp >= t then
      var q := Progress(xp - t, ScaleThreshold(t));
      Tally(q.levels + 1, q.xp, q.threshold)
    else Tally(0, xp, t)
  }

  /** Fields `gain_xp` changes; everything else is kept. */
  predicate SameExceptLevelling(a: Entity, b: Entity) {
    b == a.(level := b.level, xp := b.xp, xpToNext := b.xpToNext, maxHealth := b.maxHealth,
            health := b.health, baseDamage := b.baseDamage, baseDefense := b.baseDefense,
            attrs := b.attrs, speed := b.speed)
  }

  /** The `while xp >= xp_to_next_level: level_up()` loop; `growth(k)` is the
      draw for the k-th level-up of this call. */
  function Settle(e: Entity, growth: nat -> Growth, k: nat): (r: Entity)
    requires e.xpToNext > 0
    ensures var p := Progress(e.xp, e.xpToNext);
      && r.level == e.level + p.levels && r.xp == p.xp && r.xpToNext == p.threshold
      && r.maxHealth == e.maxHealth + 10 * p.levels
      && r.baseDamage == e.baseDamage + 2 * p.levels
      && r.baseDefense == e.baseDefense + p.levels
      && (p.levels > 0 ==> r.health == r.maxHealth)
      && (p.levels == 0 ==> r == e)
      && GrownBy(e.attrs, r.attrs, p.levels)
      && e.speed + p.levels <= r.speed <= e.speed + 2 * p.levels
    ensures SameExceptLevelling(e, r)
    decreases if e.xp < 0 then 0 else e.xp
  {
    if e.xp >= e.xpToNext then
      var up := LevelUp(e, growth(k));
      var r := Settle(up, growth, k + 1);
      assert GrownBy(e.attrs, r.attrs, Progress(e.xp, e.xpToNext).levels) by {
        assert GrownBy(e.attrs, up.attrs, 1);
      }
      r
    else e
  }

  /** `gain_xp(amount)`: add the xp, then level up while it reaches the threshold. */
  function GainXp(e: Entity, amount: int, growth: nat -> Growth): (r: Entity)
    requires e.xpToNext > 0
    ensures var p := Progress(e.xp + amount, e.xpToNext);
      && r.level == e.level + p.levels
      && r.xp == p.xp && r.xpToNext == p.threshold
      && r.maxHealth == e.maxHealth + 10 * p.levels
      && r.baseDamage == e.baseDamage + 2 * p.levels
      && r.baseDefense == e.baseDefense + p.levels
      && (p.levels > 0 ==> r.health == r.maxHealth)
      && GrownBy(e.attrs, r.attrs, p.levels)
      && e.speed + p.levels <= r.speed <= e.speed + 2 * p.levels
      && (p.levels == 0 ==> r == e.(xp := e.xp + amount))
    ensures r.xp < r.xpToNext
    ensures Valid(e) ==> Valid(r)
    ensures SameExceptLevelling(e.(xp := e.xp + amount), r)
    ensures r.inventory == e.inventory && r.equipment == e.equipment && r.x == e.x && r.y == e.y
  {
    Settle(e.(xp := e.xp + amount), growth, 0)
  }

  /** Settling `x + b` gives the same tally as settling `x` and then adding `b`. */
  lemma {:induction false} ProgressSplit(x: int, t: int, b: int)
    requires t > 0 && b >= 0
    ensures var p := Progress(x, t);
      var q := Progress(p.xp + b, p.threshold);
      Progress(x + b, t) == Tally(p.levels + q.levels, q.xp, q.threshold)
    decreases if x < 0 then 0 else x
  {
    if x >= t {
      var t' := ScaleThreshold(t);
      ProgressSplit(x - t, t', b);
      var rest := Progress(x - t, t');
      assert Progress(x, t) == Tally(rest.levels + 1, rest.xp, rest.threshold);
      assert x + b - t == (x - t) + b;
      var whole := Progress((x - t) + b, t');
      assert Progress(x + b, t) == Tally(whole.levels + 1, whole.xp, whole.threshold);
    }
  }

  // ---------------------------------------------------------------------
  // Temporary boosts

  /** `apply_temporary_boost(stat, value, duration)`: replaces any boost on that stat. */
  function ApplyTemporaryBoost(e: Entity, s: Attr, value: int, turns: int): (r: Entity)
    ensures r.boosts.Keys == e.boosts.Keys + {s}
    ensures GetStat(r, s) == Get(e.attrs, s) + value
    ensures forall t :: t != s ==> GetStat(r, t) == GetStat(e, t)
    ensures r == e.(boosts := r.boosts)
  {
    e.(boosts := e.boosts[s := Boost(value, turns)])
  }

  /** `update_temporary_boosts()`: one turn passes for every boost; those
      with no turns left are removed. */
  function UpdateTemporaryBoosts(e: Entity): (r: Entity)
    ensures forall s :: s in r.boosts <==> s in e.boosts && e.boosts[s].turns - 1 > 0
    ensures forall s :: s in r.boosts ==>
      r.boosts[s] == Boost(e.boosts[s].value, e.boosts[s].turns - 1)
    ensures r == e.(boosts := r.boosts)
  {
    e.(boosts := map s | s in e.boosts && e.boosts[s].turns - 1 > 0 :: Boost(e.boosts[s].value, e.boosts[s].turns - 1))
  }

  /** `get_stat(stat)`: the attribute plus its boost while one is active. */
  function GetStat(e: Entity, s: Attr): int {
    if s in e.boosts then Get(e.attrs, s) + e.boosts[s].value else Get(e.attrs, s)
  }

  function Tick(e: Entity, n: nat): Entity
    decreases n
  {
    if n == 0 then e else Tick(UpdateTemporaryBoosts(e), n - 1)
  }

  /** A boost applied for `d` turns is active for the next d - 1 updates and gone after. */
  lemma {:induction false} BoostLifetime(e: Entity, s: Attr, value: int, d: int, n: nat)
    requires s in e.boosts && e.boosts[s] == Boost(value, d) && d >= 1
    ensures n < d ==> s in Tick(e, n).boosts && Tick(e, n).boosts[s] == Boost(value, d - n)
    ensures n < d ==> GetStat(Tick(e, n), s) == Get(e.attrs, s) + value
    ensures n >= d ==> s !in Tick(e, n).boosts && GetStat(Tick(e, n), s) == Get(e.attrs, s)
    decreases n
  {
    if n > 0 {
      var e1 := UpdateTemporaryBoosts(e);
      if d - 1 > 0 {
        BoostLifetime(e1, s, value, d - 1, n - 1);
      } else {
        TickKeepsAbsent(e1, s, n - 1);
      }
    }
  }

  lemma {:induction false} TickKeepsAbsent(e: Entity, s: Attr, n: nat)
    requires s !in e.boosts
    ensures s !in Tick(e, n).boosts && Tick(e, n).attrs == e.attrs
    decreases n
  {
    if n > 0 {
      TickKeepsAbsent(UpdateTemporaryBoosts(e), s, n - 1);
    }
  }

  /** Damage and defense read the raw attributes, so a temporary boost never changes them. */
  lemma BoostsDoNotReachCombat(e: Entity, s: Attr, value: int, turns: int)
    ensures Damage(ApplyTemporaryBoost(e, s, value, turns)) == Damage(e)
    ensures Defense(ApplyTemporaryBoost(e, s, value, turns)) == Defense(e)
  {
  }

  // ---------------------------------------------------------------------
  // Consumable effects

  /** Fixed duration of potion boosts, whatever the catalog says. */
  const PotionTurns: int := 50

  /** Runs a consumable's effect on an entity (the closures `create_effect` builds). */
  function ApplyEffect(e: Entity, eff: Effect): (r: Entity)
    ensures eff.Heal? ==> r == Heal(e, eff.amount)
    ensures eff.RestoreMana? ==> r == RestoreMana(e, eff.amount)
    ensures eff.BoostStrength? ==> r == ApplyTemporaryBoost(e, Strength, eff.amount, PotionTurns)
    ensures eff.BoostDexterity? ==> r == ApplyTemporaryBoost(e, Dexterity, eff.amount, PotionTurns)
    ensures eff.NoEffect? ==> r == e
    ensures Valid(e) ==> Valid(r)
  {
    match eff
    case Heal(v) => Heal(e, v)
    case RestoreMana(v) => RestoreMana(e, v)
    case BoostStrength(v) => ApplyTemporaryBoost(e, Strength, v, PotionTurns)
    case BoostDexterity(v) => ApplyTemporaryBoost(e, Dexterity, v, PotionTurns)
    case NoEffect => e
  }

  /** What an effect returns: `heal` and `restore_mana` reply with the amount,
      the boosts and the null effect return nothing. */
  function EffectReply(eff: Effect): Msg {
    match eff
    case Heal(v) => Healed(v)
    case RestoreMana(v) => RestoredMana(v)
    case _ => NoReply
  }

  /** The effect built from each catalog kind does what the kind names; a
      strength or dexterity potion lasts 50 turns. */
  lemma CatalogEffects(e: Entity, value: int, kind: string)
    ensures ApplyEffect(e, CreateEffect("heal", value)) == Heal(e, value)
    ensures ApplyEffect(e, CreateEffect("restore_mana", value)) == RestoreMana(e, value)
    ensures ApplyEffect(e, CreateEffect("boost_strength", value)).boosts[Strength] == Boost(value, 50)
    ensures ApplyEffect(e, CreateEffect("boost_dexterity", value)).boosts[Dexterity] == Boost(value, 50)
    ensures kind !in KnownKinds ==> ApplyEffect(e, CreateEffect(kind, value)) == e
  {
  }
}

=== FILE: game_combat.dfy ===
/**
 * `Game.combat` (classes/game.py): one exchange between the player and an
 * enemy on the roster, with the roster, loot and log bookkeeping around it.
 */
module GameCombat {
  import opened Wrappers
  import opened Grids
  import opened Items
  import opened Log
  import opened Entities
  import opened Combat
  import opened GameState

  /** Removing one enemy keeps the others' cells apart and on passable ground. */
  lemma RemoveKeepsSane(g: Game, i: nat)
    requires Sane(g) && i < |g.enemies|
    ensures Sane(g.(enemies := g.enemies[..i] + g.enemies[i + 1..]))
  {
    var es := g.enemies[..i] + g.enemies[i + 1..];
    assert forall j :: 0 <= j < |es| ==> es[j] == g.enemies[if j < i then j else j + 1];
  }

  /** An enemy that stays on its cell keeps the roster sane. */
  lemma ReplaceKeepsSane(g: Game, i: nat, e: Entity)
    requires Sane(g) && i < |g.enemies| && At(e) == At(g.enemies[i])
    ensures Sane(g.(enemies := g.enemies[i := e]))
  {
  }

  /** The player's reward step after a kill: the second exchange's log, the
      experience, and the loot (named after the fallen enemy) on the floor. */
  function Reward(g: Game, fallen: Entity, kill: KillDraw): (r: Game)
    requires Sane(g)
    ensures Sane(r)
    ensures var s := PlayerAttackEnemy(g.player, fallen, kill);
      && r.player == s.player
      && g.messages + s.log <= r.messages
      && r.items == g.items + (if s.drop.Some? then [s.drop.value] else [])
    ensures At(r.player) == At(g.player) && r.player.inventory == g.player.inventory
    ensures r.player.equipment == g.player.equipment
    ensures |r.items| == |g.items| + 1 ==> r.items[|g.items|].x == fallen.x && r.items[|g.items|].y == fallen.y
    ensures r == g.(player := r.player, items := r.items, messages := r.messages)
  {
    var s := PlayerAttackEnemy(g.player, fallen, kill);
    var g1 := g.(player := s.player, messages := g.messages + s.log);
    match s.drop
    case None => g1
    case Some(p) =>
      var r := g1.(items := g.items + [p], messages := g1.messages + [DroppedLoot(fallen.name, p.item.name)]);
      r
  }

  /** A defeated enemy leaves the roster, with `log` as the game's log so
      far, and the player collects the reward for it. */
  function Fall(g: Game, i: nat, fallen: Entity, log: seq<Msg>, kill: KillDraw): (r: Game)
    requires Sane(g) && i < |g.enemies| && At(fallen) == At(g.enemies[i])
    ensures Sane(r)
    ensures log <= r.messages && r.enemies == g.enemies[..i] + g.enemies[i + 1..]
    ensures At(r.player) == At(g.player) && r.player.inventory == g.player.inventory
    ensures r.player.equipment == g.player.equipment
    ensures g.items <= r.items && (|r.items| == |g.items| || |r.items| == |g.items| + 1)
    ensures |r.items| == |g.items| + 1 ==>
      r.items[|g.items|].x == g.enemies[i].x && r.items[|g.items|].y == g.enemies[i].y
    ensures r == g.(enemies := r.enemies, player := r.player, items := r.items, messages := r.messages)
  {
    RemoveKeepsSane(g, i);
    Reward(g.(enemies := g.enemies[..i] + g.enemies[i + 1..], messages := log), fallen, kill)
  }

  /** `combat(player, enemy)` with the enemy at roster index i. A defeated
      enemy leaves the roster; then `player_attack_enemy` runs a second
      exchange against it, and any loot lands where it stood. */
  function PlayerStrikes(g: Game, i: nat, roll: Roll, kill: KillDraw): (r: Game)
    requires Sane(g) && i < |g.enemies|
    ensures Sane(r)
    ensures var x := Resolve(g.player, g.enemies[i], roll);
      && g.messages + x.log <= r.messages
      && (!x.defeated ==> r == g.(enemies := g.enemies[i := x.defender], messages := g.messages + x.log))
      && (x.defeated ==> r.enemies == g.enemies[..i] + g.enemies[i + 1..])
    ensures At(r.player) == At(g.player) && r.player.inventory == g.player.inventory
    ensures r.player.equipment == g.player.equipment
    ensures g.items <= r.items && (|r.items| == |g.items| || |r.items| == |g.items| + 1)
    ensures |r.items| == |g.items| + 1 ==>
      r.items[|g.items|].x == g.enemies[i].x && r.items[|g.items|].y == g.enemies[i].y
    ensures r == g.(enemies := r.enemies, player := r.player, items := r.items, messages := r.messages)
  {
    var x := Resolve(g.player, g.enemies[i], roll);
    var log := g.messages + x.log;
    if x.defeated then Fall(g, i, x.defender, log, kill)
    else
      ReplaceKeepsSane(g, i, x.defender);
      g.(enemies := g.enemies[i := x.defender], messages := log)
  }

  /** `combat(enemy, player)` with the enemy at roster index i: the player
      takes the blow, and "Game Over!" is logged if it was fatal. */
  function EnemyStrikes(g: Game, i: nat, roll: Roll): (r: Game)
    requires Sane(g) && i < |g.enemies|
    ensures Sane(r)
    ensures var x := Resolve(g.enemies[i], g.player, roll);
      && r.player == x.defender
      && r.messages == g.messages + x.log + (if x.defeated then [GameOver] else [])
    ensures r.player == g.player.(health := r.player.health) && r.player.health <= g.player.health
    ensures r == g.(player := r.player, messages := r.messages)
  {
    var x := Resolve(g.enemies[i], g.player, roll);
    var g1 := g.(player := x.defender, messages := g.messages + x.log);
    if x.defeated then g1.(messages := g1.messages + [GameOver]) else g1
  }
}

=== FILE: game_state.dfy ===
/**
 * The game's world state (classes/game.py): the level, the player, the
 * enemy roster, the items on the floor, the message log and the turn and
 * spawn counters, with the helpers the turn engine shares.
 */
module GameState {
  import opened Wrappers
  import opened Grids
  import opened Items
  import opened Log
  import opened Entities
  import opened Combat
  import Inventory
  import MapGen

  /**
   * The state a `Game` object carries between key presses. `height` and
   * `width` are the level generator's clamped size, which also bound moves
   * and the path search (see the README on bounds).
   */
  datatype Game = Game(
    height: int, width: int,
    grid: Grid, rooms: seq<MapGen.Room>,
    player: Entity, enemies: seq<Entity>, items: seq<Placed>,
    messages: seq<Msg>,
    turnCount: int, lastSpawnTurn: int, dungeonLevel: int,
    down: Pos, up: Pos,
    backpackPage: int, dropMode: bool, escaped: bool)

  function At(e: Entity): Pos {
    Pos(e.x, e.y)
  }

  /** No two enemies share a cell. */
  predicate DistinctPositions(es: seq<Entity>) {
    forall i, j :: 0 <= i < j < |es| ==> At(es[i]) != At(es[j])
  }

  /** Some enemy stands on `p`. */
  predicate Occupied(es: seq<Entity>, p: Pos) {
    exists i :: 0 <= i < |es| && At(es[i]) == p
  }

  /** The invariants the turn engine keeps. */
  predicate Sane(g: Game) {
    && g.height >= 1 && Shaped(g.grid, g.height, g.width)
    && Entities.Valid(g.player)
    && InBounds(g.height, g.width, g.player.x, g.player.y) && Walkable(g.grid[g.player.y][g.player.x])
    && g.dungeonLevel >= 1
    && (forall i :: 0 <= i < |g.enemies| ==>
          InBounds(g.height, g.width, g.enemies[i].x, g.enemies[i].y) && Passable(g.grid[g.enemies[i].y][g.enemies[i].x]))
    && DistinctPositions(g.enemies)
  }

  /** `distance`: the Chebyshev distance between two entities. */
  function Distance(a: Entity, b: Entity): (d: nat)
    ensures d >= Abs(a.x - b.x) && d >= Abs(a.y - b.y)
    ensures d == Abs(a.x - b.x) || d == Abs(a.y - b.y)
    ensures d == 0 <==> At(a) == At(b)
  {
    Chebyshev(At(a), At(b))
  }

  /** Entities within distance 1 stand on the same cell or on neighbouring cells. */
  lemma AdjacentIsStep(a: Entity, b: Entity)
    ensures Distance(a, b) <= 1 <==> At(a) == At(b) || Step(At(a), At(b))
  {
    StepIsOffset(At(a), At(b));
  }

  /** `is_valid_move(x, y)`: in bounds and floor or stairs. */
  function IsValidMove(g: Game, x: int, y: int): (ok: bool)
    requires Shaped(g.grid, g.height, g.width)
    ensures ok ==> InBounds(g.height, g.width, x, y) && g.grid[y][x] in {Floor, StairsUp, StairsDown}
    ensures InBounds(g.height, g.width, x, y) && g.grid[y][x] in {Floor, StairsUp, StairsDown} ==> ok
  {
    InBounds(g.height, g.width, x, y) && Walkable(g.grid[y][x])
  }

  /** A cell `get_random_floor` accepts: plain floor with no enemy on it.
      The player's own cell is not excluded. */
  predicate FreeFloor(g: Game, p: Pos)
    requires Shaped(g.grid, g.height, g.width)
  {
    InBounds(g.height, g.width, p.x, p.y) && g.grid[p.y][p.x] == Floor && !Occupied(g.enemies, p)
  }

  /** `get_random_floor`, given its successive coordinate draws: the first
      acceptable draw. None means the draws ran out first; the source would
      keep drawing. */
  function RandomFloor(g: Game, draws: seq<Pos>): (r: Option<Pos>)
    requires Shaped(g.grid, g.height, g.width)
    ensures r.Some? ==> FreeFloor(g, r.value) && r.value in draws
    ensures r.Some? ==> exists k :: (0 <= k < |draws| && draws[k] == r.value &&
      forall j :: 0 <= j < k ==> !FreeFloor(g, draws[j]))
    ensures r.None? <==> forall k :: 0 <= k < |draws| ==> !FreeFloor(g, draws[k])
  {
    if |draws| == 0 then None
    else if FreeFloor(g, draws[0]) then Some(draws[0])
    else
      var r := RandomFloor(g, draws[1..]);
      assert forall k :: 1 <= k < |draws| ==> draws[k] == draws[1..][k - 1];
      if r.Some? then
        var k' :| 0 <= k' < |draws[1..]| && draws[1..][k'] == r.value &&
          forall j :: 0 <= j < k' ==> !FreeFloor(g, draws[1..][j]);
        assert draws[k' + 1] == r.value;
        r
      else r
  }

  /** `get_random_floor` reads only the map and the roster: games that agree
      on those pick the same cell from the same draws. */
  lemma {:induction false} RandomFloorFrame(g: Game, h: Game, draws: seq<Pos>)
    requires Shaped(g.grid, g.height, g.width)
    requires h.grid == g.grid && h.height == g.height && h.width == g.width && h.enemies == g.enemies
    ensures RandomFloor(h, draws) == RandomFloor(g, draws)
    decreases |draws|
  {
    if |draws| > 0 {
      RandomFloorFrame(g, h, draws[1..]);
    }
  }

  // ---------------------------------------------------------------------
  // Spawning

  /** The draws of one `spawn_enemies` iteration: cell draws, the three
      scaled stats (the float scaling itself is not modelled) and the 30%
      potion chance. */
  datatype SpawnDraw = SpawnDraw(cells: seq<Pos>, health: int, damage: int, defense: int, potion: bool)

  /** The draws of one `spawn_items` iteration: cell draws and the catalog entry chosen. */
  datatype ItemDraw = ItemDraw(cells: seq<Pos>, template: Item)

  function Digit(d: nat): char
    requires d < 10
  {
    "0123456789"[d]
  }

  function Digits(n: nat): string
    decreases n
  {
    if n < 10 then [Digit(n)] else Digits(n / 10) + [Digit(n % 10)]
  }

  /** `str(n)` for an int. */
  function Decimal(n: int): string {
    if n < 0 then "-" + Digits(-n) else Digits(n)
  }

  /** The enemy `spawn_enemies` builds at `p`: "Enemy Lv<depth>", maybe with a potion. */
  function MakeEnemy(depth: int, p: Pos, d: SpawnDraw): (e: Entity)
    ensures At(e) == p && e.glyph == 'E' && e.name == "Enemy Lv" + Decimal(depth)
    ensures e.health == d.health && e.maxHealth == d.health && e.level == 1
    ensures Damage(e) == d.damage && Defense(e) == d.defense
    ensures Inventory.Count(e.inventory, HealthPotion.name) == (if d.potion then 1 else 0)
    ensures Entities.Valid(e)
  {
    var base := NewEntity(p.x, p.y, 'E', "Enemy Lv" + Decimal(depth), d.health, d.damage, d.defense);
    NewEntityValid(p.x, p.y, 'E', "Enemy Lv" + Decimal(depth), d.health, d.damage, d.defense);
    if d.potion then base.(inventory := Inventory.Add(base.inventory, HealthPotion)) else base
  }

  /** Everything but the enemies is as in `g`. */
  predicate OnlyEnemies(g: Game, r: Game) {
    r == g.(enemies := r.enemies)
  }

  /** One iteration of `spawn_enemies`: a new enemy on the first free floor
      cell among the draws, or None when the draws run out. */
  function SpawnEnemy(g: Game, d: SpawnDraw): (r: Option<Game>)
    requires Sane(g)
    ensures r.None? <==> RandomFloor(g, d.cells).None?
    ensures r.Some? ==> Sane(r.value) && OnlyEnemies(g, r.value)
    ensures r.Some? ==> r.value.enemies == g.enemies + [MakeEnemy(g.dungeonLevel, RandomFloor(g, d.cells).value, d)]
    ensures r.Some? ==> g.grid[RandomFloor(g, d.cells).value.y][RandomFloor(g, d.cells).value.x] == Floor
  {
    match RandomFloor(g, d.cells)
    case None => None
    case Some(p) =>
      var e := MakeEnemy(g.dungeonLevel, p, d);
      var g' := g.(enemies := g.enemies + [e]);
      assert Sane(g') by {
        forall i | 0 <= i < |g.enemies| ensures At(g'.enemies[i]) != At(e) {
          assert g'.enemies[i] == g.enemies[i];
        }
      }
      Some(g')
  }

  /** The first cell drawn for each spawn is free floor and no two of them
      coincide, so every spawn lands on its first draw. */
  predicate FirstDrawsFree(g: Game, draws: seq<SpawnDraw>)
    requires Shaped(g.grid, g.height, g.width)
  {
    && (forall i :: 0 <= i < |draws| ==> |draws[i].cells| > 0 && FreeFloor(g, draws[i].cells[0]))
    && (forall i, j :: 0 <= i < j < |draws| ==> draws[i].cells[0] != draws[j].cells[0])
  }

  /** A first draw that is free floor stays free once an enemy is put on
      another cell. */
  lemma FreeBesideNewEnemy(g: Game, e: Entity, p: Pos)
    requires Shaped(g.grid, g.height, g.width) && FreeFloor(g, p) && At(e) != p
    ensures FreeFloor(g.(enemies := g.enemies + [e]), p)
  {
    var es := g.enemies + [e];
    forall j | 0 <= j < |es| ensures At(es[j]) != p {
      if j < |g.enemies| {
        assert es[j] == g.enemies[j];
      }
    }
  }

  /** Once the first spawn has landed on its first draw, the remaining first
      draws are still free and distinct. */
  lemma FirstDrawsStayFree(g: Game, e: Entity, draws: seq<SpawnDraw>)
    requires Shaped(g.grid, g.height, g.width) && |draws| > 0
    requires |draws[0].cells| > 0 && At(e) == draws[0].cells[0]
    ensures FirstDrawsFree(g, draws) ==> FirstDrawsFree(g.(enemies := g.enemies + [e]), draws[1..])
  {
    if FirstDrawsFree(g, draws) {
      var rest := draws[1..];
      forall k | 0 <= k < |rest| ensures |rest[k].cells| > 0 && FreeFloor(g.(enemies := g.enemies + [e]), rest[k].cells[0]) {
        assert rest[k] == draws[k + 1];
        FreeBesideNewEnemy(g, e, rest[k].cells[0]);
      }
      assert forall i, j :: 0 <= i < j < |rest| ==> rest[i] == draws[i + 1] && rest[j] == draws[j + 1];
    }
  }

  /** `spawn_enemies(len(draws))`: each new enemy goes on a free floor cell. */
  function SpawnEnemies(g: Game, draws: seq<SpawnDraw>): (r: Option<Game>)
    requires Sane(g)
    ensures r.Some? ==> Sane(r.value) && OnlyEnemies(g, r.value)
    ensures r.Some? ==> |r.value.enemies| == |g.enemies| + |draws| && r.value.enemies[..|g.enemies|] == g.enemies
    ensures r.Some? ==> forall i :: |g.enemies| <= i < |r.value.enemies| ==>
      r.value.grid[r.value.enemies[i].y][r.value.enemies[i].x] == Floor
    ensures |draws| == 0 ==> r == Some(g)
    decreases |draws|
  {
    if |draws| == 0 then Some(g)
    else
      match SpawnEnemy(g, draws[0])
      case None => None
      case Some(g') =>
        var r := SpawnEnemies(g', draws[1..]);
        if r.Some? then
          var es := r.value.enemies;
          assert es[..|g'.enemies|] == g'.enemies;
          assert es[..|g.enemies|] == g.enemies by {
            assert es[..|g.enemies|] == es[..|g'.enemies|][..|g.enemies|];
          }
          assert r.value.grid == g.grid;
          assert es[|g.enemies|] == g'.enemies[|g.enemies|] by {
            assert es[|g.enemies|] == es[..|g'.enemies|][|g.enemies|];
          }
          forall i | |g.enemies| <= i < |es| ensures r.value.grid[es[i].y][es[i].x] == Floor {
            if i == |g.enemies| {
              assert es[i] == MakeEnemy(g.dungeonLevel, RandomFloor(g, draws[0].cells).value, draws[0]);
            }
          }
          r
        else r
  }

  /** Enemy i of `es` is built from draw i at this depth. */
  predicate BuiltFrom(depth: int, draws: seq<SpawnDraw>, es: seq<Entity>) {
    |es| == |draws| && forall i :: 0 <= i < |draws| ==> es[i] == MakeEnemy(depth, At(es[i]), draws[i])
  }

  /** Enemy i of `es` stands on the first cell of draw i. */
  predicate OnFirstDraws(draws: seq<SpawnDraw>, es: seq<Entity>) {
    |es| == |draws| && forall i :: 0 <= i < |draws| ==> |draws[i].cells| > 0 && At(es[i]) == draws[i].cells[0]
  }

  /** Enemy i of a spawn is built from draw i, at the current depth; a first
      draw whose cells are all taken stops the spawning. */
  lemma {:induction false} SpawnEnemiesBuilt(g: Game, draws: seq<SpawnDraw>)
    requires Sane(g)
    ensures |draws| > 0 && RandomFloor(g, draws[0].cells).None? ==> SpawnEnemies(g, draws).None?
    ensures SpawnEnemies(g, draws).Some? ==>
      BuiltFrom(g.dungeonLevel, draws, SpawnEnemies(g, draws).value.enemies[|g.enemies|..])
    decreases |draws|
  {
    if |draws| > 0 && SpawnEnemy(g, draws[0]).Some? {
      var g' := SpawnEnemy(g, draws[0]).value;
      var rest := draws[1..];
      assert SpawnEnemies(g, draws) == SpawnEnemies(g', rest);
      SpawnEnemiesBuilt(g', rest);
      if SpawnEnemies(g', rest).Some? {
        var es := SpawnEnemies(g', rest).value.enemies;
        var added := es[|g.enemies|..];
        assert added[0] == g'.enemies[|g.enemies|] by {
          assert es[|g.enemies|] == es[..|g'.enemies|][|g.enemies|];
        }
        assert added[1..] == es[|g'.enemies|..];
        forall i | 1 <= i < |draws| ensures added[i] == MakeEnemy(g.dungeonLevel, At(added[i]), draws[i]) {
          assert rest[i - 1] == draws[i] && added[1..][i - 1] == added[i];
        }
      }
    }
  }

  /** When every first draw is free floor and no two coincide, the spawn
      succeeds and enemy i stands on draw i's first cell. */
  lemma {:induction false} SpawnEnemiesLand(g: Game, draws: seq<SpawnDraw>)
    requires Sane(g) && FirstDrawsFree(g, draws)
    ensures SpawnEnemies(g, draws).Some?
    ensures OnFirstDraws(draws, SpawnEnemies(g, draws).value.enemies[|g.enemies|..])
    decreases |draws|
  {
    if |draws| > 0 {
      assert RandomFloor(g, draws[0].cells) == Some(draws[0].cells[0]);
      var g' := SpawnEnemy(g, draws[0]).value;
      var rest := draws[1..];
      assert SpawnEnemies(g, draws) == SpawnEnemies(g', rest);
      var e := g'.enemies[|g.enemies|];
      FirstDrawsStayFree(g, e, draws);
      SpawnEnemiesLand(g', rest);
      var es := SpawnEnemies(g', rest).value.enemies;
      var added := es[|g.enemies|..];
      assert added[0] == e by {
        assert es[|g.enemies|] == es[..|g'.enemies|][|g.enemies|];
      }
      assert added[1..] == es[|g'.enemies|..];
      forall i | 1 <= i < |draws| ensures At(added[i]) == draws[i].cells[0] {
        assert rest[i - 1] == draws[i] && added[1..][i - 1] == added[i];
      }
    }
  }

  /** `max(1, (5 + depth) // 2)`; `//` floors, as Dafny's `/` does for a positive divisor. */
  function ItemCount(depth: int): (n: int)
    ensures n >= 1
    ensures depth >= -3 ==> n == (5 + depth) / 2
  {
    Max(1, (5 + depth) / 2)
  }

  /** `spawn_items(len(draws))`: each new item is a fresh copy of its
      catalog entry on a floor cell with no enemy. */
  function SpawnItems(g: Game, draws: seq<ItemDraw>): (r: Option<Game>)
    requires Sane(g)
    ensures r.Some? ==> r.value == g.(items := r.value.items)
    ensures r.Some? ==> |r.value.items| == |g.items| + |draws| && r.value.items[..|g.items|] == g.items
    ensures r.Some? ==> forall i :: |g.items| <= i < |r.value.items| ==>
      var it := r.value.items[i];
      InBounds(g.height, g.width, it.x, it.y) && g.grid[it.y][it.x] == Floor &&
      it.item == CopyOf(draws[i - |g.items|].template)
    ensures |draws| == 0 ==> r == Some(g)
    decreases |draws|
  {
    if |draws| == 0 then Some(g)
    else
      match RandomFloor(g, draws[0].cells)
      case None => None
      case Some(p) =>
        var g' := g.(items := g.items + [Placed(CopyOf(draws[0].template), p.x, p.y)]);
        var r := SpawnItems(g', draws[1..]);
        if r.Some? then
          assert r.value.items[..|g'.items|][..|g.items|] == g.items;
          assert r.value.items[|g.items|] == r.value.items[..|g'.items|][|g.items|];
          assert forall k :: 1 <= k < |draws| ==> draws[k] == draws[1..][k - 1];
          r
        else r
  }

  /** Items do not block one another: spawning fails exactly when some
      draw runs out of cells on the game before any item was added. */
  lemma {:induction false} SpawnItemsFail(g: Game, draws: seq<ItemDraw>)
    requires Sane(g)
    ensures SpawnItems(g, draws).None? <==> exists k :: 0 <= k < |draws| && RandomFloor(g, draws[k].cells).None?
    decreases |draws|
  {
    if |draws| > 0 && RandomFloor(g, draws[0].cells).Some? {
      var p := RandomFloor(g, draws[0].cells).value;
      var g' := g.(items := g.items + [Placed(CopyOf(draws[0].template), p.x, p.y)]);
      var rest := draws[1..];
      assert SpawnItems(g, draws) == SpawnItems(g', rest);
      SpawnItemsFail(g', rest);
      forall k | 0 <= k < |rest|
        ensures rest[k] == draws[k + 1]
        ensures RandomFloor(g', rest[k].cells) == RandomFloor(g, draws[k + 1].cells)
      {
        RandomFloorFrame(g, g', rest[k].cells);
      }
      if SpawnItems(g', rest).None? {
        var k :| 0 <= k < |rest| && RandomFloor(g', rest[k].cells).None?;
        assert RandomFloor(g, draws[k + 1].cells).None?;
      }
    } else if |draws| > 0 {
      assert RandomFloor(g, draws[0].cells).None?;
    }
  }

  /** The cell an item lies on. */
  function Spot(it: Placed): Pos {
    Pos(it.x, it.y)
  }

  /** Item i of `placed` lies on the cell `get_random_floor` picks from
      draw i on `g`. */
  predicate OnPicks(g: Game, draws: seq<ItemDraw>, placed: seq<Placed>)
    requires Shaped(g.grid, g.height, g.width)
  {
    |placed| == |draws| && forall i :: 0 <= i < |draws| ==> RandomFloor(g, draws[i].cells) == Some(Spot(placed[i]))
  }

  /** Item i lies on the cell `get_random_floor` picks from draw i on the
      game before any item was added. */
  lemma {:induction false} SpawnItemsPlaced(g: Game, draws: seq<ItemDraw>)
    requires Sane(g)
    ensures SpawnItems(g, draws).Some? ==> OnPicks(g, draws, SpawnItems(g, draws).value.items[|g.items|..])
    decreases |draws|
  {
    if |draws| > 0 && RandomFloor(g, draws[0].cells).Some? {
      var p := RandomFloor(g, draws[0].cells).value;
      var g' := g.(items := g.items + [Placed(CopyOf(draws[0].template), p.x, p.y)]);
      var rest := draws[1..];
      assert SpawnItems(g, draws) == SpawnItems(g', rest);
      SpawnItemsPlaced(g', rest);
      if SpawnItems(g', rest).Some? {
        var items := SpawnItems(g', rest).value.items;
        var added := items[|g.items|..];
        assert added[0] == Placed(CopyOf(draws[0].template), p.x, p.y) by {
          assert items[|g.items|] == items[..|g'.items|][|g.items|];
        }
        assert added[1..] == items[|g'.items|..];
        forall i | 1 <= i < |draws| ensures RandomFloor(g, draws[i].cells) == Some(Spot(added[i])) {
          assert rest[i - 1] == draws[i] && added[1..][i - 1] == added[i];
          RandomFloorFrame(g, g', draws[i].cells);
        }
      }
    }
  }

  // ---------------------------------------------------------------------
  // Score

  /** The equipment value of the inventory, counting each stack once
      whatever its size (the source sums over the Counter's keys). */
  function StackValue(inv: Inventory.Inv): int
    decreases |inv|
  {
    if |inv| == 0 then 0 else StackValue(inv[..|inv| - 1]) + StatBoost(inv[|inv| - 1].item)
  }

  /** The treasure `exit_game` announces: inventory equipment, worn
      equipment and money. */
  function Score(e: Entity): int {
    StackValue(e.inventory) + SumOver(e.equipment, SlotBoost) + e.money
  }

  lemma {:induction false} StackValueSame(a: Inventory.Inv, b: Inventory.Inv)
    requires |a| == |b| && forall j :: 0 <= j < |a| ==> a[j].item == b[j].item
    ensures StackValue(a) == StackValue(b)
    decreases |a|
  {
    if |a| > 0 {
      StackValueSame(a[..|a| - 1], b[..|b| - 1]);
    }
  }

  /** Picking up a second copy of an item already owned adds nothing to the score. */
  lemma ScoreCountsStacksOnce(e: Entity, it: Item)
    requires Inventory.Has(e.inventory, it.name)
    ensures Score(e.(inventory := Inventory.Add(e.inventory, it))) == Score(e)
  {
    var i := Inventory.Find(e.inventory, it.name).value;
    var r := Inventory.Add(e.inventory, it);
    assert r == e.inventory[i := Inventory.Stack(e.inventory[i].item, e.inventory[i].count + 1)];
    StackValueSame(e.inventory, r);
  }
}

=== FILE: grids.dfy ===
/**
 * The terrain grid shared by the level generator, the path finder and the
 * turn engine: cells, positions, 8-neighbour steps and routes.
 */
module Grids {

  /** A terrain cell. `Blank` is the ' ' glyph the path finder refuses; the
      generator never writes it. */
  datatype Cell = Wall | Floor | StairsUp | StairsDown | Blank

  datatype Pos = Pos(x: int, y: int)

  /** Rows indexed by y, each row indexed by x. */
  type Grid = seq<seq<Cell>>

  /** `g` has `height` rows of `width` cells each. */
  predicate Shaped(g: Grid, height: int, width: int) {
    && |g| == height
    && forall y :: 0 <= y < |g| ==> |g[y]| == width
  }

  predicate InBounds(height: int, width: int, x: int, y: int) {
    0 <= x < width && 0 <= y < height
  }

  /** A cell the player may enter: '.', '<' or '>'. */
  predicate Walkable(c: Cell) {
    c == Floor || c == StairsUp || c == StairsDown
  }

  /** A cell the path finder may enter: anything but '#' and ' '. */
  predicate Passable(c: Cell) {
    c != Wall && c != Blank
  }

  lemma WalkableIsPassable(c: Cell)
    requires Walkable(c)
    ensures Passable(c)
  {
  }

  /** A grid of `height` rows and `width` columns holding `c` everywhere. */
  function Fill(height: nat, width: nat, c: Cell): (g: Grid)
    ensures Shaped(g, height, width)
    ensures forall y, x :: 0 <= y < height && 0 <= x < width ==> g[y][x] == c
  {
    seq(height, _ => seq(width, _ => c))
  }

  function Abs(n: int): nat {
    if n < 0 then -n else n
  }

  /** Chebyshev distance: the number of king moves between two cells. */
  function Chebyshev(a: Pos, b: Pos): nat {
    var dx := Abs(a.x - b.x);
    var dy := Abs(a.y - b.y);
    if dx >= dy then dx else dy
  }

  /** The eight neighbour offsets, in the order the path finder tries them. */
  const Offsets: seq<Pos> :=
    [Pos(0, 1), Pos(0, -1), Pos(1, 0), Pos(-1, 0), Pos(1, 1), Pos(1, -1), Pos(-1, 1), Pos(-1, -1)]

  function Shift(p: Pos, d: Pos): Pos {
    Pos(p.x + d.x, p.y + d.y)
  }

  /** `b` is one of the eight neighbours of `a`. */
  predicate Step(a: Pos, b: Pos) {
    a != b && Abs(a.x - b.x) <= 1 && Abs(a.y - b.y) <= 1
  }

  /** The neighbour relation is exactly "one of the eight offsets away", and
      exactly "at Chebyshev distance 1". */
  lemma StepIsOffset(a: Pos, b: Pos)
    ensures Step(a, b) <==> exists k :: 0 <= k < |Offsets| && b == Shift(a, Offsets[k])
    ensures Step(a, b) <==> Chebyshev(a, b) == 1
  {
    if Step(a, b) {
      var d := Pos(b.x - a.x, b.y - a.y);
      var k :=
        if d == Pos(0, 1) then 0 else if d == Pos(0, -1) then 1
        else if d == Pos(1, 0) then 2 else if d == Pos(-1, 0) then 3
        else if d == Pos(1, 1) then 4 else if d == Pos(1, -1) then 5
        else if d == Pos(-1, 1) then 6 else 7;
      assert Offsets[k] == d;
      assert b == Shift(a, Offsets[k]);
    }
  }

  lemma OffsetIsStep(p: Pos, k: int)
    requires 0 <= k < |Offsets|
    ensures Step(p, Shift(p, Offsets[k]))
  {
  }

  /** Triangle inequality: one step changes the distance to a fixed cell by at most one. */
  lemma StepDistance(a: Pos, b: Pos, c: Pos)
    requires Step(a, b)
    ensures Chebyshev(a, c) <= Chebyshev(b, c) + 1
    ensures Chebyshev(b, c) <= Chebyshev(a, c) + 1
  {
  }

  /**
   * `path` leads from `start` to `goal` through neighbouring cells, and
   * every cell after the first lies in bounds and satisfies `ok`.
   */
  predicate IsRoute(g: Grid, height: int, width: int, path: seq<Pos>, start: Pos, goal: Pos)
    requires Shaped(g, height, width)
  {
    && |path| >= 1
    && path[0] == start
    && path[|path| - 1] == goal
    && (forall i :: 1 <= i < |path| ==> Step(path[i - 1], path[i]))
    && (forall i :: 1 <= i < |path| ==>
          InBounds(height, width, path[i].x, path[i].y) && Passable(g[path[i].y][path[i].x]))
  }

  /** Some route connects `start` to `goal`. */
  ghost predicate Reachable(g: Grid, height: int, width: int, start: Pos, goal: Pos)
    requires Shaped(g, height, width)
  {
    exists path :: IsRoute(g, height, width, path, start, goal)
  }

  /** Two routes that meet join into one. */
  lemma RouteJoin(g: Grid, height: int, width: int, p: seq<Pos>, q: seq<Pos>, a: Pos, b: Pos, c: Pos)
    requires Shaped(g, height, width)
    requires IsRoute(g, height, width, p, a, b) && IsRoute(g, height, width, q, b, c)
    ensures IsRoute(g, height, width, p + q[1..], a, c)
  {
    var r := p + q[1..];
    forall i | 1 <= i < |r|
      ensures Step(r[i - 1], r[i])
      ensures InBounds(height, width, r[i].x, r[i].y) && Passable(g[r[i].y][r[i].x])
    {
      if i >= |p| {
        assert r[i] == q[i - |p| + 1];
        assert r[i - 1] == q[i - |p|];
      }
    }
  }

  /** A route can be extended backwards by one step into a passable cell. */
  lemma RouteCons(g: Grid, height: int, width: int, p: Pos, route: seq<Pos>, a: Pos, b: Pos)
    requires Shaped(g, height, width) && IsRoute(g, height, width, route, a, b)
    requires Step(p, a) && InBounds(height, width, a.x, a.y) && Passable(g[a.y][a.x])
    ensures IsRoute(g, height, width, [p] + route, p, b)
  {
    var r := [p] + route;
    forall i | 1 <= i < |r|
      ensures Step(r[i - 1], r[i])
      ensures InBounds(height, width, r[i].x, r[i].y) && Passable(g[r[i].y][r[i].x])
    {
      assert r[i] == route[i - 1];
    }
  }

  /** Dropping the first cell of a route leaves a route from the second. */
  lemma RouteTail(g: Grid, height: int, width: int, route: seq<Pos>, a: Pos, b: Pos)
    requires Shaped(g, height, width) && IsRoute(g, height, width, route, a, b) && |route| >= 2
    ensures IsRoute(g, height, width, route[1..], route[1], b)
  {
    var r := route[1..];
    forall i | 1 <= i < |r|
      ensures Step(r[i - 1], r[i])
      ensures InBounds(height, width, r[i].x, r[i].y) && Passable(g[r[i].y][r[i].x])
    {
      assert r[i] == route[i + 1] && r[i - 1] == route[i];
    }
  }
}

=== FILE: inventory.dfy ===
/**
 * The inventory of an entity (the `Counter` in classes/entity.py): an
 * insertion-ordered list of stacks, looked up by item name.
 */
module Inventory {
  import opened Wrappers
  import opened Items

  datatype Stack = Stack(item: Item, count: int)

  type Inv = seq<Stack>

  /** Index of the first stack whose item has the given name. */
  function Find(inv: Inv, name: string): (r: Option<nat>)
    ensures r.Some? ==> r.value < |inv| && inv[r.value].item.name == name
    ensures r.Some? ==> forall j :: 0 <= j < r.value ==> inv[j].item.name != name
    ensures r.None? <==> forall j :: 0 <= j < |inv| ==> inv[j].item.name != name
  {
    if |inv| == 0 then None
    else if inv[0].item.name == name then Some(0)
    else match Find(inv[1..], name)
      case None => None
      case Some(k) => Some(k + 1)
  }

  /** Python's `item in inventory`: some stack has the item's name. */
  predicate Has(inv: Inv, name: string) {
    Find(inv, name).Some?
  }

  /** How many items of this name the inventory holds (summed over stacks). */
  function Count(inv: Inv, name: string): int {
    if |inv| == 0 then 0
    else Count(inv[..|inv| - 1], name) + Own(inv[|inv| - 1], name)
  }

  function Own(s: Stack, name: string): int {
    if s.item.name == name then s.count else 0
  }

  /** Every name has at most one stack and every stack has a positive count. */
  predicate Valid(inv: Inv) {
    && (forall i, j :: 0 <= i < j < |inv| ==> inv[i].item.name != inv[j].item.name)
    && (forall i :: 0 <= i < |inv| ==> inv[i].count > 0)
  }

  lemma {:induction false} CountConcat(a: Inv, b: Inv, name: string)
    ensures Count(a + b, name) == Count(a, name) + Count(b, name)
    decreases |b|
  {
    if |b| == 0 {
      assert a + b == a;
    } else {
      var b' := b[..|b| - 1];
      assert (a + b)[..|a + b| - 1] == a + b';
      CountConcat(a, b', name);
    }
  }

  /** In a valid inventory the count of a name is the count of its one stack. */
  lemma {:induction false} CountOfValid(inv: Inv, name: string)
    requires Valid(inv)
    ensures Find(inv, name).None? ==> Count(inv, name) == 0
    ensures Find(inv, name).Some? ==> Count(inv, name) == inv[Find(inv, name).value].count
    ensures Count(inv, name) >= 0
    ensures Has(inv, name) <==> Count(inv, name) > 0
    decreases |inv|
  {
    if |inv| > 0 {
      var front := inv[..|inv| - 1];
      assert Valid(front);
      CountOfValid(front, name);
      var last := inv[|inv| - 1];
      if last.item.name == name {
        assert Find(front, name).None?;
        assert Find(inv, name) == Some(|inv| - 1);
      } else if Find(front, name).Some? {
        assert Find(inv, name) == Find(front, name);
      } else {
        assert Find(inv, name).None?;
      }
    }
  }

  /** Counts after replacing the stack at `i` by one for the same name. */
  lemma CountUpdate(inv: Inv, i: int, s: Stack, name: string)
    requires 0 <= i < |inv| && s.item.name == inv[i].item.name
    ensures Count(inv[i := s], name) == Count(inv, name) + Own(s, name) - Own(inv[i], name)
  {
    assert inv == inv[..i] + [inv[i]] + inv[i + 1..];
    assert inv[i := s] == inv[..i] + [s] + inv[i + 1..];
    CountConcat(inv[..i] + [inv[i]], inv[i + 1..], name);
    CountConcat(inv[..i], [inv[i]], name);
    CountConcat(inv[..i] + [s], inv[i + 1..], name);
    CountConcat(inv[..i], [s], name);
    assert [inv[i]][..0] == [];
    assert [s][..0] == [];
  }

  /** Counts after deleting the stack at `i`. */
  lemma CountDelete(inv: Inv, i: int, name: string)
    requires 0 <= i < |inv|
    ensures Count(inv[..i] + inv[i + 1..], name) == Count(inv, name) - Own(inv[i], name)
  {
    assert inv == inv[..i] + [inv[i]] + inv[i + 1..];
    CountConcat(inv[..i] + [inv[i]], inv[i + 1..], name);
    CountConcat(inv[..i], [inv[i]], name);
    CountConcat(inv[..i], inv[i + 1..], name);
    assert [inv[i]][..0] == [];
  }

  /** `add_item`: bump the stack with this name, or open a new stack of one. */
  function Add(inv: Inv, it: Item): (r: Inv)
    ensures forall name :: Count(r, name) == Count(inv, name) + (if name == it.name then 1 else 0)
    ensures Has(r, it.name)
    ensures Valid(inv) ==> Valid(r)
    ensures Has(inv, it.name) ==> |r| == |inv| && forall j :: 0 <= j < |inv| && inv[j].item.name != it.name ==> r[j] == inv[j]
    ensures !Has(inv, it.name) ==> r == inv + [Stack(it, 1)]
  {
    match Find(inv, it.name)
    case Some(i) =>
      var r := inv[i := Stack(inv[i].item, inv[i].count + 1)];
      assert forall name :: Count(r, name) == Count(inv, name) + (if name == it.name then 1 else 0) by {
        forall name ensures Count(r, name) == Count(inv, name) + (if name == it.name then 1 else 0) {
          CountUpdate(inv, i, Stack(inv[i].item, inv[i].count + 1), name);
        }
      }
      assert Find(r, it.name).Some? by {
        assert r[i].item.name == it.name;
      }
      r
    case None =>
      var r := inv + [Stack(it, 1)];
      assert forall name :: Count(r, name) == Count(inv, name) + (if name == it.name then 1 else 0) by {
        forall name ensures Count(r, name) == Count(inv, name) + (if name == it.name then 1 else 0) {
          assert r[..|r| - 1] == inv;
        }
      }
      assert Find(r, it.name).Some? by {
        assert r[|inv|].item.name == it.name;
      }
      r
  }

  datatype Removal = Removal(inv: Inv, removed: bool)

  /** `remove_item`: take one from the stack with this name, dropping the stack at zero. */
  function Remove(inv: Inv, it: Item): (r: Removal)
    ensures !Has(inv, it.name) ==> r == Removal(inv, false)
    ensures Valid(inv) && Has(inv, it.name) ==> r.removed
    ensures r.removed ==> forall name :: Count(r.inv, name) == Count(inv, name) - (if name == it.name then 1 else 0)
    ensures !r.removed ==> r.inv == inv
    ensures Valid(inv) ==> Valid(r.inv)
  {
    match Find(inv, it.name)
    case None => Removal(inv, false)
    case Some(i) =>
      if inv[i].count > 0 then
        if inv[i].count - 1 == 0 then
          var r := inv[..i] + inv[i + 1..];
          assert forall name :: Count(r, name) == Count(inv, name) - (if name == it.name then 1 else 0) by {
            forall name ensures Count(r, name) == Count(inv, name) - (if name == it.name then 1 else 0) {
              CountDelete(inv, i, name);
            }
          }
          assert Valid(inv) ==> Valid(r) by {
            if Valid(inv) {
              forall a, b | 0 <= a < b < |r| ensures r[a].item.name != r[b].item.name {
                var a' := if a < i then a else a + 1;
                var b' := if b < i then b else b + 1;
                assert r[a] == inv[a'] && r[b] == inv[b'];
              }
            }
          }
          Removal(r, true)
        else
          var r := inv[i := Stack(inv[i].item, inv[i].count - 1)];
          assert forall name :: Count(r, name) == Count(inv, name) - (if name == it.name then 1 else 0) by {
            forall name ensures Count(r, name) == Count(inv, name) - (if name == it.name then 1 else 0) {
              CountUpdate(inv, i, Stack(inv[i].item, inv[i].count - 1), name);
            }
          }
          Removal(r, true)
      else Removal(inv, false)
  }

  /** Adding an item and removing it again leaves every count as it was. */
  lemma AddThenRemove(inv: Inv, it: Item, name: string)
    requires Valid(inv)
    ensures Remove(Add(inv, it), it).removed
    ensures Count(Remove(Add(inv, it), it).inv, name) == Count(inv, name)
  {
  }
}

=== FILE: items.dfy ===
/**
 * Items and consumable effects (classes/item.py and `create_effect` in
 * classes/item_loader.py). An item is either a consumable carrying an
 * effect or a piece of equipment carrying a slot name and a stat boost;
 * identity is by name alone.
 */
module Items {
  import opened Wrappers

  /** The closed set of consumable effects, each with its magnitude. */
  datatype Effect =
    | Heal(amount: int)
    | RestoreMana(amount: int)
    | BoostStrength(amount: int)
    | BoostDexterity(amount: int)
    | NoEffect

  datatype ItemKind =
    | Consumable(effect: Effect, duration: Option<int>)
    | Equipment(slot: string, statBoost: int)

  datatype Item = Item(name: string, glyph: char, kind: ItemKind)

  /** Python equality on items: names are compared, nothing else. */
  predicate SameItem(a: Item, b: Item) {
    a.name == b.name
  }

  /** The hash key of an item, which is its name. */
  function Key(a: Item): string {
    a.name
  }

  /** Equality ignores glyph, effect and slot, and the hash agrees with it. */
  lemma SameItemIsByName(a: Item, b: Item)
    ensures SameItem(a, b) <==> Key(a) == Key(b)
    ensures a.name == b.name ==> SameItem(a, b)
    ensures SameItem(a, a)
  {
  }

  const KnownKinds: set<string> := {"heal", "restore_mana", "boost_strength", "boost_dexterity"}

  /** Maps an effect kind read from the catalog to its effect; an unknown kind gives no effect. */
  function CreateEffect(kind: string, value: int): (e: Effect)
    ensures kind == "heal" <==> e == Heal(value)
    ensures kind == "restore_mana" <==> e == RestoreMana(value)
    ensures kind == "boost_strength" <==> e == BoostStrength(value)
    ensures kind == "boost_dexterity" <==> e == BoostDexterity(value)
    ensures e == NoEffect <==> kind !in KnownKinds
  {
    if kind == "heal" then Heal(value)
    else if kind == "restore_mana" then RestoreMana(value)
    else if kind == "boost_strength" then BoostStrength(value)
    else if kind == "boost_dexterity" then BoostDexterity(value)
    else NoEffect
  }

  /** The catalog kind string that selects an effect. */
  function KindName(e: Effect): string {
    match e
    case Heal(_) => "heal"
    case RestoreMana(_) => "restore_mana"
    case BoostStrength(_) => "boost_strength"
    case BoostDexterity(_) => "boost_dexterity"
    case NoEffect => "none"
  }

  function Magnitude(e: Effect): int {
    match e
    case Heal(v) => v
    case RestoreMana(v) => v
    case BoostStrength(v) => v
    case BoostDexterity(v) => v
    case NoEffect => 0
  }

  /** Every effect is produced by exactly its own kind string and magnitude. */
  lemma CreateEffectRoundTrip(e: Effect)
    ensures CreateEffect(KindName(e), Magnitude(e)) == e
  {
  }

  /** An equipment item as built from catalog data. */
  function MakeEquipment(name: string, glyph: char, slot: string, statBoost: int): (it: Item)
    ensures it.kind.Equipment? && it.kind.slot == slot && it.kind.statBoost == statBoost
    ensures it.name == name && it.glyph == glyph
  {
    Item(name, glyph, Equipment(slot, statBoost))
  }

  /** The stat boost an item grants when worn; consumables never occupy a slot. */
  function StatBoost(it: Item): int {
    match it.kind
    case Equipment(_, b) => b
    case Consumable(_, _) => 0
  }

  /** The fresh copy a spawn makes of a catalog template: equipment is copied
      whole, a consumable keeps name, glyph and effect but loses its duration. */
  function CopyOf(template: Item): (it: Item)
    ensures SameItem(it, template) && it.glyph == template.glyph
    ensures template.kind.Equipment? ==> it == template
    ensures template.kind.Consumable? ==>
      it.kind == Consumable(template.kind.effect, None)
  {
    match template.kind
    case Equipment(_, _) => template
    case Consumable(eff, _) => Item(template.name, template.glyph, Consumable(eff, None))
  }

  /** The potion some enemies carry: restores up to 20 health. The source's
      closure sets health directly and replies nothing, unlike `heal`; the
      two agree on health, and no modelled path lets the player use it. */
  const HealthPotion: Item := Item("Health Potion", '!', Consumable(Heal(20), None))
}

=== FILE: level_paths.dfy ===
/**
 * Connectivity of generated levels: every room's midpoint is joined to the
 * next by its L-shaped corridor, so the up stairs reach the down stairs.
 */
module LevelPaths {
  import opened Wrappers
  import opened Grids
  import opened MapGen

  function Toward(a: int, b: int): int {
    if a < b then a + 1 else a - 1
  }

  function Mid(r: Room): Pos {
    Pos(MidX(r), MidY(r))
  }

  /** The cells of row y walked from x1 to x2. */
  function HSeg(x1: int, x2: int, y: int): (s: seq<Pos>)
    ensures |s| >= 1 && s[0] == Pos(x1, y) && s[|s| - 1] == Pos(x2, y)
    ensures forall i :: 1 <= i < |s| ==> Step(s[i - 1], s[i])
    ensures forall i :: 0 <= i < |s| ==> s[i].y == y && Between(s[i].x, x1, x2)
    decreases Abs(x2 - x1)
  {
    if x1 == x2 then [Pos(x1, y)] else [Pos(x1, y)] + HSeg(Toward(x1, x2), x2, y)
  }

  /** The cells of column x walked from y1 to y2. */
  function VSeg(y1: int, y2: int, x: int): (s: seq<Pos>)
    ensures |s| >= 1 && s[0] == Pos(x, y1) && s[|s| - 1] == Pos(x, y2)
    ensures forall i :: 1 <= i < |s| ==> Step(s[i - 1], s[i])
    ensures forall i :: 0 <= i < |s| ==> s[i].x == x && Between(s[i].y, y1, y2)
    decreases Abs(y2 - y1)
  {
    if y1 == y2 then [Pos(x, y1)] else [Pos(x, y1)] + VSeg(Toward(y1, y2), y2, x)
  }

  /** A straight run whose cells are all passable and inside the map is a route. */
  lemma RunIsRoute(g: Grid, height: int, width: int, s: seq<Pos>, a: Pos, b: Pos)
    requires Shaped(g, height, width)
    requires |s| >= 1 && s[0] == a && s[|s| - 1] == b
    requires forall i :: 1 <= i < |s| ==> Step(s[i - 1], s[i])
    requires forall i :: 0 <= i < |s| ==> InBounds(height, width, s[i].x, s[i].y) && Passable(g[s[i].y][s[i].x])
    ensures IsRoute(g, height, width, s, a, b)
  {
  }

  /** The walk along the corridor between the midpoints of `a` and `b`. */
  function CorridorWalk(a: Room, b: Room, hFirst: bool): seq<Pos> {
    var x1, y1, x2, y2 := MidX(a), MidY(a), MidX(b), MidY(b);
    if hFirst then HSeg(x1, x2, y1) + VSeg(y1, y2, x2)[1..]
    else VSeg(y1, y2, x1) + HSeg(x1, x2, y2)[1..]
  }

  /** A straight leg of a corridor whose cells are passable is a route. */
  lemma LegIsRoute(g: Grid, height: int, width: int, a: Room, b: Room, hFirst: bool, s: seq<Pos>, from: Pos, to: Pos)
    requires Shaped(g, height, width) && Inside(a, height, width) && Inside(b, height, width)
    requires forall y, x :: 0 <= y < height && 0 <= x < width && OnCorridor(a, b, hFirst, x, y) ==> Passable(g[y][x])
    requires |s| >= 1 && s[0] == from && s[|s| - 1] == to
    requires forall i :: 1 <= i < |s| ==> Step(s[i - 1], s[i])
    requires forall i :: 0 <= i < |s| ==> OnCorridor(a, b, hFirst, s[i].x, s[i].y)
    ensures IsRoute(g, height, width, s, from, to)
  {
    forall i | 0 <= i < |s|
      ensures InBounds(height, width, s[i].x, s[i].y) && Passable(g[s[i].y][s[i].x])
    {
      CorridorInterior(a, b, hFirst, height, width, s[i].x, s[i].y);
    }
    RunIsRoute(g, height, width, s, from, to);
  }

  /** Corridor cells that are passable make the corridor walk a route. */
  lemma CorridorIsRoute(g: Grid, height: int, width: int, a: Room, b: Room, hFirst: bool)
    requires Shaped(g, height, width) && Inside(a, height, width) && Inside(b, height, width)
    requires forall y, x :: 0 <= y < height && 0 <= x < width && OnCorridor(a, b, hFirst, x, y) ==> Passable(g[y][x])
    ensures IsRoute(g, height, width, CorridorWalk(a, b, hFirst), Mid(a), Mid(b))
  {
    var x1, y1, x2, y2 := MidX(a), MidY(a), MidX(b), MidY(b);
    if hFirst {
      var h, v, corner := HSeg(x1, x2, y1), VSeg(y1, y2, x2), Pos(x2, y1);
      LegIsRoute(g, height, width, a, b, hFirst, h, Mid(a), corner);
      LegIsRoute(g, height, width, a, b, hFirst, v, corner, Mid(b));
      RouteJoin(g, height, width, h, v, Mid(a), corner, Mid(b));
    } else {
      var v, h, corner := VSeg(y1, y2, x1), HSeg(x1, x2, y2), Pos(x1, y2);
      LegIsRoute(g, height, width, a, b, hFirst, v, Mid(a), corner);
      LegIsRoute(g, height, width, a, b, hFirst, h, corner, Mid(b));
      RouteJoin(g, height, width, v, h, Mid(a), corner, Mid(b));
    }
  }

  /** The walk from the first room through the corridors to room k. */
  function Tour(rooms: seq<Room>, coins: seq<bool>, k: nat): seq<Pos>
    requires k < |rooms| && |coins| + 1 >= |rooms|
  {
    if k == 0 then [Mid(rooms[0])]
    else Tour(rooms, coins, k - 1) + CorridorWalk(rooms[k - 1], rooms[k], coins[k - 1])[1..]
  }

  /** With every corridor passable, the tour is a route from the first room to room k. */
  lemma {:induction false} TourIsRoute(g: Grid, height: int, width: int, rooms: seq<Room>, coins: seq<bool>, k: nat)
    requires Shaped(g, height, width) && k < |rooms| && |coins| + 1 >= |rooms|
    requires forall i :: 0 <= i < |rooms| ==> Inside(rooms[i], height, width)
    requires forall j, y, x ::
      (0 <= j && j + 1 < |rooms| && 0 <= y < height && 0 <= x < width &&
       OnCorridor(rooms[j], rooms[j + 1], coins[j], x, y)) ==> Passable(g[y][x])
    ensures IsRoute(g, height, width, Tour(rooms, coins, k), Mid(rooms[0]), Mid(rooms[k]))
  {
    if k > 0 {
      TourIsRoute(g, height, width, rooms, coins, k - 1);
      LinkIsRoute(g, height, width, rooms, coins, k);
      var a, b, c := rooms[k - 1], rooms[k], coins[k - 1];
      var before, link := Tour(rooms, coins, k - 1), CorridorWalk(a, b, c);
      assert Tour(rooms, coins, k) == before + link[1..];
      RouteJoin(g, height, width, before, link, Mid(rooms[0]), Mid(a), Mid(b));
    }
  }

  /** The corridor from room k - 1 to room k is a route. */
  lemma LinkIsRoute(g: Grid, height: int, width: int, rooms: seq<Room>, coins: seq<bool>, k: nat)
    requires Shaped(g, height, width) && 0 < k < |rooms| && |coins| + 1 >= |rooms|
    requires forall i :: 0 <= i < |rooms| ==> Inside(rooms[i], height, width)
    requires forall j, y, x ::
      (0 <= j && j + 1 < |rooms| && 0 <= y < height && 0 <= x < width &&
       OnCorridor(rooms[j], rooms[j + 1], coins[j], x, y)) ==> Passable(g[y][x])
    ensures IsRoute(g, height, width, CorridorWalk(rooms[k - 1], rooms[k], coins[k - 1]), Mid(rooms[k - 1]), Mid(rooms[k]))
  {
    var a, b, c := rooms[k - 1], rooms[k], coins[k - 1];
    forall y, x | 0 <= y < height && 0 <= x < width && OnCorridor(a, b, c, x, y)
      ensures Passable(g[y][x])
    {
      assert OnCorridor(rooms[k - 1], rooms[k - 1 + 1], coins[k - 1], x, y);
    }
    CorridorIsRoute(g, height, width, a, b, c);
  }

  /** Every generated level can be walked from the up stairs (where the
      player starts) to the down stairs. */
  lemma StairsConnected(height: nat, width: nat, rolls: seq<RoomRoll>, coins: seq<bool>)
    requires height >= 1 && MaxRooms(height, width) >= 1
    requires LevelDrawn(height, width, rolls, coins)
    ensures var l := GenerateLevel(height, width, rolls, coins);
      IsRoute(l.grid, height, width, Tour(l.rooms, coins, |l.rooms| - 1), l.up, l.down)
    ensures var l := GenerateLevel(height, width, rolls, coins);
      Reachable(l.grid, height, width, l.up, l.down)
  {
    var l := GenerateLevel(height, width, rolls, coins);
    LevelLayout(height, width, rolls, coins);
    forall j, y, x |
      0 <= j && j + 1 < |l.rooms| && 0 <= y < height && 0 <= x < width &&
      OnCorridor(l.rooms[j], l.rooms[j + 1], coins[j], x, y)
      ensures Passable(l.grid[y][x])
    {
      WalkableIsPassable(l.grid[y][x]);
    }
    TourIsRoute(l.grid, height, width, l.rooms, coins, |l.rooms| - 1);
  }
}

=== FILE: levels.dfy ===
/**
 * Stair transitions of `Game` (classes/game.py): setting up a fresh level,
 * descending, ascending, escaping from the top level, and the `use_stairs`
 * command that chooses between them.
 */
module Levels {
  import opened Wrappers
  import opened Grids
  import opened Log
  import opened Entities
  import opened GameState
  import MapGen

  /** The random draws of one level: the generator's room rolls and corridor
      coins, then a stream of enemy draws and a stream of item draws
      (`enemies(i)` is the i-th enemy's, `items(i)` the i-th item's). */
  datatype LevelDraw = LevelDraw(
    rolls: seq<MapGen.RoomRoll>, coins: seq<bool>,
    enemies: nat -> SpawnDraw, items: nat -> ItemDraw)

  /** The first n draws of a stream. */
  function Take<T>(f: nat -> T, n: nat): (s: seq<T>)
    ensures |s| == n && forall i :: 0 <= i < n ==> s[i] == f(i)
  {
    if n == 0 then [] else Take(f, n - 1) + [f(n - 1)]
  }

  /** The level generator can run on a map of this size with these draws:
      the map admits at least one room, and every roll lies in its
      `randint` range. */
  predicate Buildable(height: int, width: int, d: LevelDraw) {
    && height >= 1 && width >= 0
    && MapGen.MaxRooms(height, width) >= 1
    && MapGen.LevelDrawn(height, width, d.rolls, d.coins)
  }

  /** The level `d` generates on a map of this size: its stairs lie in
      bounds, '>' on the down cell and a walkable cell on the up cell. */
  function Layout(height: int, width: int, d: LevelDraw): (l: MapGen.Level)
    requires Buildable(height, width, d)
    ensures Shaped(l.grid, height, width) && |l.rooms| >= 1
    ensures InBounds(height, width, l.up.x, l.up.y) && Walkable(l.grid[l.up.y][l.up.x])
    ensures InBounds(height, width, l.down.x, l.down.y) && l.grid[l.down.y][l.down.x] == StairsDown
  {
    MapGen.GenerateLevel(height, width, d.rolls, d.coins)
  }

  /** The game on a new level: map, rooms and stairs replaced, the player on
      the up cell, nobody else around. */
  function Enter(g: Game, l: MapGen.Level): (r: Game)
    requires Sane(g) && g.enemies == []
    requires Shaped(l.grid, g.height, g.width)
    requires InBounds(g.height, g.width, l.up.x, l.up.y) && Walkable(l.grid[l.up.y][l.up.x])
    ensures Sane(r)
    ensures At(r.player) == l.up && r.player == g.player.(x := l.up.x, y := l.up.y)
    ensures r == g.(grid := l.grid, rooms := l.rooms, up := l.up, down := l.down, player := r.player)
  {
    g.(grid := l.grid, rooms := l.rooms, up := l.up, down := l.down,
       player := g.player.(x := l.up.x, y := l.up.y))
  }

  /** A map cell that is plain floor. */
  predicate OpenFloor(grid: Grid, height: int, width: int, p: Pos)
    requires Shaped(grid, height, width)
  {
    InBounds(height, width, p.x, p.y) && grid[p.y][p.x] == Floor
  }

  /** Every spawn lands on its first cell draw: the enemies' first draws are
      distinct floor cells of the map, and each item's first draw is a floor
      cell none of those enemies took. */
  predicate FirstDrawsLand(grid: Grid, height: int, width: int, es: seq<SpawnDraw>, its: seq<ItemDraw>)
    requires Shaped(grid, height, width)
  {
    && (forall i :: 0 <= i < |es| ==> |es[i].cells| > 0 && OpenFloor(grid, height, width, es[i].cells[0]))
    && (forall i, j :: 0 <= i < j < |es| ==> es[i].cells[0] != es[j].cells[0])
    && (forall k :: 0 <= k < |its| ==>
          && |its[k].cells| > 0 && OpenFloor(grid, height, width, its[k].cells[0])
          && forall i :: 0 <= i < |es| ==> its[k].cells[0] != es[i].cells[0])
  }

  /** The spawns of a new level at this depth all land on their first draws. */
  predicate DrawsLand(height: int, width: int, depth: int, d: LevelDraw)
    requires Buildable(height, width, d)
  {
    var l := Layout(height, width, d);
    FirstDrawsLand(l.grid, height, width, Take(d.enemies, |l.rooms|), Take(d.items, ItemCount(depth)))
  }

  /** Items whose first draws are floor cells no enemy stands on are all placed. */
  lemma ItemsLand(s: Game, es: seq<SpawnDraw>, its: seq<ItemDraw>)
    requires Sane(s) && OnFirstDraws(es, s.enemies) && FirstDrawsLand(s.grid, s.height, s.width, es, its)
    ensures SpawnItems(s, its).Some?
  {
    forall k | 0 <= k < |its| ensures RandomFloor(s, its[k].cells).Some? {
      var c := its[k].cells[0];
      forall i | 0 <= i < |s.enemies| ensures At(s.enemies[i]) != c {
        assert At(s.enemies[i]) == es[i].cells[0];
      }
      assert FreeFloor(s, c);
    }
    SpawnItemsFail(s, its);
  }

  /** When the draws land, both spawning phases of a new level succeed. */
  lemma SpawnsLand(g: Game, d: LevelDraw)
    requires Sane(g) && g.enemies == [] && Buildable(g.height, g.width, d)
    ensures var placed := Enter(g, Layout(g.height, g.width, d));
      var es := Take(d.enemies, |placed.rooms|);
      DrawsLand(g.height, g.width, g.dungeonLevel, d) ==>
        && SpawnEnemies(placed, es).Some?
        && SpawnItems(SpawnEnemies(placed, es).value, Take(d.items, ItemCount(g.dungeonLevel))).Some?
  {
    var l := Layout(g.height, g.width, d);
    var placed := Enter(g, l);
    var es := Take(d.enemies, |l.rooms|);
    var its := Take(d.items, ItemCount(g.dungeonLevel));
    if DrawsLand(g.height, g.width, g.dungeonLevel, d) {
      assert FirstDrawsLand(l.grid, g.height, g.width, es, its);
      assert FirstDrawsFree(placed, es);
      SpawnEnemiesLand(placed, es);
      var spawned := SpawnEnemies(placed, es).value;
      assert spawned.enemies[|placed.enemies|..] == spawned.enemies;
      ItemsLand(spawned, es, its);
    }
  }

  /** `Game.generate_level` on an emptied roster: a new map, the player on its
      '<' (or on '>' when there is one room), one enemy per room built from
      its draw, and `max(1, (5 + depth) // 2)` items. None when a spawn's
      cell draws ran out; never when every spawn lands on its first draw. */
  function SetUpLevel(g: Game, d: LevelDraw): (r: Option<Game>)
    requires Sane(g) && g.enemies == [] && Buildable(g.height, g.width, d)
    ensures r.Some? ==> Sane(r.value)
    ensures r.Some? ==>
      var l := Layout(g.height, g.width, d);
      && r.value.grid == l.grid && r.value.rooms == l.rooms
      && r.value.up == l.up && r.value.down == l.down
      && At(r.value.player) == l.up
      && r.value.player == g.player.(x := l.up.x, y := l.up.y)
      && |r.value.enemies| == |l.rooms|
      && |r.value.items| == |g.items| + ItemCount(g.dungeonLevel)
    ensures r.Some? ==>
      r.value == g.(grid := r.value.grid, rooms := r.value.rooms, up := r.value.up, down := r.value.down,
                    player := r.value.player, enemies := r.value.enemies, items := r.value.items)
    ensures DrawsLand(g.height, g.width, g.dungeonLevel, d) ==> r.Some?
  {
    var l := Layout(g.height, g.width, d);
    var placed := Enter(g, l);
    var es := Take(d.enemies, |l.rooms|);
    SpawnsLand(g, d);
    match SpawnEnemies(placed, es)
    case None => None
    case Some(spawned) => SpawnItems(spawned, Take(d.items, ItemCount(g.dungeonLevel)))
  }

  /** Each enemy of a new level is built from its room's draw at this depth. */
  lemma SetUpBuilds(g: Game, d: LevelDraw)
    requires Sane(g) && g.enemies == [] && Buildable(g.height, g.width, d)
    ensures SetUpLevel(g, d).Some? ==>
      BuiltFrom(g.dungeonLevel, Take(d.enemies, |Layout(g.height, g.width, d).rooms|), SetUpLevel(g, d).value.enemies)
  {
    var l := Layout(g.height, g.width, d);
    var placed := Enter(g, l);
    var es := Take(d.enemies, |l.rooms|);
    SpawnEnemiesBuilt(placed, es);
    if SpawnEnemies(placed, es).Some? {
      var spawned := SpawnEnemies(placed, es).value;
      assert spawned.enemies[|placed.enemies|..] == spawned.enemies;
    }
  }

  /** `SetUpLevel`'s guarantee, for a game of the given size and depth. */
  lemma LandsOn(g: Game, d: LevelDraw, height: int, width: int, depth: int)
    requires Sane(g) && g.enemies == [] && Buildable(g.height, g.width, d)
    requires g.height == height && g.width == width && g.dungeonLevel == depth
    ensures DrawsLand(height, width, depth, d) ==> SetUpLevel(g, d).Some?
  {
  }

  /** The game emptied for another depth: the notice logged, the roster and
      the floor items cleared. */
  function Cleared(g: Game, depth: int, note: Msg): (r: Game)
    requires Sane(g) && depth >= 1
    ensures Sane(r) && r.enemies == [] && r.items == []
    ensures r.height == g.height && r.width == g.width && r.player == g.player
    ensures r.dungeonLevel == depth && r.messages == g.messages + [note]
    ensures r.turnCount == g.turnCount && r.lastSpawnTurn == g.lastSpawnTurn
  {
    g.(dungeonLevel := depth, messages := g.messages + [note], enemies := [], items := [])
  }

  /** The level below is set up whenever its spawns land on their first draws. */
  lemma DescentLands(g: Game, d: LevelDraw)
    requires Sane(g) && Buildable(g.height, g.width, d)
    ensures DrawsLand(g.height, g.width, g.dungeonLevel + 1, d) ==>
      SetUpLevel(Cleared(g, g.dungeonLevel + 1, Descend(g.dungeonLevel + 1)), d).Some?
  {
    LandsOn(Cleared(g, g.dungeonLevel + 1, Descend(g.dungeonLevel + 1)), d, g.height, g.width, g.dungeonLevel + 1);
  }

  /** `next_level` (the later definition): one level deeper, with a notice;
      the roster and the floor items are cleared and a new level is set up. */
  function NextLevel(g: Game, d: LevelDraw): (r: Option<Game>)
    requires Sane(g) && Buildable(g.height, g.width, d)
    ensures r.Some? ==> Sane(r.value)
    ensures r.Some? ==> r.value.dungeonLevel == g.dungeonLevel + 1
    ensures r.Some? ==> g.messages + [Descend(g.dungeonLevel + 1)] == r.value.messages
    ensures r.Some? ==> At(r.value.player) == r.value.up && r.value.player == g.player.(x := r.value.up.x, y := r.value.up.y)
    ensures r.Some? ==> r.value.grid == Layout(g.height, g.width, d).grid && |r.value.items| == ItemCount(r.value.dungeonLevel)
    ensures r.Some? ==> r.value.turnCount == g.turnCount && r.value.lastSpawnTurn == g.lastSpawnTurn
    ensures r.Some? ==> r.value.escaped == g.escaped && r.value.height == g.height && r.value.width == g.width
    ensures DrawsLand(g.height, g.width, g.dungeonLevel + 1, d) ==> r.Some?
  {
    DescentLands(g, d);
    SetUpLevel(Cleared(g, g.dungeonLevel + 1, Descend(g.dungeonLevel + 1)), d)
  }

  /** The player moved onto the level's '>'. */
  function OntoDownStairs(g: Game): (r: Game)
    requires Sane(g)
    requires InBounds(g.height, g.width, g.down.x, g.down.y) && g.grid[g.down.y][g.down.x] == StairsDown
    ensures Sane(r) && At(r.player) == g.down
    ensures r == g.(player := g.player.(x := g.down.x, y := g.down.y))
  {
    g.(player := g.player.(x := g.down.x, y := g.down.y))
  }

  /** `previous_level`: one level up, with a notice; a new level is set up and
      the player is put on its '>'. Only reached from depth 2 or more. */
  function PreviousLevel(g: Game, d: LevelDraw): (r: Option<Game>)
    requires Sane(g) && g.dungeonLevel > 1 && Buildable(g.height, g.width, d)
    ensures r.Some? ==> Sane(r.value)
    ensures r.Some? ==> r.value.dungeonLevel == g.dungeonLevel - 1
    ensures r.Some? ==> g.messages + [Ascend(g.dungeonLevel - 1)] == r.value.messages
    ensures r.Some? ==> At(r.value.player) == r.value.down && r.value.player == g.player.(x := r.value.down.x, y := r.value.down.y)
    ensures r.Some? ==> r.value.grid == Layout(g.height, g.width, d).grid && r.value.grid[r.value.down.y][r.value.down.x] == StairsDown
    ensures r.Some? ==> r.value.turnCount == g.turnCount && r.value.lastSpawnTurn == g.lastSpawnTurn
    ensures r.Some? ==> r.value.escaped == g.escaped && r.value.height == g.height && r.value.width == g.width
    ensures DrawsLand(g.height, g.width, g.dungeonLevel - 1, d) ==> r.Some?
  {
    var cleared := Cleared(g, g.dungeonLevel - 1, Ascend(g.dungeonLevel - 1));
    LandsOn(cleared, d, g.height, g.width, g.dungeonLevel - 1);
    match SetUpLevel(cleared, d)
    case None => None
    case Some(s) => Some(OntoDownStairs(s))
  }

  /** The announcement half of `exit_game`: the treasure total and the final
      prompt; the program would then end. */
  function Escape(g: Game): (r: Game)
    requires Sane(g)
    ensures Sane(r) && r.escaped
    ensures r.messages == g.messages + [EscapedWith(Score(g.player)), PressAnyKey]
    ensures r == g.(messages := r.messages, escaped := true)
  {
    g.(messages := g.messages + [EscapedWith(Score(g.player)), PressAnyKey], escaped := true)
  }

  datatype Direction = Down | Up

  /** The stair transition `use_stairs` would take, if any. */
  predicate TakesStairs(g: Game, dir: Direction) {
    (dir == Down && At(g.player) == g.down) || (dir == Up && At(g.player) == g.up && g.dungeonLevel > 1)
  }

  /** `use_stairs(direction)` (the later definition): down on '>' descends;
      up on '<' ascends, or escapes from the top level; anything else only
      says there are no stairs. */
  function UseStairs(g: Game, dir: Direction, d: LevelDraw): (r: Option<Game>)
    requires Sane(g)
    requires TakesStairs(g, dir) ==> Buildable(g.height, g.width, d)
    ensures r.Some? ==> Sane(r.value)
    ensures dir == Down && At(g.player) == g.down ==> r == NextLevel(g, d)
    ensures dir == Up && At(g.player) == g.up && g.dungeonLevel > 1 ==> r == PreviousLevel(g, d)
    ensures dir == Up && At(g.player) == g.up && g.dungeonLevel <= 1 ==> r == Some(Escape(g))
    ensures !(dir == Down && At(g.player) == g.down) && !(dir == Up && At(g.player) == g.up) ==>
      r == Some(g.(messages := g.messages + [NoStairs]))
    ensures r.Some? && r.value.escaped && !g.escaped ==> dir == Up && g.dungeonLevel <= 1
  {
    if dir == Down && At(g.player) == g.down then NextLevel(g, d)
    else if dir == Up && At(g.player) == g.up then
      if g.dungeonLevel > 1 then PreviousLevel(g, d) else Some(Escape(g))
    else Some(g.(messages := g.messages + [NoStairs]))
  }

  /** Standing on the '<' of a level below the top, `use_stairs('up')`
      ascends: one level up, with the player on the new level's '>'. */
  lemma ClimbFromArrival(g: Game, d: LevelDraw)
    requires Sane(g) && g.dungeonLevel > 1 && At(g.player) == g.up
    requires Buildable(g.height, g.width, d)
    ensures TakesStairs(g, Up) && UseStairs(g, Up, d) == PreviousLevel(g, d)
    ensures UseStairs(g, Up, d).Some? ==>
      UseStairs(g, Up, d).value.dungeonLevel == g.dungeonLevel - 1 &&
      At(UseStairs(g, Up, d).value.player) == UseStairs(g, Up, d).value.down
  {
  }

  /** Going down and straight back up: after a descent the player stands on
      the new level's '<', so `use_stairs('up')` ascends at once, restoring
      the depth and landing the player on the next level's '>'. */
  lemma DownThenUp(g: Game, d1: LevelDraw, d2: LevelDraw)
    requires Sane(g) && Buildable(g.height, g.width, d1) && Buildable(g.height, g.width, d2)
    ensures NextLevel(g, d1).Some? ==>
      var below := NextLevel(g, d1).value;
      && TakesStairs(below, Up)
      && UseStairs(below, Up, d2) == PreviousLevel(below, d2)
      && (UseStairs(below, Up, d2).Some? ==>
            UseStairs(below, Up, d2).value.dungeonLevel == g.dungeonLevel &&
            At(UseStairs(below, Up, d2).value.player) == UseStairs(below, Up, d2).value.down)
  {
    var next := NextLevel(g, d1);
    if next.Some? {
      ClimbFromArrival(next.value, d2);
    }
  }
}

=== FILE: log.dfy ===
/**
 * The message log. Messages are event tags carrying the names and amounts the
 * source interpolates into its text; each tag stands for one text shape, and
 * where two replies differ only in punctuation the tag records which one it is.
 */
module Log {

  datatype Msg =
    | Hits(attacker: string, defender: string, damage: int)
    | Misses(attacker: string, defender: string)
    | IsDefeated(who: string)
    | YouDefeated(who: string)
    | DroppedLoot(who: string, item: string)
    | GameOver
    | FeelBetter(amount: int)
    | FloorNotice(item: string)
    | Descend(depth: int)
    | Ascend(depth: int)
    | NoStairs
    | EscapedWith(score: int)
    | PressAnyKey
    | EquippedIn(item: string, slot: string, fullStop: bool)  // `equip_item`'s reply ends in '.', `equip`'s does not
    | CannotEquip(item: string, slot: string)
    | NoSuitableSlot(item: string)
    | UnequippedFrom(slot: string)
    | NothingToUnequip
    | Used(item: string, reply: Msg)  // followed by the effect's own reply
    | Healed(amount: int)
    | RestoredMana(amount: int)
    | NoReply  // an effect that returns nothing, shown as `None`
    | DoNotHave(item: string)
    | InvalidItem
    | InvalidItemKey
    | NotEquippable(item: string)
    | DroppedItem(item: string)

  /** Appends `m` unless an identical message is already in the log. */
  function AppendOnce(log: seq<Msg>, m: Msg): (r: seq<Msg>)
    ensures m in r
    ensures m in log ==> r == log
    ensures m !in log ==> r == log + [m]
    ensures forall x :: x in r ==> x in log || x == m
  {
    if m in log then log else log + [m]
  }
}

=== FILE: map_generator.dfy ===
/**
 * The level generator (classes/map_generator.py): clamps the map size,
 * places non-overlapping rooms, joins consecutive rooms by L-shaped
 * corridors, walls off the bottom row and puts the stairs in the first and
 * last rooms. Random draws are parameters.
 */
module MapGen {
  import opened Wrappers
  import opened Grids

  datatype Dims = Dims(height: int, width: int)

  /** `MapGenerator.__init__`: at least 10 x 20, at most the screen less 5 each way. */
  function Clamp(height: int, width: int, screenHeight: int, screenWidth: int): (d: Dims)
    ensures d.height <= screenHeight - 5 && d.width <= screenWidth - 5
    ensures screenHeight >= 15 ==> d.height >= 10
    ensures screenWidth >= 25 ==> d.width >= 20
    ensures 10 <= height <= screenHeight - 5 ==> d.height == height
    ensures 20 <= width <= screenWidth - 5 ==> d.width == width
    ensures height < 10 ==> d.height == Min(10, screenHeight - 5)
    ensures height > screenHeight - 5 ==> d.height == screenHeight - 5
    ensures width < 20 ==> d.width == Min(20, screenWidth - 5)
    ensures width > screenWidth - 5 ==> d.width == screenWidth - 5
  {
    Dims(Min(Max(10, height), screenHeight - 5), Min(Max(20, width), screenWidth - 5))
  }

  /** Clamping an already clamped size changes nothing. */
  lemma ClampIdempotent(height: int, width: int, screenHeight: int, screenWidth: int)
    ensures var d := Clamp(height, width, screenHeight, screenWidth);
      Clamp(d.height, d.width, screenHeight, screenWidth) == d
  {
  }

  /** How many placement attempts the generator makes. */
  function MaxRooms(height: int, width: int): int {
    Min(10, (height * width) / 100)
  }

  /** Number of iterations of `for _ in range(max_rooms)`. */
  function Attempts(height: int, width: int): nat {
    if MaxRooms(height, width) > 0 then MaxRooms(height, width) else 0
  }

  /** A rectangle: origin (x, y), width w, height h. */
  datatype Room = Room(x: int, y: int, w: int, h: int)

  /** The four random draws of one placement attempt: the raw height and
      width draws and the origin. */
  datatype RoomRoll = RoomRoll(h: int, w: int, x: int, y: int)

  function RollHeight(r: RoomRoll): int { Max(3, Min(5, r.h)) }

  function RollWidth(r: RoomRoll): int { Max(5, Min(7, r.w)) }

  /** The room-size draws `randint(3, height // 3)` and `randint(5, width // 3)`. */
  predicate SizeDrawn(height: int, width: int, r: RoomRoll) {
    3 <= r.h <= height / 3 && 5 <= r.w <= width / 3
  }

  /** There is space for a room of the drawn size. */
  predicate Fits(height: int, width: int, r: RoomRoll) {
    !(height - RollHeight(r) - 1 <= 1 || width - RollWidth(r) - 1 <= 1)
  }

  /** The origin draws, which happen only when the room fits. */
  predicate OriginDrawn(height: int, width: int, r: RoomRoll) {
    Fits(height, width, r) ==>
      1 <= r.x <= width - RollWidth(r) - 1 && 1 <= r.y <= height - RollHeight(r) - 1
  }

  /** `rooms_overlap`: strict axis-aligned rectangle intersection. */
  predicate Overlap(a: Room, b: Room) {
    a.x < b.x + b.w && a.x + a.w > b.x && a.y < b.y + b.h && a.y + a.h > b.y
  }

  predicate OverlapsAny(c: Room, rooms: seq<Room>) {
    exists i :: 0 <= i < |rooms| && Overlap(c, rooms[i])
  }

  predicate InRoom(r: Room, x: int, y: int) {
    r.x <= x < r.x + r.w && r.y <= y < r.y + r.h
  }

  function MidX(r: Room): int { r.x + r.w / 2 }

  function MidY(r: Room): int { r.y + r.h / 2 }

  /** A room of legal size that leaves the outer ring of the map untouched. */
  predicate Inside(r: Room, height: int, width: int) {
    && 3 <= r.h <= 5 && 5 <= r.w <= 7
    && r.x >= 1 && r.x + r.w <= width - 1
    && r.y >= 1 && r.y + r.h <= height - 1
  }

  predicate Disjoint(rooms: seq<Room>) {
    forall i, j :: 0 <= i < j < |rooms| ==> !Overlap(rooms[i], rooms[j])
  }

  /** Two rooms share a cell exactly when they overlap. */
  lemma SharedCellIsOverlap(a: Room, b: Room, x: int, y: int)
    requires InRoom(a, x, y) && InRoom(b, x, y)
    ensures Overlap(a, b) && Overlap(b, a)
  {
  }

  lemma MidInRoom(r: Room)
    requires r.w >= 1 && r.h >= 1
    ensures InRoom(r, MidX(r), MidY(r))
  {
  }

  // ---------------------------------------------------------------------
  // Grid invariants of a level under construction

  /** Only walls and floor. */
  predicate Plain(g: Grid, height: int, width: int)
    requires Shaped(g, height, width)
  {
    forall y, x :: 0 <= y < height && 0 <= x < width ==> g[y][x] == Wall || g[y][x] == Floor
  }

  /** Top row, left column and right column are walls. */
  predicate Framed(g: Grid, height: int, width: int)
    requires Shaped(g, height, width)
  {
    forall y, x :: 0 <= y < height && 0 <= x < width && (y == 0 || x == 0 || x == width - 1) ==> g[y][x] == Wall
  }

  /** Every cell of every room is floor. */
  predicate RoomsCarved(g: Grid, height: int, width: int, rooms: seq<Room>)
    requires Shaped(g, height, width)
  {
    forall i, y, x :: 0 <= i < |rooms| && 0 <= y < height && 0 <= x < width && InRoom(rooms[i], x, y) ==> g[y][x] == Floor
  }

  /** Floor stays floor from `g` to `g'`. */
  predicate Grows(g: Grid, g': Grid, height: int, width: int)
    requires Shaped(g, height, width) && Shaped(g', height, width)
  {
    forall y, x :: 0 <= y < height && 0 <= x < width && g[y][x] == Floor ==> g'[y][x] == Floor
  }

  /** The state the room-placement loop keeps. */
  predicate Good(g: Grid, height: int, width: int, rooms: seq<Room>) {
    && Shaped(g, height, width)
    && Plain(g, height, width)
    && Framed(g, height, width)
    && RoomsCarved(g, height, width, rooms)
    && (forall i :: 0 <= i < |rooms| ==> Inside(rooms[i], height, width))
    && Disjoint(rooms)
  }

  // ---------------------------------------------------------------------
  // Carving

  /** `create_room`: every cell of the rectangle becomes floor. */
  function CarveRoom(g: Grid, height: int, width: int, r: Room): (g': Grid)
    requires Shaped(g, height, width) && Inside(r, height, width)
    ensures Shaped(g', height, width)
    ensures forall y, x :: 0 <= y < height && 0 <= x < width ==>
      g'[y][x] == (if InRoom(r, x, y) then Floor else g[y][x])
  {
    seq(height, y requires 0 <= y < height =>
      seq(width, x requires 0 <= x < width => if InRoom(r, x, y) then Floor else g[y][x]))
  }

  /** `lo <= v <= hi` for the two ends given in either order. */
  predicate Between(v: int, a: int, b: int) {
    Min(a, b) <= v <= Max(a, b)
  }

  /** Both ends of a tunnel lie strictly inside the outer ring. */
  predicate Interior(height: int, width: int, x: int, y: int) {
    1 <= x <= width - 2 && 1 <= y <= height - 2
  }

  /** `create_h_tunnel(x1, x2, y)`: row y from x1 to x2 inclusive becomes floor. */
  function HTunnel(g: Grid, height: int, width: int, x1: int, x2: int, y: int): (g': Grid)
    requires Shaped(g, height, width) && Interior(height, width, x1, y) && Interior(height, width, x2, y)
    ensures Shaped(g', height, width)
    ensures forall y', x :: 0 <= y' < height && 0 <= x < width ==>
      g'[y'][x] == (if y' == y && Between(x, x1, x2) then Floor else g[y'][x])
  {
    seq(height, y' requires 0 <= y' < height =>
      seq(width, x requires 0 <= x < width => if y' == y && Between(x, x1, x2) then Floor else g[y'][x]))
  }

  /** `create_v_tunnel(y1, y2, x)`: column x from y1 to y2 inclusive becomes floor. */
  function VTunnel(g: Grid, height: int, width: int, y1: int, y2: int, x: int): (g': Grid)
    requires Shaped(g, height, width) && Interior(height, width, x, y1) && Interior(height, width, x, y2)
    ensures Shaped(g', height, width)
    ensures forall y, x' :: 0 <= y < height && 0 <= x' < width ==>
      g'[y][x'] == (if x' == x && Between(y, y1, y2) then Floor else g[y][x'])
  {
    seq(height, y requires 0 <= y < height =>
      seq(width, x' requires 0 <= x' < width => if x' == x && Between(y, y1, y2) then Floor else g[y][x']))
  }

  /** The cells of the L-shaped corridor between the midpoints of `a` and
      `b`: horizontal first when `hFirst`, vertical first otherwise. */
  predicate OnCorridor(a: Room, b: Room, hFirst: bool, x: int, y: int) {
    var x1, y1, x2, y2 := MidX(a), MidY(a), MidX(b), MidY(b);
    if hFirst then (y == y1 && Between(x, x1, x2)) || (x == x2 && Between(y, y1, y2))
    else (x == x1 && Between(y, y1, y2)) || (y == y2 && Between(x, x1, x2))
  }

  /** `create_corridor(room1, room2)`; `hFirst` is the coin `random.random() < 0.5`. */
  function Corridor(g: Grid, height: int, width: int, a: Room, b: Room, hFirst: bool): (g': Grid)
    requires Shaped(g, height, width) && Inside(a, height, width) && Inside(b, height, width)
    ensures Shaped(g', height, width)
    ensures forall y, x :: 0 <= y < height && 0 <= x < width ==>
      g'[y][x] == (if OnCorridor(a, b, hFirst, x, y) then Floor else g[y][x])
  {
    var x1, y1, x2, y2 := MidX(a), MidY(a), MidX(b), MidY(b);
    if hFirst then
      VTunnel(HTunnel(g, height, width, x1, x2, y1), height, width, y1, y2, x2)
    else
      HTunnel(VTunnel(g, height, width, y1, y2, x1), height, width, x1, x2, y2)
  }

  /** Corridor cells lie strictly inside the outer ring. */
  lemma CorridorInterior(a: Room, b: Room, hFirst: bool, height: int, width: int, x: int, y: int)
    requires Inside(a, height, width) && Inside(b, height, width) && OnCorridor(a, b, hFirst, x, y)
    ensures Interior(height, width, x, y)
  {
  }

  // ---------------------------------------------------------------------
  // Room placement

  datatype Placement = Placement(grid: Grid, rooms: seq<Room>)

  /** The room an attempt proposes: the drawn origin and the clamped size. */
  function Candidate(roll: RoomRoll): Room {
    Room(roll.x, roll.y, RollWidth(roll), RollHeight(roll))
  }

  /** Some room of `rooms`, from index `from` on, covers (x, y). */
  predicate InRooms(rooms: seq<Room>, from: nat, x: int, y: int) {
    exists i :: from <= i < |rooms| && InRoom(rooms[i], x, y)
  }

  /** Some corridor between consecutive rooms, from room `from` on, passes (x, y). */
  predicate OnCorridors(rooms: seq<Room>, coins: seq<bool>, from: nat, x: int, y: int)
    requires |coins| + 1 >= |rooms|
    decreases |rooms| - from
  {
    && from + 1 < |rooms|
    && (OnCorridor(rooms[from], rooms[from + 1], coins[from], x, y) || OnCorridors(rooms, coins, from + 1, x, y))
  }

  /** The placement loop: each attempt with room to spare becomes a room
      unless it overlaps one already placed. */
  function PlaceRooms(height: int, width: int, g: Grid, rooms: seq<Room>, rolls: seq<RoomRoll>): (p: Placement)
    requires Good(g, height, width, rooms)
    requires forall i :: 0 <= i < |rolls| ==> OriginDrawn(height, width, rolls[i])
    ensures Good(p.grid, height, width, p.rooms)
    ensures Grows(g, p.grid, height, width)
    ensures |rooms| <= |p.rooms| <= |rooms| + |rolls| && p.rooms[..|rooms|] == rooms
    ensures |rolls| == 0 ==> p == Placement(g, rooms)
    ensures |rolls| > 0 && Fits(height, width, rolls[0]) && !OverlapsAny(Candidate(rolls[0]), rooms) ==>
      && |p.rooms| > |rooms| && p.rooms[|rooms|] == Candidate(rolls[0])
      && Inside(Candidate(rolls[0]), height, width)
      && p == PlaceRooms(height, width, CarveRoom(g, height, width, Candidate(rolls[0])),
                         rooms + [Candidate(rolls[0])], rolls[1..])
    ensures |rolls| > 0 && !(Fits(height, width, rolls[0]) && !OverlapsAny(Candidate(rolls[0]), rooms)) ==>
      p == PlaceRooms(height, width, g, rooms, rolls[1..])
    decreases |rolls|
  {
    if |rolls| == 0 then Placement(g, rooms)
    else
      var roll := rolls[0];
      assert OriginDrawn(height, width, roll);
      if !Fits(height, width, roll) then PlaceRooms(height, width, g, rooms, rolls[1..])
      else
        var c := Candidate(roll);
        if OverlapsAny(c, rooms) then PlaceRooms(height, width, g, rooms, rolls[1..])
        else
          var g' := CarveRoom(g, height, width, c);
          var p := PlaceRooms(height, width, g', rooms + [c], rolls[1..]);
          assert (rooms + [c])[..|rooms|] == rooms;
          assert p.rooms[|rooms|] == p.rooms[..|rooms| + 1][|rooms|];
          p
  }

  /** Placement carves exactly the cells of the rooms it adds. */
  lemma {:induction false} PlaceRoomsCells(height: int, width: int, g: Grid, rooms: seq<Room>, rolls: seq<RoomRoll>)
    requires Good(g, height, width, rooms)
    requires forall i :: 0 <= i < |rolls| ==> OriginDrawn(height, width, rolls[i])
    ensures var p := PlaceRooms(height, width, g, rooms, rolls);
      forall y, x :: 0 <= y < height && 0 <= x < width ==>
        p.grid[y][x] == (if InRooms(p.rooms, |rooms|, x, y) then Floor else g[y][x])
    decreases |rolls|
  {
    var p := PlaceRooms(height, width, g, rooms, rolls);
    if |rolls| > 0 {
      var roll, rest := rolls[0], rolls[1..];
      assert OriginDrawn(height, width, roll);
      var c := Candidate(roll);
      if !(Fits(height, width, roll) && !OverlapsAny(c, rooms)) {
        assert p == PlaceRooms(height, width, g, rooms, rest);
        PlaceRoomsCells(height, width, g, rooms, rest);
      } else {
        var g' := CarveRoom(g, height, width, c);
        assert p == PlaceRooms(height, width, g', rooms + [c], rest);
        assert p.rooms[|rooms|] == c;
        PlaceRoomsCells(height, width, g', rooms + [c], rest);
        forall y, x | 0 <= y < height && 0 <= x < width
          ensures p.grid[y][x] == (if InRooms(p.rooms, |rooms|, x, y) then Floor else g[y][x])
        {
          NewRoomCell(p.rooms, |rooms|, x, y);
        }
      }
    }
  }

  /** The rooms from index `from` on cover a cell when the first of them or one of the rest does. */
  lemma NewRoomCell(rooms: seq<Room>, from: nat, x: int, y: int)
    requires from < |rooms|
    ensures InRooms(rooms, from, x, y) <==> InRoom(rooms[from], x, y) || InRooms(rooms, from + 1, x, y)
  {
    if InRooms(rooms, from, x, y) && !InRoom(rooms[from], x, y) {
      var i :| from <= i < |rooms| && InRoom(rooms[i], x, y);
      assert i > from;
    }
  }

  /** With room to spare, the first attempt always yields a room. */
  lemma FirstRoomPlaced(height: int, width: int, g: Grid, rolls: seq<RoomRoll>)
    requires Good(g, height, width, [])
    requires forall i :: 0 <= i < |rolls| ==> OriginDrawn(height, width, rolls[i])
    requires |rolls| >= 1 && Fits(height, width, rolls[0])
    ensures |PlaceRooms(height, width, g, [], rolls).rooms| >= 1
  {
    var roll := rolls[0];
    var c := Room(roll.x, roll.y, RollWidth(roll), RollHeight(roll));
    assert !OverlapsAny(c, []);
    var g' := CarveRoom(g, height, width, c);
    assert Good(g', height, width, [c]);
  }

  /** A drawn room size always fits: the draws need height >= 9 and width >= 15. */
  lemma DrawnSizeFits(height: int, width: int, r: RoomRoll)
    requires SizeDrawn(height, width, r)
    ensures Fits(height, width, r)
  {
  }

  /** Connect rooms i, i+1, ... in order. */
  function Connect(g: Grid, height: int, width: int, rooms: seq<Room>, coins: seq<bool>, i: nat): (g': Grid)
    requires Shaped(g, height, width) && Plain(g, height, width) && Framed(g, height, width)
    requires forall k :: 0 <= k < |rooms| ==> Inside(rooms[k], height, width)
    requires |coins| + 1 >= |rooms|
    ensures Shaped(g', height, width) && Plain(g', height, width) && Framed(g', height, width)
    ensures Grows(g, g', height, width)
    ensures forall k, y, x ::
      (i <= k && k + 1 < |rooms| && 0 <= y < height && 0 <= x < width &&
       OnCorridor(rooms[k], rooms[k + 1], coins[k], x, y)) ==> g'[y][x] == Floor
    decreases |rooms| - i
  {
    if i + 1 >= |rooms| then g
    else
      var c := Corridor(g, height, width, rooms[i], rooms[i + 1], coins[i]);
      CorridorKeepsFrame(g, height, width, rooms[i], rooms[i + 1], coins[i]);
      Connect(c, height, width, rooms, coins, i + 1)
  }

  /** A corridor never reaches the frame. */
  lemma CorridorKeepsFrame(g: Grid, height: int, width: int, a: Room, b: Room, hFirst: bool)
    requires Shaped(g, height, width) && Framed(g, height, width)
    requires Inside(a, height, width) && Inside(b, height, width)
    ensures Framed(Corridor(g, height, width, a, b, hFirst), height, width)
  {
    var c := Corridor(g, height, width, a, b, hFirst);
    forall y, x | 0 <= y < height && 0 <= x < width && (y == 0 || x == 0 || x == width - 1)
      ensures c[y][x] == Wall
    {
      if OnCorridor(a, b, hFirst, x, y) {
        CorridorInterior(a, b, hFirst, height, width, x, y);
      }
    }
  }

  /** Connecting carves exactly the corridor cells. */
  lemma {:induction false} ConnectCells(g: Grid, height: int, width: int, rooms: seq<Room>, coins: seq<bool>, i: nat)
    requires Shaped(g, height, width) && Plain(g, height, width) && Framed(g, height, width)
    requires forall k :: 0 <= k < |rooms| ==> Inside(rooms[k], height, width)
    requires |coins| + 1 >= |rooms|
    ensures var g' := Connect(g, height, width, rooms, coins, i);
      forall y, x :: 0 <= y < height && 0 <= x < width ==>
        g'[y][x] == (if OnCorridors(rooms, coins, i, x, y) then Floor else g[y][x])
    decreases |rooms| - i
  {
    var g' := Connect(g, height, width, rooms, coins, i);
    if i + 1 < |rooms| {
      CorridorKeepsFrame(g, height, width, rooms[i], rooms[i + 1], coins[i]);
      var c := Corridor(g, height, width, rooms[i], rooms[i + 1], coins[i]);
      assert g' == Connect(c, height, width, rooms, coins, i + 1);
      ConnectCells(c, height, width, rooms, coins, i + 1);
    }
  }

  /** Every corridor between consecutive rooms is floor. */
  predicate CorridorsCarved(g: Grid, height: int, width: int, rooms: seq<Room>, coins: seq<bool>)
    requires Shaped(g, height, width) && |coins| + 1 >= |rooms|
  {
    forall k, y, x ::
      (0 <= k && k + 1 < |rooms| && 0 <= y < height && 0 <= x < width &&
       OnCorridor(rooms[k], rooms[k + 1], coins[k], x, y)) ==> g[y][x] == Floor
  }

  /** The bottom row is wall. */
  predicate Bottomed(g: Grid, height: int, width: int)
    requires Shaped(g, height, width)
  {
    forall y, x :: 0 <= y < height && 0 <= x < width && y == height - 1 ==> g[y][x] == Wall
  }

  /** `_generate_map_and_rooms`: start from solid wall, place rooms, connect them. */
  function GenerateMapAndRooms(height: nat, width: nat, rolls: seq<RoomRoll>, coins: seq<bool>): (p: Placement)
    requires forall i :: 0 <= i < |rolls| ==> OriginDrawn(height, width, rolls[i])
    requires |coins| >= |rolls|
    ensures Good(p.grid, height, width, p.rooms) && |p.rooms| <= |rolls|
    ensures p.rooms == PlaceRooms(height, width, Fill(height, width, Wall), [], rolls).rooms
    ensures CorridorsCarved(p.grid, height, width, p.rooms, coins)
    ensures forall y, x :: 0 <= y < height && 0 <= x < width ==>
      (p.grid[y][x] == Floor <==> InRooms(p.rooms, 0, x, y) || OnCorridors(p.rooms, coins, 0, x, y))
  {
    var start := Fill(height, width, Wall);
    var placed := PlaceRooms(height, width, start, [], rolls);
    PlaceRoomsCells(height, width, start, [], rolls);
    ConnectCells(placed.grid, height, width, placed.rooms, coins, 0);
    Placement(Connect(placed.grid, height, width, placed.rooms, coins, 0), placed.rooms)
  }

  /** The bottom row turned to wall. */
  function WallBottom(g: Grid, height: int, width: int): (g': Grid)
    requires Shaped(g, height, width) && height >= 1 && width >= 0
    ensures Shaped(g', height, width)
    ensures forall y, x :: 0 <= y < height && 0 <= x < width ==>
      g'[y][x] == (if y == height - 1 then Wall else g[y][x])
  {
    g[height - 1 := seq(width, _ => Wall)]
  }

  /** `generate`: the carved map with its bottom row forced to wall. */
  function Generate(height: nat, width: nat, rolls: seq<RoomRoll>, coins: seq<bool>): (p: Placement)
    requires height >= 1
    requires forall i :: 0 <= i < |rolls| ==> OriginDrawn(height, width, rolls[i])
    requires |coins| >= |rolls|
    ensures p.rooms == GenerateMapAndRooms(height, width, rolls, coins).rooms && |p.rooms| <= |rolls|
    ensures Good(p.grid, height, width, p.rooms) && Bottomed(p.grid, height, width)
    ensures CorridorsCarved(p.grid, height, width, p.rooms, coins)
    ensures forall y, x :: 0 <= y < height - 1 && 0 <= x < width ==>
      (p.grid[y][x] == Floor <==> InRooms(p.rooms, 0, x, y) || OnCorridors(p.rooms, coins, 0, x, y))
  {
    var m := GenerateMapAndRooms(height, width, rolls, coins);
    Placement(WallBottom(m.grid, height, width), m.rooms)
  }

  /** In a disjoint list of two or more rooms, the first and last midpoints differ. */
  lemma DistinctEnds(rooms: seq<Room>, height: int, width: int)
    requires |rooms| >= 1 && Disjoint(rooms)
    requires forall i :: 0 <= i < |rooms| ==> Inside(rooms[i], height, width)
    ensures |rooms| >= 2 ==>
      Pos(MidX(rooms[0]), MidY(rooms[0])) != Pos(MidX(rooms[|rooms| - 1]), MidY(rooms[|rooms| - 1]))
  {
    if |rooms| >= 2 {
      var first, last := rooms[0], rooms[|rooms| - 1];
      MidInRoom(first);
      assert !Overlap(first, last);
      if MidX(first) == MidX(last) && MidY(first) == MidY(last) {
        MidInRoom(last);
        SharedCellIsOverlap(first, last, MidX(first), MidY(first));
      }
    }
  }

  /** A generated level: grid, rooms, and the up and down stair cells. */
  datatype Level = Level(grid: Grid, rooms: seq<Room>, up: Pos, down: Pos)

  /** The random draws of one level: one roll per attempt, and one coin per corridor. */
  predicate LevelDrawn(height: int, width: int, rolls: seq<RoomRoll>, coins: seq<bool>) {
    && |rolls| == Attempts(height, width)
    && (forall i :: 0 <= i < |rolls| ==> SizeDrawn(height, width, rolls[i]) && OriginDrawn(height, width, rolls[i]))
    && |coins| >= |rolls|
  }

  /** '<' written at `up`, then '>' at `down` (which wins when they coincide). */
  function PlaceStairs(g: Grid, height: int, width: int, up: Pos, down: Pos): (g': Grid)
    requires Shaped(g, height, width)
    requires InBounds(height, width, up.x, up.y) && InBounds(height, width, down.x, down.y)
    ensures Shaped(g', height, width)
    ensures g'[down.y][down.x] == StairsDown
    ensures g'[up.y][up.x] == (if up == down then StairsDown else StairsUp)
    ensures forall y, x :: 0 <= y < height && 0 <= x < width && Pos(x, y) != up && Pos(x, y) != down ==>
      g'[y][x] == g[y][x]
  {
    var g1 := g[up.y := g[up.y][up.x := StairsUp]];
    g1[down.y := g1[down.y][down.x := StairsDown]]
  }

  /** `generate_level`: generate, then '<' at the first room's midpoint and
      '>' at the last room's (overwriting '<' when there is one room). The
      player is put on `up`. `rooms[0]` needs at least one attempt. */
  function GenerateLevel(height: nat, width: nat, rolls: seq<RoomRoll>, coins: seq<bool>): (l: Level)
    requires height >= 1 && MaxRooms(height, width) >= 1
    requires LevelDrawn(height, width, rolls, coins)
    ensures Shaped(l.grid, height, width)
    ensures l.rooms == Generate(height, width, rolls, coins).rooms && |l.rooms| >= 1
    ensures l.up == Pos(MidX(l.rooms[0]), MidY(l.rooms[0]))
    ensures l.down == Pos(MidX(l.rooms[|l.rooms| - 1]), MidY(l.rooms[|l.rooms| - 1]))
    ensures InBounds(height, width, l.up.x, l.up.y) && InBounds(height, width, l.down.x, l.down.y)
    ensures l.grid[l.down.y][l.down.x] == StairsDown
    ensures l.grid[l.up.y][l.up.x] == (if |l.rooms| == 1 then StairsDown else StairsUp)
    ensures forall y, x :: 0 <= y < height && 0 <= x < width && Pos(x, y) != l.up && Pos(x, y) != l.down ==>
      l.grid[y][x] == Generate(height, width, rolls, coins).grid[y][x]
  {
    var gen := Generate(height, width, rolls, coins);
    var m := GenerateMapAndRooms(height, width, rolls, coins);
    DrawnSizeFits(height, width, rolls[0]);
    FirstRoomPlaced(height, width, Fill(height, width, Wall), rolls);
    var rooms := gen.rooms;
    var g := WallBottom(gen.grid, height, width);
    var first := rooms[0];
    var last := rooms[|rooms| - 1];
    assert Inside(first, height, width) && Inside(last, height, width);
    var up := Pos(MidX(first), MidY(first));
    var down := Pos(MidX(last), MidY(last));
    assert Good(m.grid, height, width, rooms);
    DistinctEnds(rooms, height, width);
    Level(PlaceStairs(g, height, width, up, down), rooms, up, down)
  }

  /** What a generated level looks like: a wall ring, at most ten disjoint
      rooms of legal size, rooms and corridors walkable, and exactly one
      '>' and (with two or more rooms) exactly one '<'. */
  lemma LevelLayout(height: nat, width: nat, rolls: seq<RoomRoll>, coins: seq<bool>)
    requires height >= 1 && MaxRooms(height, width) >= 1
    requires LevelDrawn(height, width, rolls, coins)
    ensures var l := GenerateLevel(height, width, rolls, coins);
      && 1 <= |l.rooms| <= MaxRooms(height, width) <= 10
      && (forall i :: 0 <= i < |l.rooms| ==> Inside(l.rooms[i], height, width))
      && Disjoint(l.rooms)
      && (forall y, x :: 0 <= y < height && 0 <= x < width && (y == 0 || y == height - 1 || x == 0 || x == width - 1) ==>
            l.grid[y][x] == Wall)
      && (forall y, x :: 0 <= y < height && 0 <= x < width ==>
            (l.grid[y][x] == StairsDown <==> Pos(x, y) == l.down))
      && (forall y, x :: 0 <= y < height && 0 <= x < width ==>
            (l.grid[y][x] == StairsUp <==> Pos(x, y) == l.up && |l.rooms| >= 2))
      && (forall y, x :: 0 <= y < height && 0 <= x < width ==>
            l.grid[y][x] in {Wall, Floor, StairsUp, StairsDown})
      && (forall i, y, x :: 0 <= i < |l.rooms| && 0 <= y < height && 0 <= x < width && InRoom(l.rooms[i], x, y) ==>
            Walkable(l.grid[y][x]))
      && (forall k, y, x ::
            (0 <= k && k + 1 < |l.rooms| && 0 <= y < height && 0 <= x < width &&
             OnCorridor(l.rooms[k], l.rooms[k + 1], coins[k], x, y)) ==> Walkable(l.grid[y][x]))
  {
    var l := GenerateLevel(height, width, rolls, coins);
    var gen := Generate(height, width, rolls, coins);
    assert Good(gen.grid, height, width, gen.rooms);
    var first, last := l.rooms[0], l.rooms[|l.rooms| - 1];
    assert Inside(first, height, width) && Inside(last, height, width);
    MidInRoom(first);
    MidInRoom(last);
  }
}

=== FILE: path_finder.dfy ===
/**
 * The enemies' grid search (`Game.find_path`, classes/game.py): a best-first
 * search over the eight neighbours with a binary heap of (priority, cell)
 * pairs. A cell is pushed with the f-score it had before this push, which
 * no cell has yet, so every cell but the start waits in the heap at
 * priority infinity and the heap hands cells out in (x, y) order. The
 * result is therefore not a shortest path; what holds is that it is a
 * route, that the search ends, and that it fails only when there is none.
 */
module PathFinder {
  import opened Wrappers
  import opened Grids

  /** A heap priority: a finite f-score or `float('inf')`. */
  datatype Prio = Fin(v: int) | Inf

  datatype Entry = Entry(prio: Prio, pos: Pos)

  predicate PrioLess(a: Prio, b: Prio) {
    match (a, b)
    case (Fin(u), Fin(v)) => u < v
    case (Fin(_), Inf) => true
    case _ => false
  }

  /** Python's ordering of `(priority, (x, y))` tuples. */
  predicate EntryLess(a: Entry, b: Entry) {
    || PrioLess(a.prio, b.prio)
    || (a.prio == b.prio && (a.pos.x < b.pos.x || (a.pos.x == b.pos.x && a.pos.y < b.pos.y)))
  }

  lemma EntryLessTransitive(a: Entry, b: Entry, c: Entry)
    requires EntryLess(a, b) && EntryLess(b, c)
    ensures EntryLess(a, c)
  {
  }

  /** `heuristic`: Manhattan distance to the goal, between one and two
      times the number of king moves. */
  function Heuristic(a: Pos, goal: Pos): (h: nat)
    ensures Chebyshev(a, goal) <= h <= 2 * Chebyshev(a, goal)
    ensures h == 0 <==> a == goal
  {
    Abs(goal.x - a.x) + Abs(goal.y - a.y)
  }

  function Positions(heap: seq<Entry>): set<Pos> {
    set i | 0 <= i < |heap| :: heap[i].pos
  }

  predicate Distinct(heap: seq<Entry>) {
    forall i, j :: 0 <= i < j < |heap| ==> heap[i].pos != heap[j].pos
  }

  /** The entry `heappop` returns: the least one. */
  function MinIndex(heap: seq<Entry>): (i: nat)
    requires |heap| > 0
    ensures i < |heap|
    ensures forall j :: 0 <= j < |heap| ==> !EntryLess(heap[j], heap[i])
  {
    if |heap| == 1 then 0
    else
      var m := MinIndex(heap[..|heap| - 1]);
      var last := |heap| - 1;
      if EntryLess(heap[last], heap[m]) then
        assert forall j :: 0 <= j < last ==> !EntryLess(heap[j], heap[last]) by {
          forall j | 0 <= j < last ensures !EntryLess(heap[j], heap[last]) {
            assert heap[j] == heap[..last][j];
            if EntryLess(heap[j], heap[last]) {
              EntryLessTransitive(heap[j], heap[last], heap[m]);
            }
          }
        }
        last
      else
        assert forall j :: 0 <= j < last ==> heap[j] == heap[..last][j];
        m
  }

  function RemoveAt(heap: seq<Entry>, i: nat): seq<Entry>
    requires i < |heap|
  {
    heap[..i] + heap[i + 1..]
  }

  lemma PositionsAppend(heap: seq<Entry>, e: Entry)
    ensures Positions(heap + [e]) == Positions(heap) + {e.pos}
  {
    var h := heap + [e];
    forall p | p in Positions(heap) ensures p in Positions(h) {
      var i :| 0 <= i < |heap| && heap[i].pos == p;
      assert h[i].pos == p;
    }
    assert h[|heap|].pos == e.pos;
  }

  lemma PositionsRemove(heap: seq<Entry>, i: nat)
    requires i < |heap| && Distinct(heap)
    ensures Positions(RemoveAt(heap, i)) == Positions(heap) - {heap[i].pos}
    ensures Distinct(RemoveAt(heap, i))
    ensures forall j :: 0 <= j < |RemoveAt(heap, i)| ==> RemoveAt(heap, i)[j] == heap[if j < i then j else j + 1]
  {
    var r := RemoveAt(heap, i);
    assert forall j :: 0 <= j < |r| ==> r[j] == heap[if j < i then j else j + 1];
    forall p | p in Positions(heap) - {heap[i].pos} ensures p in Positions(r) {
      var j :| 0 <= j < |heap| && heap[j].pos == p;
      assert r[if j < i then j else j - 1].pos == p;
    }
  }

  /** Cells whose search is not finished yet can only come from here. */
  function Universe(height: int, width: int, start: Pos): set<Pos> {
    (set x, y | 0 <= x < width && 0 <= y < height :: Pos(x, y)) + {start}
  }

  /** The search state: the heap, the closed set, parent links and scores. */
  datatype Search = Search(
    heap: seq<Entry>,
    closed: set<Pos>,
    cameFrom: map<Pos, Pos>,
    gscore: map<Pos, int>,
    fscore: map<Pos, int>)

  /** The parent link of `n`: a closed cell one step away whose g-score is
      one less, and `n` itself in bounds and passable. */
  predicate Linked(g: Grid, height: int, width: int, s: Search, n: Pos) {
    && n in s.cameFrom
    && s.cameFrom[n] in s.closed
    && Step(s.cameFrom[n], n)
    && Shaped(g, height, width) && InBounds(height, width, n.x, n.y) && Passable(g[n.y][n.x])
    && n in s.gscore && s.cameFrom[n] in s.gscore
    && s.gscore[n] == s.gscore[s.cameFrom[n]] + 1
  }

  /** Parent links lead back to the start. (The explicit trigger keeps the
      solver from chasing parent chains on its own.) */
  predicate Tree(g: Grid, height: int, width: int, start: Pos, s: Search)
    requires Shaped(g, height, width)
  {
    && start !in s.cameFrom
    && s.gscore.Keys == s.cameFrom.Keys + {start}
    && s.fscore.Keys == s.gscore.Keys
    && s.gscore[start] == 0
    && (forall n :: n in s.gscore ==> s.gscore[n] >= 0)
    && (forall c :: c in s.closed ==> c == start || c in s.cameFrom)
    && (forall p :: p in Positions(s.heap) ==> p == start || p in s.cameFrom)
    && s.cameFrom.Keys <= Positions(s.heap) + s.closed
    && (forall n {:trigger Linked(g, height, width, s, n)} :: n in s.cameFrom ==> Linked(g, height, width, s, n))
  }

  /** The heap holds each cell once, never a closed one, and every cell but
      the start sits there at priority infinity. */
  predicate Frontier(start: Pos, goal: Pos, s: Search) {
    && Distinct(s.heap)
    && Positions(s.heap) !! s.closed
    && goal !in s.closed
    && (start !in s.closed ==> s.closed == {} && Positions(s.heap) == {start})
    && (forall i :: 0 <= i < |s.heap| && s.heap[i].pos != start ==> s.heap[i].prio == Inf)
  }

  /** A passable in-bounds cell `n` has been seen: it is closed or waiting. */
  predicate Covered(g: Grid, height: int, width: int, s: Search, n: Pos)
    requires Shaped(g, height, width)
  {
    InBounds(height, width, n.x, n.y) && Passable(g[n.y][n.x]) ==> n in s.closed || n in Positions(s.heap)
  }

  /** Every neighbour of every cell in `done` has been seen. */
  predicate ClosedUnder(g: Grid, height: int, width: int, s: Search, done: set<Pos>)
    requires Shaped(g, height, width)
  {
    forall c, k {:trigger Covered(g, height, width, s, Shift(c, Offsets[k]))} ::
      c in done && 0 <= k < |Offsets| ==> Covered(g, height, width, s, Shift(c, Offsets[k]))
  }

  /** The neighbour loop's body for neighbour `n` of the cell just closed:
      skip it if it is off the map, wall, blank or closed; push it if it is
      not waiting; otherwise relink it only if this route to it is shorter. */
  function Visit(g: Grid, height: int, width: int, goal: Pos, s: Search, current: Pos, n: Pos): Search
    requires Shaped(g, height, width) && current in s.gscore
  {
    if !(InBounds(height, width, n.x, n.y) && Passable(g[n.y][n.x]) && n !in s.closed) then s
    else
      var tentative := s.gscore[current] + 1;
      if n !in Positions(s.heap) then
        var prio := if n in s.fscore then Fin(s.fscore[n]) else Inf;
        Search(s.heap + [Entry(prio, n)], s.closed, s.cameFrom[n := current],
               s.gscore[n := tentative], s.fscore[n := tentative + Heuristic(n, goal)])
      else if n in s.gscore && tentative >= s.gscore[n] then s
      else
        s.(cameFrom := s.cameFrom[n := current], gscore := s.gscore[n := tentative],
           fscore := s.fscore[n := tentative + Heuristic(n, goal)])
  }

  /** The state the neighbour loop runs in: `current` closed, and with it the start. */
  predicate Expanding(g: Grid, height: int, width: int, start: Pos, goal: Pos, s: Search, current: Pos)
    requires Shaped(g, height, width)
  {
    Tree(g, height, width, start, s) && Frontier(start, goal, s) && current in s.closed && start in s.closed
  }

  /** A fresh cell goes in at priority infinity: nothing has scored it yet. */
  lemma FreshIsUnscored(g: Grid, height: int, width: int, start: Pos, goal: Pos, s: Search, current: Pos, n: Pos)
    requires Shaped(g, height, width) && Expanding(g, height, width, start, goal, s, current)
    requires n !in s.closed && n !in Positions(s.heap)
    ensures n !in s.fscore && n !in s.cameFrom && n != start
  {
  }

  lemma VisitPush(g: Grid, height: int, width: int, start: Pos, goal: Pos, s: Search, current: Pos, n: Pos)
    requires Shaped(g, height, width) && Expanding(g, height, width, start, goal, s, current)
    requires Step(current, n) && InBounds(height, width, n.x, n.y) && Passable(g[n.y][n.x])
    requires n !in s.closed && n !in Positions(s.heap)
    ensures var s' := Visit(g, height, width, goal, s, current, n);
      Expanding(g, height, width, start, goal, s', current) && s'.closed == s.closed &&
      Positions(s'.heap) == Positions(s.heap) + {n}
  {
    FreshIsUnscored(g, height, width, start, goal, s, current, n);
    var e := Entry(Inf, n);
    PositionsAppend(s.heap, e);
    var s' := Visit(g, height, width, goal, s, current, n);
    assert s'.heap == s.heap + [e];
    assert Distinct(s'.heap);
    assert Linked(g, height, width, s, current) || current == start;
    forall m | m in s'.cameFrom ensures Linked(g, height, width, s', m) {
      if m != n {
        assert Linked(g, height, width, s, m);
      }
    }
  }

  lemma VisitRelink(g: Grid, height: int, width: int, start: Pos, goal: Pos, s: Search, current: Pos, n: Pos)
    requires Shaped(g, height, width) && Expanding(g, height, width, start, goal, s, current)
    requires Step(current, n) && InBounds(height, width, n.x, n.y) && Passable(g[n.y][n.x])
    requires n !in s.closed && n in Positions(s.heap)
    ensures var s' := Visit(g, height, width, goal, s, current, n);
      Expanding(g, height, width, start, goal, s', current) && s'.closed == s.closed && s'.heap == s.heap
  {
    var s' := Visit(g, height, width, goal, s, current, n);
    assert Linked(g, height, width, s, current) || current == start;
    forall m | m in s'.cameFrom ensures Linked(g, height, width, s', m) {
      if m != n {
        assert Linked(g, height, width, s, m);
      }
    }
  }

  /** Visiting `n` keeps the invariants, only adds to the heap, and leaves `n` seen. */
  lemma VisitKeeps(g: Grid, height: int, width: int, start: Pos, goal: Pos, s: Search, current: Pos, n: Pos)
    requires Shaped(g, height, width) && Expanding(g, height, width, start, goal, s, current)
    requires Step(current, n)
    ensures var s' := Visit(g, height, width, goal, s, current, n);
      && Expanding(g, height, width, start, goal, s', current) && s'.closed == s.closed
      && Positions(s.heap) <= Positions(s'.heap)
      && Covered(g, height, width, s', n)
  {
    if InBounds(height, width, n.x, n.y) && Passable(g[n.y][n.x]) && n !in s.closed {
      if n !in Positions(s.heap) {
        VisitPush(g, height, width, start, goal, s, current, n);
      } else {
        VisitRelink(g, height, width, start, goal, s, current, n);
      }
    }
  }

  /** Visit one neighbour: the step the search loop takes for each offset. */
  method VisitNeighbour(g: Grid, height: int, width: int, start: Pos, goal: Pos, s: Search, current: Pos, n: Pos)
    returns (s': Search)
    requires Shaped(g, height, width) && Expanding(g, height, width, start, goal, s, current)
    requires Step(current, n)
    ensures Expanding(g, height, width, start, goal, s', current) && s'.closed == s.closed
    ensures Positions(s.heap) <= Positions(s'.heap)
    ensures Covered(g, height, width, s', n)
  {
    VisitKeeps(g, height, width, start, goal, s, current, n);
    s' := Visit(g, height, width, goal, s, current, n);
  }

  /** Growing the heap with the closed set fixed keeps cells seen. */
  lemma CoveredGrows(g: Grid, height: int, width: int, s: Search, s': Search, done: set<Pos>)
    requires Shaped(g, height, width) && s.closed == s'.closed && Positions(s.heap) <= Positions(s'.heap)
    requires ClosedUnder(g, height, width, s, done)
    ensures ClosedUnder(g, height, width, s', done)
  {
    forall c, k | c in done && 0 <= k < |Offsets|
      ensures Covered(g, height, width, s', Shift(c, Offsets[k]))
    {
      assert Covered(g, height, width, s, Shift(c, Offsets[k]));
    }
  }

  /** Once every neighbour of `current` is seen, the whole closed set is. */
  lemma CloseCurrent(g: Grid, height: int, width: int, s: Search, closed: set<Pos>, current: Pos)
    requires Shaped(g, height, width) && s.closed == closed
    requires ClosedUnder(g, height, width, s, closed - {current})
    requires forall j :: 0 <= j < |Offsets| ==> Covered(g, height, width, s, Shift(current, Offsets[j]))
    ensures ClosedUnder(g, height, width, s, closed)
  {
    forall c, j | c in closed && 0 <= j < |Offsets|
      ensures Covered(g, height, width, s, Shift(c, Offsets[j]))
    {
      if c != current {
        assert c in closed - {current};
      }
    }
  }

  /** One pass of the neighbour loop: visit offset k, keeping earlier neighbours seen. */
  method ExpandStep(g: Grid, height: int, width: int, start: Pos, goal: Pos, s: Search, current: Pos, k: nat)
    returns (s': Search)
    requires Shaped(g, height, width) && Expanding(g, height, width, start, goal, s, current)
    requires k < |Offsets|
    requires forall j :: 0 <= j < k ==> Covered(g, height, width, s, Shift(current, Offsets[j]))
    ensures Expanding(g, height, width, start, goal, s', current)
    ensures s'.closed == s.closed && Positions(s.heap) <= Positions(s'.heap)
    ensures forall j :: 0 <= j <= k ==> Covered(g, height, width, s', Shift(current, Offsets[j]))
  {
    var n := Shift(current, Offsets[k]);
    OffsetIsStep(current, k);
    s' := VisitNeighbour(g, height, width, start, goal, s, current, n);
    forall j | 0 <= j < k ensures Covered(g, height, width, s', Shift(current, Offsets[j])) {
      assert Covered(g, height, width, s, Shift(current, Offsets[j]));
    }
  }

  /** The neighbour loop for the cell just closed. */
  method Expand(g: Grid, height: int, width: int, start: Pos, goal: Pos, s0: Search, current: Pos) returns (s: Search)
    requires Shaped(g, height, width) && Expanding(g, height, width, start, goal, s0, current)
    requires ClosedUnder(g, height, width, s0, s0.closed - {current})
    ensures Tree(g, height, width, start, s) && Frontier(start, goal, s)
    ensures s.closed == s0.closed
    ensures ClosedUnder(g, height, width, s, s.closed)
  {
    s := s0;
    var k := 0;
    while k < |Offsets|
      invariant 0 <= k <= |Offsets|
      invariant Expanding(g, height, width, start, goal, s, current)
      invariant s.closed == s0.closed && Positions(s0.heap) <= Positions(s.heap)
      invariant forall j :: 0 <= j < k ==> Covered(g, height, width, s, Shift(current, Offsets[j]))
    {
      s := ExpandStep(g, height, width, start, goal, s, current, k);
      k := k + 1;
    }
    CoveredGrows(g, height, width, s0, s, s0.closed - {current});
    CloseCurrent(g, height, width, s, s0.closed, current);
  }

  /** Walk the parent links back from the goal. The source collects the
      cells goal-first and reverses; this builds the same list front-first. */
  method Reconstruct(g: Grid, height: int, width: int, start: Pos, goal: Pos, s: Search) returns (path: seq<Pos>)
    requires Shaped(g, height, width) && Tree(g, height, width, start, s)
    requires goal == start || goal in s.cameFrom
    ensures IsRoute(g, height, width, path, start, goal)
  {
    var current := goal;
    var tail: seq<Pos> := [];
    while current in s.cameFrom
      invariant current == start || current in s.cameFrom
      invariant IsRoute(g, height, width, [current] + tail, current, goal)
      decreases s.gscore[current]
    {
      assert Linked(g, height, width, s, current);
      var parent := s.cameFrom[current];
      RouteCons(g, height, width, parent, [current] + tail, current, goal);
      tail := [current] + tail;
      current := parent;
    }
    path := [start] + tail;
  }

  /** Once the heap is empty, the closed set is closed under passable steps,
      so a route from the start never leaves it. */
  lemma {:induction false} RouteStaysClosed(g: Grid, height: int, width: int, s: Search, path: seq<Pos>, i: nat)
    requires Shaped(g, height, width) && |s.heap| == 0
    requires ClosedUnder(g, height, width, s, s.closed)
    requires |path| >= 1 && path[0] in s.closed && i < |path|
    requires forall j :: 1 <= j < |path| ==> Step(path[j - 1], path[j])
    requires forall j :: 1 <= j < |path| ==>
      InBounds(height, width, path[j].x, path[j].y) && Passable(g[path[j].y][path[j].x])
    ensures path[i] in s.closed
    decreases i
  {
    if i > 0 {
      RouteStaysClosed(g, height, width, s, path, i - 1);
      StepIsOffset(path[i - 1], path[i]);
      var k :| 0 <= k < |Offsets| && path[i] == Shift(path[i - 1], Offsets[k]);
      assert Covered(g, height, width, s, Shift(path[i - 1], Offsets[k]));
    }
  }

  lemma Exhausted(g: Grid, height: int, width: int, start: Pos, goal: Pos, s: Search)
    requires Shaped(g, height, width) && |s.heap| == 0
    requires ClosedUnder(g, height, width, s, s.closed)
    requires start in s.closed && goal !in s.closed
    ensures !Reachable(g, height, width, start, goal)
  {
    forall path | IsRoute(g, height, width, path, start, goal) ensures false {
      RouteStaysClosed(g, height, width, s, path, |path| - 1);
    }
  }

  /** Closing a waiting cell shrinks what is left of the universe. */
  lemma CloseShrinks(height: int, width: int, start: Pos, closed: set<Pos>, c: Pos)
    requires c in Universe(height, width, start) && c !in closed
    ensures |Universe(height, width, start) - (closed + {c})| < |Universe(height, width, start) - closed|
  {
    var u := Universe(height, width, start);
    assert u - closed == (u - (closed + {c})) + {c};
  }

  /** The state after popping entry i and closing its cell. */
  function Pop(s: Search, i: nat): Search
    requires i < |s.heap|
  {
    s.(heap := RemoveAt(s.heap, i), closed := s.closed + {s.heap[i].pos})
  }

  lemma PopTree(g: Grid, height: int, width: int, start: Pos, s: Search, i: nat)
    requires Shaped(g, height, width) && Tree(g, height, width, start, s)
    requires i < |s.heap| && Distinct(s.heap)
    ensures Tree(g, height, width, start, Pop(s, i))
  {
    var s' := Pop(s, i);
    PositionsRemove(s.heap, i);
    assert s.heap[i].pos in Positions(s.heap);
    forall m | m in s'.cameFrom ensures Linked(g, height, width, s', m) {
      assert Linked(g, height, width, s, m);
    }
  }

  lemma PopFrontier(g: Grid, height: int, width: int, start: Pos, goal: Pos, s: Search, i: nat)
    requires Shaped(g, height, width) && Tree(g, height, width, start, s) && Frontier(start, goal, s)
    requires i < |s.heap| && s.heap[i].pos != goal
    ensures Frontier(start, goal, Pop(s, i))
    ensures s.heap[i].pos in Universe(height, width, start) && s.heap[i].pos !in s.closed
  {
    PositionsRemove(s.heap, i);
    var c := s.heap[i].pos;
    assert c in Positions(s.heap);
    if c != start {
      assert Linked(g, height, width, s, c);
    }
  }

  lemma PopCovered(g: Grid, height: int, width: int, s: Search, i: nat)
    requires Shaped(g, height, width) && ClosedUnder(g, height, width, s, s.closed)
    requires i < |s.heap| && Distinct(s.heap)
    ensures ClosedUnder(g, height, width, Pop(s, i), s.closed)
  {
    var s' := Pop(s, i);
    PositionsRemove(s.heap, i);
    forall d, k | d in s.closed && 0 <= k < |Offsets|
      ensures Covered(g, height, width, s', Shift(d, Offsets[k]))
    {
      assert Covered(g, height, width, s, Shift(d, Offsets[k]));
    }
  }

  /** Popping the least entry and closing it sets up the neighbour loop and
      shrinks what is left of the universe. */
  lemma PopKeeps(g: Grid, height: int, width: int, start: Pos, goal: Pos, s: Search, i: nat)
    requires Shaped(g, height, width) && Tree(g, height, width, start, s) && Frontier(start, goal, s)
    requires ClosedUnder(g, height, width, s, s.closed)
    requires i < |s.heap| && s.heap[i].pos != goal
    ensures var c := s.heap[i].pos;
      && Expanding(g, height, width, start, goal, Pop(s, i), c)
      && ClosedUnder(g, height, width, Pop(s, i), Pop(s, i).closed - {c})
      && |Universe(height, width, start) - Pop(s, i).closed| < |Universe(height, width, start) - s.closed|
  {
    var c := s.heap[i].pos;
    PopTree(g, height, width, start, s, i);
    PopFrontier(g, height, width, start, goal, s, i);
    PopCovered(g, height, width, s, i);
    CloseShrinks(height, width, start, s.closed, c);
    assert Pop(s, i).closed - {c} == s.closed;
  }

  /** `find_path`: a route from `start` to `goal` through in-bounds cells that
      are neither wall nor blank, or None exactly when there is none. */
  method FindPath(g: Grid, height: int, width: int, start: Pos, goal: Pos) returns (r: Option<seq<Pos>>)
    requires Shaped(g, height, width)
    ensures r.Some? ==> IsRoute(g, height, width, r.value, start, goal)
    ensures r.None? <==> !Reachable(g, height, width, start, goal)
  {
    var h0 := Heuristic(start, goal);
    var s := Search([Entry(Fin(h0), start)], {}, map[], map[start := 0], map[start := h0]);
    assert Positions(s.heap) == {start} by {
      assert s.heap[0].pos == start;
    }
    while |s.heap| > 0
      invariant Tree(g, height, width, start, s) && Frontier(start, goal, s)
      invariant ClosedUnder(g, height, width, s, s.closed)
      decreases |Universe(height, width, start) - s.closed|
    {
      var i := MinIndex(s.heap);
      var current := s.heap[i].pos;
      assert current in Positions(s.heap);
      if current == goal {
        var path := Reconstruct(g, height, width, start, goal, s);
        return Some(path);
      }
      PopKeeps(g, height, width, start, goal, s, i);
      s := Pop(s, i);
      s := Expand(g, height, width, start, goal, s, current);
    }
    Exhausted(g, height, width, start, goal, s);
    return None;
  }
}

=== FILE: turns.dfy ===
/**
 * The turn engine of `Game` (classes/game.py): the player's move-or-attack,
 * the enemies' answer, and the upkeep at the end of every turn (roster
 * clean-up, regeneration, the spawn clock, floor notices and potion
 * boosts).
 */
module Turns {
  import opened Wrappers
  import opened Grids
  import opened Items
  import opened Log
  import opened Entities
  import opened Combat
  import opened GameState
  import opened GameCombat
  import PathFinder

  // ---------------------------------------------------------------------
  // Roster clean-up

  /** The list comprehension at the top of `process_turn`: the enemies with
      health left, in roster order. */
  function Alive(es: seq<Entity>): (r: seq<Entity>)
    ensures |r| <= |es|
    ensures forall e :: e in r <==> e in es && e.health > 0
    decreases |es|
  {
    if |es| == 0 then []
    else if es[0].health > 0 then [es[0]] + Alive(es[1..])
    else Alive(es[1..])
  }

  /** A roster with distinct cells stays so without its first enemy, and no
      other enemy shares the first one's cell. */
  lemma DistinctTail(es: seq<Entity>)
    requires |es| > 0 && DistinctPositions(es)
    ensures DistinctPositions(es[1..]) && !Occupied(es[1..], At(es[0]))
  {
    var rest := es[1..];
    forall i | 0 <= i < |rest| ensures rest[i] == es[i + 1] {
    }
  }

  /** An enemy on a cell nobody else occupies can join a roster with distinct cells. */
  lemma DistinctCons(e: Entity, es: seq<Entity>)
    requires DistinctPositions(es) && !Occupied(es, At(e))
    ensures DistinctPositions([e] + es)
  {
    var r := [e] + es;
    forall i | 0 < i < |r| ensures r[i] == es[i - 1] {
    }
  }

  /** The survivors occupy only cells the whole roster occupied. */
  lemma AliveOccupied(es: seq<Entity>, p: Pos)
    ensures Occupied(Alive(es), p) ==> Occupied(es, p)
  {
    if Occupied(Alive(es), p) {
      var i :| 0 <= i < |Alive(es)| && At(Alive(es)[i]) == p;
      assert Alive(es)[i] in es;
    }
  }

  /** Filtering the roster never puts two enemies on one cell. */
  lemma {:induction false} AliveKeepsDistinct(es: seq<Entity>)
    requires DistinctPositions(es)
    ensures DistinctPositions(Alive(es))
    decreases |es|
  {
    if |es| > 0 {
      DistinctTail(es);
      AliveKeepsDistinct(es[1..]);
      if es[0].health > 0 {
        AliveOccupied(es[1..], At(es[0]));
        DistinctCons(es[0], Alive(es[1..]));
      }
    }
  }

  /** The clean-up keeps every invariant of the game. */
  lemma AliveKeepsSane(g: Game)
    requires Sane(g)
    ensures Sane(g.(enemies := Alive(g.enemies)))
    ensures forall i :: 0 <= i < |Alive(g.enemies)| ==> Alive(g.enemies)[i].health > 0
  {
    AliveKeepsDistinct(g.enemies);
    var r := Alive(g.enemies);
    forall i | 0 <= i < |r|
      ensures InBounds(g.height, g.width, r[i].x, r[i].y) && Passable(g.grid[r[i].y][r[i].x])
      ensures r[i].health > 0
    {
      assert r[i] in g.enemies;
    }
  }

  // ---------------------------------------------------------------------
  // The enemies' move

  /** How one enemy may have changed during `move_enemies`: only its cell,
      and only by one step, away from the player's cell, and only if it was
      not already next to the player. */
  predicate Acted(before: Entity, after: Entity, player: Entity) {
    && after == before.(x := after.x, y := after.y)
    && (At(after) == At(before) ||
        (Distance(before, player) > 1 && Step(At(before), At(after)) && At(after) != At(player)))
  }

  /** Moving enemy i to a free passable cell keeps the game sane. */
  lemma MoveKeepsSane(g: Game, i: nat, p: Pos)
    requires Sane(g) && i < |g.enemies|
    requires InBounds(g.height, g.width, p.x, p.y) && Passable(g.grid[p.y][p.x])
    requires !Occupied(g.enemies, p)
    ensures Sane(g.(enemies := g.enemies[i := g.enemies[i].(x := p.x, y := p.y)]))
  {
    var es := g.enemies[i := g.enemies[i].(x := p.x, y := p.y)];
    forall a, b | 0 <= a < b < |es| ensures At(es[a]) != At(es[b]) {
      if a != i && b != i {
        assert es[a] == g.enemies[a] && es[b] == g.enemies[b];
      }
    }
  }

  /** One iteration of `move_enemies` for the enemy at roster index i: next
      to the player it attacks; otherwise it takes the first step of
      `find_path` toward the player, unless another enemy stands there. */
  method EnemyAct(g: Game, i: nat, roll: Roll) returns (r: Game)
    requires Sane(g) && i < |g.enemies|
    ensures Sane(r) && |r.enemies| == |g.enemies|
    ensures r == g.(player := r.player, enemies := r.enemies, messages := r.messages)
    ensures Distance(g.enemies[i], g.player) <= 1 ==>
      r == EnemyStrikes(g, i, roll) && |r.messages| > |g.messages|
    ensures Distance(g.enemies[i], g.player) > 1 ==>
      && r.player == g.player && r.messages == g.messages
      && r.enemies == g.enemies[i := r.enemies[i]]
      && Acted(g.enemies[i], r.enemies[i], g.player)
    ensures Distance(g.enemies[i], g.player) > 1 && At(r.enemies[i]) != At(g.enemies[i]) ==>
      Reachable(g.grid, g.height, g.width, At(r.enemies[i]), At(g.player))
    ensures !Reachable(g.grid, g.height, g.width, At(g.enemies[i]), At(g.player)) ==>
      r.enemies == g.enemies
    ensures
      (&& Distance(g.enemies[i], g.player) > 1 && NoNeighbour(g.enemies, i)
       && Reachable(g.grid, g.height, g.width, At(g.enemies[i]), At(g.player)))
      ==> At(r.enemies[i]) != At(g.enemies[i])
  {
    var e := g.enemies[i];
    if Distance(e, g.player) <= 1 {
      return EnemyStrikes(g, i, roll);
    }
    var path := PathFinder.FindPath(g.grid, g.height, g.width, At(e), At(g.player));
    if path.Some? && NoNeighbour(g.enemies, i) {
      // A route out of a cell other than the goal has a first step, and
      // only a neighbouring enemy could stand on it.
      assert |path.value| > 1;
      assert Step(At(e), path.value[1]);
      assert !Occupied(g.enemies, path.value[1]);
    }
    if path.Some? && |path.value| > 1 && !Occupied(g.enemies, path.value[1]) {
      var next := path.value[1];
      RouteTail(g.grid, g.height, g.width, path.value, At(e), At(g.player));
      StepDistance(At(e), next, At(g.player));
      MoveKeepsSane(g, i, next);
      r := g.(enemies := g.enemies[i := e.(x := next.x, y := next.y)]);
    } else {
      r := g;
    }
  }

  /** No other enemy stands on a cell next to enemy `i`. */
  predicate NoNeighbour(es: seq<Entity>, i: nat)
    requires i < |es|
  {
    forall j :: 0 <= j < |es| && j != i ==> !Step(At(es[i]), At(es[j]))
  }

  /** The attack rolls of `move_enemies`: `rolls(i)` is the roll enemy i uses
      if it attacks. */
  type Rolls = nat -> Roll

  /** The state of `move_enemies` after the first i enemies have acted. */
  ghost predicate MovedSoFar(game: Game, r: Game, i: nat) {
    && i <= |game.enemies|
    && Sane(r) && |r.enemies| == |game.enemies|
    && r == game.(player := r.player, enemies := r.enemies, messages := r.messages)
    && r.player == game.player.(health := r.player.health) && r.player.health <= game.player.health
    && game.messages <= r.messages
    && (forall j :: 0 <= j < i ==> Acted(game.enemies[j], r.enemies[j], game.player))
    && (forall j :: i <= j < |game.enemies| ==> r.enemies[j] == game.enemies[j])
    && (if forall j :: 0 <= j < i ==> Distance(game.enemies[j], game.player) > 1
        then r.player == game.player && r.messages == game.messages
        else |r.messages| > |game.messages|)
    && (forall j :: 0 <= j < i && Chases(game, j) ==> At(r.enemies[j]) != At(game.enemies[j]))
  }

  /** No other enemy stands within two cells of enemy `i`. */
  predicate Apart(es: seq<Entity>, i: nat)
    requires i < |es|
  {
    forall j :: 0 <= j < |es| && j != i ==> Chebyshev(At(es[i]), At(es[j])) > 2
  }

  /** Enemy `i` is out of reach of the player, can walk to it, and has no
      other enemy nearby that could block its first step. */
  ghost predicate Chases(g: Game, i: nat)
    requires Shaped(g.grid, g.height, g.width) && i < |g.enemies|
  {
    && Distance(g.enemies[i], g.player) > 1 && Apart(g.enemies, i)
    && Reachable(g.grid, g.height, g.width, At(g.enemies[i]), At(g.player))
  }

  /** Enemies that moved so far moved one step, so none of them is next to an
      enemy that started more than two cells away from all others. */
  lemma ApartStaysClear(game: Game, r: Game, i: nat)
    requires i < |game.enemies| && MovedSoFar(game, r, i) && Apart(game.enemies, i)
    ensures NoNeighbour(r.enemies, i)
  {
    forall k | 0 <= k < |r.enemies| && k != i
      ensures !Step(At(r.enemies[i]), At(r.enemies[k]))
    {
      if k < i && At(r.enemies[k]) != At(game.enemies[k]) {
        StepDistance(At(game.enemies[k]), At(r.enemies[k]), At(game.enemies[i]));
      }
      StepIsOffset(At(r.enemies[i]), At(r.enemies[k]));
    }
  }

  /** Enemy i takes its turn. */
  method ActNext(game: Game, r: Game, i: nat, roll: Roll) returns (r': Game)
    requires i < |game.enemies| && MovedSoFar(game, r, i)
    ensures MovedSoFar(game, r', i + 1)
  {
    assert At(r.player) == At(game.player) && r.enemies[i] == game.enemies[i];
    if Chases(game, i) {
      ApartStaysClear(game, r, i);
    }
    r' := EnemyAct(r, i, roll);
    if Distance(game.enemies[i], game.player) <= 1 {
      assert r'.player.health <= r.player.health;
      assert r'.enemies == r.enemies;
    } else {
      assert Acted(game.enemies[i], r'.enemies[i], r.player);
    }
  }

  /** `move_enemies()`: every enemy acts once, in roster order. */
  method MoveEnemies(game: Game, rolls: Rolls) returns (r: Game)
    requires Sane(game)
    ensures Sane(r) && |r.enemies| == |game.enemies|
    ensures r == game.(player := r.player, enemies := r.enemies, messages := r.messages)
    ensures r.player == game.player.(health := r.player.health) && r.player.health <= game.player.health
    ensures game.messages <= r.messages
    ensures forall i :: 0 <= i < |r.enemies| ==> Acted(game.enemies[i], r.enemies[i], game.player)
    ensures if forall i :: 0 <= i < |game.enemies| ==> Distance(game.enemies[i], game.player) > 1
      then r.player == game.player && r.messages == game.messages
      else |r.messages| > |game.messages|
    ensures forall i :: 0 <= i < |game.enemies| && Chases(game, i) ==> At(r.enemies[i]) != At(game.enemies[i])
  {
    r := game;
    var i := 0;
    while i < |game.enemies|
      invariant MovedSoFar(game, r, i)
    {
      r := ActNext(game, r, i, rolls(i));
      i := i + 1;
    }
  }

  // ---------------------------------------------------------------------
  // End-of-turn upkeep

  /** The spawn clock: at most 49 turns since the last scheduled spawn. */
  predicate SpawnClock(g: Game) {
    0 <= g.turnCount - g.lastSpawnTurn < 50
  }

  /** Every turn that is a multiple of ten restores one point of health, up to the maximum. */
  function Regenerate(g: Game, turn: int): (r: Game)
    requires Sane(g)
    ensures Sane(r)
    ensures r == g.(player := r.player, messages := r.messages)
    ensures r.player == g.player.(health := r.player.health)
    ensures r.player.health == (if turn % 10 == 0 && g.player.health < g.player.maxHealth
                                then g.player.health + 1 else g.player.health)
    ensures r.messages == g.messages + (if r.player.health > g.player.health then [FeelBetter(1)] else [])
  {
    if turn % 10 == 0 then
      var amount := Min(g.player.maxHealth - g.player.health, 1);
      var g1 := g.(player := g.player.(health := g.player.health + amount));
      if amount > 0 then g1.(messages := g.messages + [FeelBetter(amount)]) else g1
    else g
  }

  /** The floor notices of `process_turn`: "Floor: <name>" for each item on
      the player's cell, unless that exact message was ever logged. */
  function Notices(log: seq<Msg>, items: seq<Placed>, p: Pos): (r: seq<Msg>)
    ensures log <= r
    ensures forall m :: m in r ==> (m in log || exists i :: (0 <= i < |items| && Pos(items[i].x, items[i].y) == p && m == FloorNotice(items[i].item.name)))
    ensures forall i :: (0 <= i < |items| && Pos(items[i].x, items[i].y) == p) ==> FloorNotice(items[i].item.name) in r
    ensures (forall i :: (0 <= i < |items| && Pos(items[i].x, items[i].y) == p) ==> FloorNotice(items[i].item.name) in log) ==> r == log
    ensures forall k :: |log| <= k < |r| ==> r[k] !in log && forall k' :: |log| <= k' < k ==> r[k'] != r[k]
    decreases |items|
  {
    if |items| == 0 then log
    else
      var it := items[|items| - 1];
      var before := Notices(log, items[..|items| - 1], p);
      assert forall i :: 0 <= i < |items| - 1 ==> items[..|items| - 1][i] == items[i];
      if Pos(it.x, it.y) == p then AppendOnce(before, FloorNotice(it.item.name)) else before
  }

  /** A notice is logged once: standing on the same items again adds nothing. */
  lemma NoticesIdempotent(log: seq<Msg>, items: seq<Placed>, p: Pos)
    ensures Notices(Notices(log, items, p), items, p) == Notices(log, items, p)
  {
  }

  /** The spawn clock of `process_turn` at turn t: when 50 turns have passed
      since the last spawn, one enemy spawns and the clock restarts. */
  function ScheduleSpawn(g: Game, t: int, spawn: SpawnDraw): (r: Option<Game>)
    requires Sane(g)
    ensures r.None? <==> t - g.lastSpawnTurn >= 50 && RandomFloor(g, spawn.cells).None?
    ensures r.Some? ==> Sane(r.value) && r.value == g.(enemies := r.value.enemies, lastSpawnTurn := r.value.lastSpawnTurn)
    ensures r.Some? ==> r.value.lastSpawnTurn == (if t - g.lastSpawnTurn >= 50 then t else g.lastSpawnTurn)
    ensures r.Some? ==>
      g.enemies <= r.value.enemies &&
      |r.value.enemies| == |g.enemies| + (if t - g.lastSpawnTurn >= 50 then 1 else 0)
    ensures r.Some? && t - g.lastSpawnTurn >= 50 ==>
      r.value.enemies == g.enemies + [MakeEnemy(g.dungeonLevel, RandomFloor(g, spawn.cells).value, spawn)]
  {
    if t - g.lastSpawnTurn >= 50 then
      match SpawnEnemy(g, spawn)
      case None => None
      case Some(s) => Some(s.(lastSpawnTurn := t))
    else Some(g)
  }

  /** The last steps of `process_turn`: floor notices for the player's cell,
      then one tick of the player's potion boosts. */
  function Settle(g: Game): (r: Game)
    requires Sane(g)
    ensures Sane(r)
    ensures r == g.(player := r.player, messages := r.messages)
    ensures r.player == UpdateTemporaryBoosts(g.player)
    ensures r.messages == Notices(g.messages, g.items, At(g.player))
  {
    g.(messages := Notices(g.messages, g.items, At(g.player)), player := UpdateTemporaryBoosts(g.player))
  }

  /** The upkeep after the enemies have moved: the turn counter, every tenth
      turn's regeneration, an enemy every 50 turns, floor notices, and the
      ticking of potion boosts. None when the spawn's cell draws ran out. */
  method EndTurn(g: Game, spawn: SpawnDraw) returns (r: Option<Game>)
    requires Sane(g)
    ensures var t := g.turnCount + 1;
      r.None? <==> t - g.lastSpawnTurn >= 50 && RandomFloor(g, spawn.cells).None?
    ensures r.Some? ==> Sane(r.value)
    ensures r.Some? ==> r.value.turnCount == g.turnCount + 1
    ensures r.Some? ==> (r.value.lastSpawnTurn ==
      if g.turnCount + 1 - g.lastSpawnTurn >= 50 then g.turnCount + 1 else g.lastSpawnTurn)
    ensures r.Some? && SpawnClock(g) ==> SpawnClock(r.value)
    ensures r.Some? ==>
      g.enemies <= r.value.enemies &&
      |r.value.enemies| == |g.enemies| + (if g.turnCount + 1 - g.lastSpawnTurn >= 50 then 1 else 0)
    ensures r.Some? ==> At(r.value.player) == At(g.player) && g.messages <= r.value.messages
    ensures r.Some? ==> r.value.player.boosts == UpdateTemporaryBoosts(g.player).boosts
    ensures r.Some? ==> r.value.player.health == Regenerate(g, g.turnCount + 1).player.health
    ensures r.Some? ==> r.value.items == g.items && r.value.grid == g.grid && r.value.dungeonLevel == g.dungeonLevel
  {
    var t := g.turnCount + 1;
    var g1 := Regenerate(g.(turnCount := t), t);
    var scheduled := ScheduleSpawn(g1, t, spawn);
    if scheduled.None? {
      return None;
    }
    r := Some(Settle(scheduled.value));
  }

  /** The random draws of one `process_turn`: the enemies' attack rolls and the scheduled spawn. */
  datatype TurnDraw = TurnDraw(rolls: Rolls, spawn: SpawnDraw)

  /** `process_turn()`: clean-up, the enemies' move, then the upkeep. */
  method ProcessTurn(game: Game, draw: TurnDraw) returns (r: Option<Game>)
    requires Sane(game)
    ensures r.Some? ==> Sane(r.value)
    ensures r.Some? ==> r.value.turnCount == game.turnCount + 1
    ensures r.Some? && SpawnClock(game) ==> SpawnClock(r.value)
    ensures r.Some? ==> At(r.value.player) == At(game.player) && game.messages <= r.value.messages
    ensures r.Some? ==> r.value.player.health <= game.player.health + 1
    ensures r.Some? ==> |r.value.enemies| >= |Alive(game.enemies)|
    ensures r.Some? ==> forall i :: 0 <= i < |Alive(game.enemies)| ==> r.value.enemies[i].health > 0
    ensures r.Some? ==> r.value.items == game.items && r.value.grid == game.grid
    ensures r.None? ==> game.turnCount + 1 - game.lastSpawnTurn >= 50
  {
    AliveKeepsSane(game);
    var cleaned := game.(enemies := Alive(game.enemies));
    var moved := MoveEnemies(cleaned, draw.rolls);
    r := EndTurn(moved, draw.spawn);
    if r.Some? {
      forall i | 0 <= i < |Alive(game.enemies)| ensures r.value.enemies[i].health > 0 {
        assert r.value.enemies[i] == moved.enemies[i];
        assert Acted(cleaned.enemies[i], moved.enemies[i], cleaned.player);
      }
    }
  }

  // ---------------------------------------------------------------------
  // The player's move

  /** The first enemy of the roster standing on `p`, as `next(...)` finds it. */
  function FirstEnemyAt(es: seq<Entity>, p: Pos): (r: Option<nat>)
    ensures r.Some? ==> r.value < |es| && At(es[r.value]) == p
    ensures r.Some? ==> forall j :: 0 <= j < r.value ==> At(es[j]) != p
    ensures r.None? <==> !Occupied(es, p)
    decreases |es|
  {
    if |es| == 0 then None
    else if At(es[0]) == p then Some(0)
    else
      match FirstEnemyAt(es[1..], p)
      case None =>
        assert forall j :: 1 <= j < |es| ==> es[j] == es[1..][j - 1];
        None
      case Some(k) =>
        assert forall j :: 1 <= j < |es| ==> es[j] == es[1..][j - 1];
        Some(k + 1)
  }

  /** The random draws of one `player_move_or_attack`: the player's attack
      roll, the kill draws, and the turn that follows a move. */
  datatype MoveDraw = MoveDraw(roll: Roll, kill: KillDraw, turn: TurnDraw)

  /** `player_move_or_attack(dx, dy)`: attack an enemy on the target cell
      (no turn passes), else step onto a floor or stairs cell and let a turn
      pass, else nothing happens. */
  method PlayerMoveOrAttack(game: Game, dx: int, dy: int, draw: MoveDraw) returns (r: Option<Game>)
    requires Sane(game)
    ensures r.Some? ==> Sane(r.value)
    ensures var target := Pos(game.player.x + dx, game.player.y + dy);
      Occupied(game.enemies, target) ==>
        r == Some(PlayerStrikes(game, FirstEnemyAt(game.enemies, target).value, draw.roll, draw.kill))
    ensures var target := Pos(game.player.x + dx, game.player.y + dy);
      !Occupied(game.enemies, target) && IsValidMove(game, target.x, target.y) && r.Some? ==>
        At(r.value.player) == target && r.value.turnCount == game.turnCount + 1
    ensures var target := Pos(game.player.x + dx, game.player.y + dy);
      !Occupied(game.enemies, target) && !IsValidMove(game, target.x, target.y) ==> r == Some(game)
    ensures r.Some? ==> r.value.grid == game.grid && game.messages <= r.value.messages
    ensures var target := Pos(game.player.x + dx, game.player.y + dy);
      r.None? ==>
        && !Occupied(game.enemies, target) && IsValidMove(game, target.x, target.y)
        && game.turnCount + 1 - game.lastSpawnTurn >= 50
  {
    var target := Pos(game.player.x + dx, game.player.y + dy);
    match FirstEnemyAt(game.enemies, target)
    case Some(i) =>
      r := Some(PlayerStrikes(game, i, draw.roll, draw.kill));
    case None =>
      if IsValidMove(game, target.x, target.y) {
        var stepped := game.(player := game.player.(x := target.x, y := target.y));
        r := ProcessTurn(stepped, draw.turn);
      } else {
        r := Some(game);
      }
  }
}

=== FILE: wrappers.dfy ===
/** Optional values: the model's stand-in for Python's `None`. */
module Wrappers {

  datatype Option<+T> = None | Some(value: T) {

    /** The wrapped value, or `default` when there is none. */
    function GetOr(default: T): T {
      match this
      case Some(v) => v
      case None => default
    }
  }

  function Min(a: int, b: int): int {
    if a <= b then a else b
  }

  function Max(a: int, b: int): int {
    if a >= b then a else b
  }
}
